=== FILE: README.md ===
# DopeTech storefront core in Dafny

A model of the core of the DopeTech Nepal storefront: its caches and the cached product service,
its SEO helpers (slugs, product URLs, structured data and the sitemap), the product variant
selector, the colour/feature combination editor and filter, the web-vitals monitor, the loading
optimizer, and the enhanced image component with its preload hook.

Everything is a value. Each cache is its entry list in insertion order plus its configuration. The
time `now` in milliseconds is an explicit argument. So are the backend's reply and a fetcher's
outcome (`Ok(value)` or `Err`). React state becomes a datatype, and each handler, effect or timer
callback becomes a function from one state to the next.

Modules:

- `Wrappers`: `Option` and `Outcome`.
- `Text`: the JavaScript string operations the code relies on. These are `trim` with JavaScript's
  whitespace set, ASCII `toLowerCase`, `includes`, `indexOf`, `split`/`join`, replace-all,
  decimal printing of a natural number and the `parseFloat` of plain decimals.
- `Lists` and `OrderedMap`: sequence helpers, and key/value lists in insertion order, which is
  how a JavaScript `Map` iterates.
- `EnhancedCache`, `EnhancedCacheFacts`, `LruCache`, `ImageCache`, `ApiCache`, `ApiCacheFacts`,
  `CacheKeys` and `CacheWarming`: `lib/cache-enhanced.ts`.
- `ProductService` and `ProductServiceFacts`: `lib/products-data-optimized.ts`.
- `Slugs`, `StructuredData` and `Sitemap`: `lib/seo-utils.ts` and `next-sitemap.config.js`.
  `Slugs.ExtractProductId` is `extractProductIdFromSlug`, lines 7-16 of
  `app/product/[id]/page.tsx`. Its contract says that a segment whose first characters are
  digits, followed by the end of the segment or by a hyphen (`Slugs.IdPrefix`), gives the decimal
  value of those digits, and that any other segment gives no id. Its partner lemma,
  `Slugs.ExtractProductIdRoundTrip`, is listed in the table under the URL generator it inverts.
- `OptionsSelector`: `components/product-options-selector.tsx`.
- `CombinationEditor`: `components/color-feature-combination.tsx`.
- `LexOrder` and `CombinationFilter`: `components/combination-filter.tsx`. `LexOrder` stands
  for the default ordering of `Array.prototype.sort` on strings. It compares code points, while
  JavaScript compares UTF-16 code units. The two orders agree on strings made only of characters
  up to U+FFFF.
- `PerformanceMonitor`: `components/performance-monitor.tsx`.
- `PerformanceOptimizer`: `components/performance-optimizer.tsx`.
- `ImagePreload`: `components/optimized-image-enhanced.tsx`.

Where the code and its documentation disagree, the model follows the code:

- **Eviction on overwrite.** `EnhancedCache.set` evicts whenever the cache is full, even when the
  key being written is already present.
- **The size cap can be exceeded.** The eviction loop only picks an entry last read strictly
  before `now`, and never removes the key `''`. So the cap holds only under those conditions.
- **An empty pattern clears everything.** `APICache.invalidate('')` treats `''` as "no pattern"
  because it is falsy.
- **Original-price check.** The combination editor rejects only a negative original price: `0`
  and `NaN` are falsy and skip the check.

## Model

| member | source | states |
|---|---|---|
| EnhancedCache.OrElse | lib/cache-enhanced.ts:24-25 | the falsy fallback on numbers: a missing value and `0` both take the fallback, any other value is kept |
| EnhancedCache.New | lib/cache-enhanced.ts:23-30 | the cache starts empty; a missing or zero size or TTL takes the default (100 entries, 300000 ms) and any other given value is kept; the cleanup timer runs unless its interval is exactly 0, with the given non-zero period or 60000 ms by default |
| EnhancedCache.Get | lib/cache-enhanced.ts:50-67 | a read returns the data exactly when the key is present and not expired; an expired entry is deleted; a hit adds one hit and sets the access time to `now`; no other key's entry changes and the configuration is untouched |
| EnhancedCache.Has | lib/cache-enhanced.ts:69-71 | true exactly when the key is present, unexpired and its data is not `null`, with the same side effects on the cache as a read |
| EnhancedCacheFacts.HasIsGetNotNull | lib/cache-enhanced.ts:69-71 | `has` gives the same answer and the same cache as a `get` whose result is compared with `null` |
| EnhancedCache.Delete | lib/cache-enhanced.ts:73-75 | reports whether the key was present; afterwards it is absent, every other key keeps its entry, and the survivors keep their order |
| EnhancedCache.Clear | lib/cache-enhanced.ts:77-79 | leaves no entries and the configuration as it was |
| EnhancedCache.Keys | lib/cache-enhanced.ts:85-87 | lists exactly the stored keys, one per entry |
| EnhancedCache.GetStats | lib/cache-enhanced.ts:89-100 | size is the entry count; hits is the sum of the per-entry hits; the hit rate is hits per entry, and 0 for an empty cache |
| EnhancedCache.OldestIndex | lib/cache-enhanced.ts:102-116 | the entry eviction picks is the first one, in insertion order, with the smallest access time; there is none when every entry was accessed at or after `now` |
| EnhancedCache.ScanOldest | lib/cache-enhanced.ts:106-111 | the scan keeps the first entry strictly below the best access time seen so far, starting from `now` |
| EnhancedCache.Set | lib/cache-enhanced.ts:32-48 | afterwards the key holds a new entry with zero hits, stored and accessed at `now`, whose TTL is the given one, or the default when it is missing or 0; every other key keeps its entry unless it was evicted; the key order afterwards is the old order less the evicted key, with the key appended at the end when it is not among the survivors, so an existing surviving key keeps its place; an eviction never grows the cache |
| EnhancedCache.Sweep | lib/cache-enhanced.ts:118-131 | a cleanup tick deletes exactly the entries expired at that time, and keeps the others in order |
| EnhancedCache.Destroy | lib/cache-enhanced.ts:133-138 | stops the timer and empties the cache, keeping the size and TTL settings |
| EnhancedCacheFacts.SetThenGet | lib/cache-enhanced.ts:32-67 | a stored value is read back while no more than its TTL has passed, and reads as absent once strictly more has |
| EnhancedCacheFacts.ReadCountsOneHit | lib/cache-enhanced.ts:57-62 | reading a fresh entry raises the reported total of hits by exactly one |
| EnhancedCacheFacts.TotalHitsUpdate | lib/cache-enhanced.ts:89-100 | replacing one entry changes the total of hits by the difference of the two entries' hits |
| EnhancedCacheFacts.SetKeepsCapacity | lib/cache-enhanced.ts:32-48 | the size cap survives a `set` when no key is `''` and, whenever the cache is full, some entry was last accessed before `now` |
| EnhancedCacheFacts.SetCanExceedCapacity | lib/cache-enhanced.ts:36-39 | when every entry was accessed at `now`, a full cache evicts nothing and a new key pushes it past its cap |
| EnhancedCacheFacts.SameMillisecondOverflow | lib/cache-enhanced.ts:36-39 | two different keys stored in the same millisecond into a one-entry cache leave two entries |
| EnhancedCacheFacts.EvictsLeastRecentlyRead | lib/cache-enhanced.ts:102-116 | eviction follows access time, not insertion: with room for two, storing `a` and `b`, reading `a` and then storing `c` evicts `b` |
| EnhancedCacheFacts.SweepInvisibleToReads | lib/cache-enhanced.ts:118-131 | a sweep changes no answer that a read at the same time would give |
| EnhancedCacheFacts.DestroyIdempotent | lib/cache-enhanced.ts:133-138 | destroying twice is destroying once |
| LruCache.New | lib/cache-enhanced.ts:146-148 | the cache starts empty with capacity 50, or the given capacity |
| LruCache.MoveToEnd | lib/cache-enhanced.ts:150-158 | deleting then re-inserting a key puts it last with the new value; no other key's value changes and the other keys keep their order |
| LruCache.Get | lib/cache-enhanced.ts:150-158 | returns the stored value; a present key becomes the most recently used and the others keep their order; an absent key changes nothing |
| LruCache.Set | lib/cache-enhanced.ts:160-172 | the key ends last with its new value; an existing key is only moved; a new key below capacity is appended; at capacity the least recently used key is evicted first, unless that key is `''` or the cache is empty; every other key keeps its value, and only the evicted key disappears |
| LruCache.Has | lib/cache-enhanced.ts:174-176 | membership, without touching recency |
| LruCache.Delete | lib/cache-enhanced.ts:178-180 | reports whether the key was present; afterwards it is absent, every other key keeps its value, and the others keep their places in the recency order |
| LruCache.Clear | lib/cache-enhanced.ts:182-184 | leaves no entries and the same capacity |
| LruCache.SetKeepsCapacity | lib/cache-enhanced.ts:160-172 | with non-empty keys, `set` never lets the cache grow past its capacity, or past one entry when the capacity is below one |
| LruCache.GetKeepsInvariant | lib/cache-enhanced.ts:150-158 | reads keep the capacity bound and the keys distinct |
| LruCache.EvictsLeastRecentlyUsed | lib/cache-enhanced.ts:150-172 | with room for two, storing `a` and `b`, reading `a` and then storing `c` leaves `a` and `c` |
| ImageCache.New | lib/cache-enhanced.ts:233-235 | an empty LRU cache of the image capacity, and nothing loaded |
| ImageCache.Loaded | lib/cache-enhanced.ts:242-254 | after a successful load the URL is marked loaded, is cached under itself, and no longer needs a request |
| ImageCache.Clear | lib/cache-enhanced.ts:260-263 | forgets both the cache and the loaded set |
| ApiCache.New | lib/cache-enhanced.ts:192-197 | the API cache holds 200 entries with a ten-minute TTL |
| ApiCache.Get | lib/cache-enhanced.ts:199-208 | a fresh non-null entry is returned without calling the fetcher; otherwise the fetcher is called exactly once and its value, `null` included, is stored under the default TTL and returned, while a rejection stores nothing and reaches the caller |
| ApiCache.Set | lib/cache-enhanced.ts:210-212 | stores the data with the given or default TTL; every other key keeps its entry unless evicted |
| ApiCache.Invalidate | lib/cache-enhanced.ts:214-225 | deletes exactly the keys the pattern reaches (all keys for a missing or empty pattern, else the keys containing it) and leaves the others, in order |
| ApiCache.Stats | lib/cache-enhanced.ts:227-229 | the entry count and the total hits of the underlying cache |
| ApiCacheFacts.MissThenHit | lib/cache-enhanced.ts:199-208 | after a miss that fetches non-null data, a second `get` within the TTL returns that data without calling its fetcher |
| ApiCacheFacts.NullIsRefetched | lib/cache-enhanced.ts:201-207 | a fetched `null` is stored, yet the next `get` misses and calls its fetcher again |
| ApiCacheFacts.HasIsHit | lib/cache-enhanced.ts:69-71 | on the API cache, `has` is true exactly when a `get` would be served without calling its fetcher |
| ApiCacheFacts.CachedNullNotHad | lib/cache-enhanced.ts:199-208 | a fetched `null` is stored under its key, yet `has` answers false for it, while stored data answers true within a non-negative TTL |
| ApiCacheFacts.InvalidateIdempotent | lib/cache-enhanced.ts:214-225 | invalidating twice with one pattern is invalidating once |
| CacheKeys.CreateCacheKey | lib/cache-enhanced.ts:271-273 | the key starts with the prefix and a colon; with parts it is prefix and parts joined by colons, and with none it ends in the colon |
| CacheKeys.SplitRecoversParts | lib/cache-enhanced.ts:271-273 | from colon-free pieces, splitting the key on `:` gives back the prefix followed by the parts |
| CacheKeys.NoPartsTrailingColon | lib/cache-enhanced.ts:271-273 | a key without parts splits into the prefix and an empty piece |
| CacheKeys.CreateCacheKeyInjective | lib/cache-enhanced.ts:271-273 | keys built from colon-free pieces are equal only when prefix and parts are |
| CacheWarming.Chunks | lib/cache-enhanced.ts:294-297 | the chunks concatenate back to the keys; each holds between one and `concurrency` keys, and all but the last hold exactly `concurrency` |
| CacheWarming.WarmOne | lib/cache-enhanced.ts:300-308 | a resolved fetch is stored with the default TTL; a rejected one leaves the cache unchanged |
| CacheWarming.WarmCache | lib/cache-enhanced.ts:289-311 | going chunk by chunk gives the same cache as warming every key in order |
| CacheWarming.WarmChunk | lib/cache-enhanced.ts:299-310 | warming one chunk continues the in-order warming of the keys done so far |
| CacheWarming.WarmAllSnoc | lib/cache-enhanced.ts:289-311 | warming one more key is one more `WarmOne` step |
| CacheWarming.WarmedKeysPresent | lib/cache-enhanced.ts:289-311 | when the whole warming happens at one clock reading, every key whose fetch resolves ends up holding its fetched value, stored at `now`; later stores of the same warming never evict it |
| CacheWarming.WarmingLaterEvicts | lib/cache-enhanced.ts:36-39 | with room for one entry, a key warmed at one time is evicted by a key warmed at a later time |
| CacheWarming.WarmKeepsConfig | lib/cache-enhanced.ts:289-311 | warming keeps the size and TTL settings |
| CacheWarming.NeverEvictsTouchedNow | lib/cache-enhanced.ts:102-116 | an entry accessed at or after `now` is never the eviction victim |
| CacheWarming.AllFailuresChangeNothing | lib/cache-enhanced.ts:303-308 | when every fetch fails, warming leaves the cache exactly as it was |
| ProductService.ListKey | lib/products-data-optimized.ts:18-231 | every list query's cache key begins with `products:` |
| ProductService.SingleKey | lib/products-data-optimized.ts:39-58 | the by-id key begins with `product:` and the daily-ad key with `products:` |
| ProductService.ArrivalsKey | lib/products-data-optimized.ts:154-183 | the arrivals key begins with `products:` |
| ProductService.ListRows | lib/products-data-optimized.ts:29-34 | an error or missing data gives `[]`; otherwise the rows themselves |
| ProductService.SingleValue | lib/products-data-optimized.ts:51-56 | the value is `null` exactly on an error or a missing row, and otherwise that row |
| ProductService.InCategory | lib/products-data-optimized.ts:172-181 | the reference for grouping: the products of one category, in input order |
| ProductService.Group | lib/products-data-optimized.ts:172-181 | one group per category present, each holding exactly that category's products in input order |
| ProductService.GroupObject | lib/products-data-optimized.ts:172-181 | the reduce into `{}` throws exactly when some product's category is a name `Object.prototype` provides, such as `constructor` or `__proto__`; otherwise it gives one group per category with exactly that category's products in input order |
| ProductService.CategoriesSnoc | lib/products-data-optimized.ts:172-181 | one more product adds its category to the categories present |
| ProductService.InCategorySnoc | lib/products-data-optimized.ts:172-181 | one more product joins the end of its own category's list only |
| ProductService.InCategoryAbsent | lib/products-data-optimized.ts:172-181 | a category not present has no products |
| ProductService.ArrivalsValue | lib/products-data-optimized.ts:154-183 | an error gives `{}`; rows fail exactly when some category is a prototype name, and otherwise give one group per category of the rows |
| ProductService.ListProducts | lib/products-data-optimized.ts:18-36 | a list query never fails; it is served from the cache on a hit; on a miss the backend's rows, or `[]`, are returned and stay readable under the query's key |
| ProductService.SingleProduct | lib/products-data-optimized.ts:39-58 | a single-product query never fails; on a miss it returns the row or `null`, and caches it under its key |
| ProductService.DopeArrivals | lib/products-data-optimized.ts:154-183 | served from the cache on a hit; on a miss it returns the grouped rows, or `{}` on an error; it fails exactly on a miss whose rows hold a prototype-named category, and then caches nothing |
| ProductService.ProductPatterns | lib/products-data-optimized.ts:234-246 | `invalidateProduct` passes seven patterns |
| ProductService.InvalidateEach | lib/products-data-optimized.ts:234-246 | invalidating pattern after pattern deletes exactly the keys containing one of them and keeps every other entry |
| ProductService.InvalidateProduct | lib/products-data-optimized.ts:234-246 | deletes exactly the keys that contain one of its seven patterns |
| ProductService.InvalidateAll | lib/products-data-optimized.ts:249-251 | deletes exactly the keys that contain `products` |
| ProductService.GetInstance | lib/products-data-optimized.ts:10-15 | the existing instance when there is one; otherwise one new instance, created once |
| ProductServiceFacts.FixedKeyLayouts | lib/products-data-optimized.ts:18-208 | the keys `products:all`, `products:daily-ad` and `products:dope-arrivals` |
| ProductServiceFacts.ArgumentKeyLayouts | lib/products-data-optimized.ts:39-231 | `products:category:<c>`, `products:search:<lower-cased query>` and `product:<id>` |
| ProductServiceFacts.CategoryKey | lib/products-data-optimized.ts:62 | the category key layout |
| ProductServiceFacts.SearchKey | lib/products-data-optimized.ts:212 | the search key holds the lower-cased query |
| ProductServiceFacts.ByIdKey | lib/products-data-optimized.ts:40 | the by-id key is `product:` and the decimal id |
| ProductServiceFacts.DefaultLimitKeys | lib/products-data-optimized.ts:83-151 | the default limits are 6 dope picks, 5 latest and 4 weekly picks, and they appear in the keys |
| ProductServiceFacts.DopePicksKey | lib/products-data-optimized.ts:83-84 | the dope-picks key under the default limit 6 |
| ProductServiceFacts.LatestKey | lib/products-data-optimized.ts:107-108 | the latest key under the default limit 5 |
| ProductServiceFacts.WeeklyPicksKey | lib/products-data-optimized.ts:130-131 | the weekly-picks key under the default limit 4 |
| ProductServiceFacts.SearchIgnoresCase | lib/products-data-optimized.ts:212 | searches that differ only in letter case share a cache entry |
| ProductServiceFacts.CategoryKeysDistinct | lib/products-data-optimized.ts:62 | distinct colon-free categories get distinct cache entries |
| ProductServiceFacts.ListErrorIsEmptyAndCached | lib/products-data-optimized.ts:18-36 | a backend error on a miss yields `[]`, which is cached, so no retry happens within the TTL |
| ProductServiceFacts.MissingProductRefetched | lib/products-data-optimized.ts:39-58 | a product not found is cached as `null`, and every later call fetches again |
| ProductServiceFacts.GroupedOnce | lib/products-data-optimized.ts:172-181 | every arrival is in the group of its own category |
| ProductServiceFacts.InCategoryHas | lib/products-data-optimized.ts:172-181 | every product is listed under its own category |
| ProductServiceFacts.InvalidateProductOverreaches | lib/products-data-optimized.ts:234-246 | `invalidateProduct(1)` also deletes product 10's entry, because `product:1` occurs in `product:10` |
| ProductServiceFacts.InvalidateProductReachesLists | lib/products-data-optimized.ts:234-246 | `invalidateProduct` deletes the dope-picks, latest and weekly-picks entries whatever their limit, plus the all-products, arrivals and daily-ad entries |
| ProductServiceFacts.ListPatternsPrefix | lib/products-data-optimized.ts:234-246 | each list pattern is a prefix of the key it targets |
| ProductServiceFacts.OnePartBeginsTwo | lib/cache-enhanced.ts:271-273 | the key with one part is a prefix of the key with that part and one more |
| ProductServiceFacts.Dropped | lib/products-data-optimized.ts:234-246 | a key that begins with one of the patterns is gone after `invalidateProduct` |
| ProductServiceFacts.InvalidateAllSparesProductKeys | lib/products-data-optimized.ts:249-251 | `invalidateAll` keeps the single-product entries and deletes every other query's entry |
| ProductServiceFacts.ProductKeyLacksProducts | lib/products-data-optimized.ts:249-251 | `products` never occurs in `product:` followed by digits |
| ProductServiceFacts.SingleInstance | lib/products-data-optimized.ts:10-15 | asking twice gives the same instance, created once |
| Slugs.DropPunctuation | lib/seo-utils.ts:10 | only word characters, whitespace and hyphens remain, and text of only those is unchanged |
| Slugs.Collapse | lib/seo-utils.ts:11 | no whitespace or underscore remains; there is never a doubled hyphen; empty input gives empty output; the output starts with a hyphen exactly when the input starts with a separator |
| Slugs.StripDashes | lib/seo-utils.ts:12 | neither end is a hyphen; text already without hyphens at the ends is unchanged |
| Slugs.Slug | lib/seo-utils.ts:6-13 | every slug is canonical: lower-case letters, digits and single inner hyphens only |
| Slugs.SlugOfCanonical | lib/seo-utils.ts:6-13 | a canonical string is its own slug |
| Slugs.SlugIdempotent | lib/seo-utils.ts:6-13 | slugging twice is slugging once, and the slugs are exactly the canonical strings |
| Slugs.SlugKeepsAlnum | lib/seo-utils.ts:6-13 | the letters and digits of the lower-cased text survive into the slug, in order |
| Slugs.AlnumOfSlug | lib/seo-utils.ts:6-13 | a non-empty slug contains a letter or digit |
| Slugs.ProductUrl | lib/seo-utils.ts:18-21 | `/product/`, the decimal id, a hyphen and the name's slug |
| Slugs.ExtractProductIdRoundTrip | lib/seo-utils.ts:18-21 | the product route reads the id back from both URL forms: the bare id and the URL this generator builds |
| Slugs.EmptySlugLeavesHyphen | lib/seo-utils.ts:18-21 | a name with no letter or digit gives an empty slug and a URL ending in a hyphen |
| StructuredData.Breadcrumbs | lib/seo-utils.ts:114-125 | one list item per crumb, numbered from 1, each with an absolute URL on the site |
| StructuredData.BreadcrumbsRoundTrip | lib/seo-utils.ts:114-125 | the names and site-relative URLs can be read back from the list items, in order |
| StructuredData.FaqPage | lib/seo-utils.ts:130-143 | one question per FAQ entry |
| StructuredData.FaqPageRoundTrip | lib/seo-utils.ts:130-143 | every question and answer carries over unchanged and in order |
| StructuredData.GamingFaqPageShape | lib/seo-utils.ts:148-177 | the gaming FAQ page has six questions, the first about keyboards |
| Sitemap.SitemapData | lib/seo-utils.ts:769-807 | the four fixed pages first, then one weekly entry at priority 0.9 per product, in order, at the product's URL; every priority lies in [0, 1] and every URL is on the site |
| Sitemap.Transform | next-sitemap.config.js:57-111 | the entry keeps its path; priorities lie in [0.5, 1]; it is monthly exactly for `/terms` and daily exactly for `/`; `/` has priority 1.0, product pages weekly 0.9, `/support` weekly 0.8, `/terms` 0.5, and every other path weekly 0.7 |
| Sitemap.AdditionalPathsShape | next-sitemap.config.js:7-44 | twenty weekly keyword pages, the first sixteen at 0.9 and the last four at 0.8 |
| Sitemap.SitemapAgreesWithTransform | next-sitemap.config.js:57-111 | every entry of the generated list gets the same change frequency and priority from `transform` on its path |
| Sitemap.FixedPaths | lib/seo-utils.ts:773-797 | the fixed pages sit at `/`, `/support`, `/terms` and `/sitemap.xml` |
| OptionsSelector.TrimmedNonEmpty | components/product-options-selector.tsx:33 | the trimmed pieces that are non-empty, in their order and each as often as it occurs; each is trimmed and non-empty |
| OptionsSelector.NonBlank | components/product-options-selector.tsx:46 | the non-blank entries of the list, in their order and each as often as it occurs |
| OptionsSelector.AvailableColors | components/product-options-selector.tsx:28-38 | the colours offered are distinct, trimmed, non-empty and comma-free; they are exactly the trimmed pieces of the field, in the order of their first occurrence |
| OptionsSelector.ColorsOfJoined | components/product-options-selector.tsx:28-38 | a field written from distinct clean colours gives back those colours in order |
| OptionsSelector.EmptyFieldHasNoColor | components/product-options-selector.tsx:28-38 | an empty field offers no colour |
| OptionsSelector.AvailableFeatures | components/product-options-selector.tsx:41-53 | the features offered are distinct and non-blank: none when absent, a non-blank string on its own, or the non-blank entries of a list in the order of their first occurrence |
| OptionsSelector.FeaturesOfCleanList | components/product-options-selector.tsx:41-53 | a list of distinct non-blank features is offered as stored |
| OptionsSelector.FirstMatch | components/product-options-selector.tsx:66-71 | the first combination matching both the colour and the feature, or none when nothing matches |
| OptionsSelector.PriceOfFacts | components/product-options-selector.tsx:66-71 | the exact lookup finds a price exactly when some combination matches, and that price is the first match's |
| OptionsSelector.SplitLookup | components/product-options-selector.tsx:74-91 | no lookup without the separator; otherwise the first two pieces around it are looked up as colour and feature: a price is found exactly when some combination matches that pair, it is the first match's price, and it is a combination's |
| OptionsSelector.CombinationPrice | components/product-options-selector.tsx:62-95 | the first exact match wins; with no exact match and a bar separator in the feature, the first combination matching the two pieces around the bar gives the price; with neither of those and a plus separator, the first combination matching the two pieces around the plus gives it; no price exactly when none of the three lookups matches; any price found is a combination's; a feature without a bar or plus separator has only the exact lookup |
| OptionsSelector.FallbackIgnoresColor | components/product-options-selector.tsx:74-91 | once the exact pair is missing, the colour argument does not matter |
| OptionsSelector.PipedFeatureFound | components/product-options-selector.tsx:74-81 | a combination written inside the feature as colour, bar separator, name (neither piece holding a bar) gives the price of the first combination matching that pair, wherever it is listed and whatever colour is selected, when the whole string names no combination |
| OptionsSelector.PlusFeatureFound | components/product-options-selector.tsx:83-91 | the same for colour, plus separator, name, when neither piece holds a plus or a bar |
| OptionsSelector.Initial | components/product-options-selector.tsx:21-24 | the selection starts from the initial colour and only the first initial feature |
| OptionsSelector.SelectColor | components/product-options-selector.tsx:141-143 | picking the selected colour clears it; any other replaces it; features are untouched |
| OptionsSelector.ToggleFeature | components/product-options-selector.tsx:145-151 | the selected feature is cleared, and any other becomes the only one |
| OptionsSelector.ClearSelections | components/product-options-selector.tsx:153-156 | nothing is selected afterwards |
| OptionsSelector.RunKeepsSingleFeature | components/product-options-selector.tsx:141-156 | however the buttons are pressed, at most one feature is ever selected |
| OptionsSelector.PressTwice | components/product-options-selector.tsx:141-151 | pressing a colour twice restores the colour; pressing an unselected feature twice leaves no feature |
| OptionsSelector.SelectedPrice | components/product-options-selector.tsx:108-139 | a price is shown only for a selected feature, is non-zero, and is a combination's price; with a feature selected, a price is shown exactly when the combination price of the selected colour (or none) and the first selected feature is non-zero, and it is that price |
| OptionsSelector.ZeroPriceIsNoPrice | components/product-options-selector.tsx:108-139 | a zero price counts as no price |
| OptionsSelector.SelectedPriceOfMatch | components/product-options-selector.tsx:108-139 | the first combination matching the selected colour and first feature, wherever it is listed, is the price shown when its price is non-zero |
| OptionsSelector.NoColorIsEmptyColor | components/product-options-selector.tsx:108-139 | no colour selected looks up the same price as the empty colour |
| OptionsSelector.ReplacePlusWithPipe | components/product-options-selector.tsx:159-161 | the length is kept, and text without `' + '` is unchanged |
| OptionsSelector.ReplaceOnlyTouchesPlus | components/product-options-selector.tsx:159-161 | only the middle `+` of a `' + '` in the input ever changes, and it becomes a bar |
| OptionsSelector.FirstPlusReplaced | components/product-options-selector.tsx:159-161 | the first `' + '` always becomes the bar separator, and everything before it is unchanged |
| Lists.Dedupe | components/product-options-selector.tsx:37 | the spread of a `Set` built from a list: no element twice, and exactly the list's elements |
| Lists.DedupeFirstSeen | components/product-options-selector.tsx:37 | the de-duplicated list keeps the order in which elements first occur |
| Lists.Filter | components/color-feature-combination.tsx:110 | `Array.prototype.filter`: the elements that pass, in their order, each as often as in the input |
| CombinationEditor.Check | components/color-feature-combination.tsx:67-79 | a form passes exactly when colour and price are non-blank, the price parses to a positive number and the original price is not a negative number; a blank colour or price is reported as incomplete |
| CombinationEditor.Discount | components/color-feature-combination.tsx:81-88 | a discount exists exactly for a truthy original price, and it is the percentage saved on it |
| CombinationEditor.FromForm | components/color-feature-combination.tsx:81-88 | the stored combination holds the trimmed colour and feature and the checked prices |
| CombinationEditor.Add | components/color-feature-combination.tsx:66-107 | a form that passes and is no duplicate is appended, and nothing else changes; a duplicate or a failed check leaves the list as it was |
| CombinationEditor.Remove | components/color-feature-combination.tsx:109-111 | exactly the combinations with the id go; the rest keep their order and their number of occurrences |
| CombinationEditor.RemoveAbsent | components/color-feature-combination.tsx:109-111 | removing an id no combination carries changes nothing |
| CombinationEditor.RemoveTwice | components/color-feature-combination.tsx:109-111 | removing twice is removing once |
| CombinationEditor.Update | components/color-feature-combination.tsx:125-155 | with an editing id and a form that passes, the combinations with that id take the form's values and keep their id; the others and the length stay the same; with no duplicate check |
| CombinationEditor.UpdateIdempotent | components/color-feature-combination.tsx:125-155 | saving the same form twice is saving it once |
| CombinationEditor.GetColorValue | components/color-feature-combination.tsx:42-64 | a known name, lower-cased and trimmed, gives its hex code; any other name gives its normalised self |
| CombinationEditor.ColorValueIdempotent | components/color-feature-combination.tsx:42-64 | a swatch colour is its own swatch colour |
| CombinationEditor.ColorMapShape | components/color-feature-combination.tsx:43-60 | the names are lower-case and each code is `#` and six lower-case hexadecimal digits |
| CombinationEditor.PaddedColorSavedTwice | components/color-feature-combination.tsx:91-94 | as written: a form whose colour starts with a space is saved twice in a row |
| CombinationEditor.AddChecked | components/color-feature-combination.tsx:66-107 | corrected add: the duplicate test compares the trimmed inputs |
| CombinationEditor.AddCheckedTwiceRefused | components/color-feature-combination.tsx:91-94 | corrected: the same form never saves twice in a row |
| LexOrder.SortUnique | components/combination-filter.tsx:74 | sorting a set of strings gives an ascending list of exactly its members |
| LexOrder.AscendingUnique | components/combination-filter.tsx:74 | two ascending lists with the same members are equal |
| CombinationFilter.Candidates | components/combination-filter.tsx:60-73 | the combination strings are exactly those listed in some product's array features |
| CombinationFilter.AvailableCombinations | components/combination-filter.tsx:60-75 | the combinations offered are ascending, so each appears once, and they are exactly those some product offers |
| CombinationFilter.AvailableIsTheSortedSet | components/combination-filter.tsx:60-75 | any ascending list of exactly the offered combinations is the list shown |
| CombinationFilter.FilterProducts | components/combination-filter.tsx:78-91 | an empty selection shows every product; otherwise exactly the products with an array feature that is selected, in their order and each as often as it is listed |
| CombinationFilter.FilterMonotone | components/combination-filter.tsx:78-91 | selecting more never hides a product that a non-empty selection showed |
| CombinationFilter.Toggle | components/combination-filter.tsx:93-99 | a selected string is dropped, leaving the other selections in their order, and any other is appended; selections stay duplicate-free |
| CombinationFilter.ToggleTwice | components/combination-filter.tsx:93-99 | toggling twice gives back the same strings, and the same list when the string was not selected |
| CombinationFilter.ClearAll | components/combination-filter.tsx:101-103 | nothing is selected afterwards |
| CombinationFilter.ClearShowsAll | components/combination-filter.tsx:78-103 | clearing shows every product again |
| CombinationFilter.Summary | components/combination-filter.tsx:105-113 | "All Products" for none, the string itself for one, the count and " combinations" for more |
| CombinationFilter.SummaryCounts | components/combination-filter.tsx:105-113 | two summaries of two or more selections are equal exactly when the counts are |
| PerformanceMonitor.Initial | components/performance-monitor.tsx:27-34 | no metric is measured at first |
| PerformanceMonitor.UpdateMetrics | components/performance-monitor.tsx:42-48 | fields the patch sets take its values, and fields missing from it keep theirs |
| PerformanceMonitor.HookScoreIsFull | components/performance-monitor.tsx:157-207 | the hook starts with nothing measured and never stores a measurement, so the score it reports is 100 |
| PerformanceMonitor.UpdatesCompose | components/performance-monitor.tsx:42-48 | an empty patch changes nothing, and two patches in a row act as one merged patch in which the later wins |
| PerformanceMonitor.Score | components/performance-monitor.tsx:177-207 | the score lies in [0, 100], is 100 with nothing measured, and is 100 less the four threshold penalties |
| PerformanceMonitor.PenaltyMonotone | components/performance-monitor.tsx:183-204 | a larger reading never earns a smaller penalty, and a first reading never lowers one |
| PerformanceMonitor.ScoreMonotone | components/performance-monitor.tsx:177-207 | raising any one metric never raises the score |
| PerformanceMonitor.Pick | components/performance-monitor.tsx:219-243 | each piece of advice is listed exactly when its test fails |
| PerformanceMonitor.Suggestions | components/performance-monitor.tsx:219-243 | the advice comes in the listed order; each web-vitals piece appears exactly when that metric draws a penalty in the score; the memory advice appears exactly above 50 MB used |
| PerformanceMonitor.AboveIsPenalty | components/performance-monitor.tsx:183-243 | a reading above its lower threshold is exactly one with a non-zero penalty |
| PerformanceOptimizer.Initial | components/performance-optimizer.tsx:26-30 | the overlay shows only when an initial load was asked for, at 0% with the first message |
| PerformanceOptimizer.AfterTick | components/performance-optimizer.tsx:76-96 | tick `k` shows the `k`-th message at `k/4` of the way, capped at 95% |
| PerformanceOptimizer.Simulation | components/performance-optimizer.tsx:63-99 | the four ticks in order, then the final state |
| PerformanceOptimizer.SimulationAdvances | components/performance-optimizer.tsx:63-99 | progress only goes up; only the last state hides the overlay; the run ends at 100% with "Ready!" |
| PerformanceOptimizer.StartLoading | components/performance-optimizer.tsx:189-197 | loading is on, with the given message |
| PerformanceOptimizer.WithLoading | components/performance-optimizer.tsx:199-210 | loading is on with the message while the work runs and off afterwards; the caller gets the work's own result or failure |
| PerformanceOptimizer.WithLoadingResets | components/performance-optimizer.tsx:199-210 | success and failure alike leave the flags reset, and the message leaves no trace |
| PerformanceOptimizer.Slice | components/performance-optimizer.tsx:263-264 | `slice` with both bounds clamped to the length |
| PerformanceOptimizer.Mount | components/performance-optimizer.tsx:230-234 | before the first fetch nothing is shown, loading is on and more is expected |
| PerformanceOptimizer.Fetched | components/performance-optimizer.tsx:237-253 | on success the first `initialCount` items show and `hasMore` says whether others exist; on failure the data stays as it was; loading ends either way |
| PerformanceOptimizer.LoadMore | components/performance-optimizer.tsx:256-259 | refused with nothing more to load or a load running; otherwise loading starts and a batch is scheduled |
| PerformanceOptimizer.Deliver | components/performance-optimizer.tsx:262-269 | the next batch after the items shown is appended, `hasMore` is recomputed and loading ends |
| PerformanceOptimizer.FetchedCoherent | components/performance-optimizer.tsx:237-253 | a successful fetch leaves the items shown as a prefix of the data, with `hasMore` true exactly when it is a strict prefix |
| PerformanceOptimizer.CoherenceKept | components/performance-optimizer.tsx:256-270 | `loadMore` and its timeout keep the state coherent |
| PerformanceOptimizer.FailedFetchRecovers | components/performance-optimizer.tsx:237-270 | a failed fetch leaves `hasMore` set with nothing to show; one round of `loadMore` makes the state coherent again |
| PerformanceOptimizer.RoundsShowEverything | components/performance-optimizer.tsx:256-270 | enough rounds of `loadMore` display all the data and end with nothing more to load |
| ImagePreload.Mounted | components/optimized-image-enhanced.tsx:41-43 | nothing loaded or failed at first; in view from the start exactly for a priority image |
| ImagePreload.OnEvent | components/optimized-image-enhanced.tsx:48-90 | the flags never revert; an intersection puts a non-priority image in view; a load or error sets only its own flag |
| ImagePreload.InViewSticks | components/optimized-image-enhanced.tsx:48-69 | over any events a priority image stays in view, and a non-priority image is in view exactly once it has intersected |
| ImagePreload.RenderedSrc | components/optimized-image-enhanced.tsx:101 | the fallback once loading failed, the own source before |
| ImagePreload.LoadingOf | components/optimized-image-enhanced.tsx:132 | priority images load eagerly, others as asked |
| ImagePreload.FallbackIffError | components/optimized-image-enhanced.tsx:37-101 | with a fallback that differs from the source, the fallback is shown exactly when the image failed |
| ImagePreload.Request | components/optimized-image-enhanced.tsx:169-172 | a source already loaded or loading is not requested again; any other is marked loading |
| ImagePreload.OnLoad | components/optimized-image-enhanced.tsx:175-182 | the source moves from loading to loaded |
| ImagePreload.OnError | components/optimized-image-enhanced.tsx:183-189 | the source stops loading and is not marked loaded |
| ImagePreload.StepKeeps | components/optimized-image-enhanced.tsx:169-191 | every event keeps the two sets disjoint and never forgets a loaded image |
| ImagePreload.RunKeeps | components/optimized-image-enhanced.tsx:169-191 | over any run the sets stay disjoint and `loaded` only grows; a source is loaded only if it started so or one of its loads succeeded |
| ImagePreload.Started | components/optimized-image-enhanced.tsx:193-195 | exactly the listed sources not loaded or loading when the effect ran are started, in list order and duplicates included |
| ImagePreload.PreloadAll | components/optimized-image-enhanced.tsx:193-195 | the sources started are all marked loading, and nothing else moves |
| ImagePreload.DuplicateStartsTwice | components/optimized-image-enhanced.tsx:193-195 | a source listed twice starts two loads but is marked loading once |

## Left out

- Asynchrony and concurrency: fetches are values that have already settled. The interleavings `Promise.all` allows inside one chunk of `warmCache` are not modelled.
- CacheWarming.WarmCache: the chunk loop is modelled sequentially at one time `now`. A concurrency of 0 with keys present is excluded, because the source's loop never ends in that case.
- CacheWarming.Chunks: requires a chunk size of at least one when there are keys, for the same reason.
- Real timers and the clock: the cleanup timer, `setTimeout` and `setInterval` become explicit steps, and `Date.now()` becomes a parameter.
- The Supabase query builder: each query's reply is a parameter. The filtering, ordering and limits applied by the backend are not modelled, and neither is `getCacheStats`, which only forwards `ApiCache.Stats`.
- ProductService.ListProducts: the promise that the fetched rows stay readable also admits a negative default TTL, under which nothing stays readable.
- `getCacheKeyFromURL`: it depends on the `URL` parser, which is not part of this model.
- `ImageCache.preload` and the browser `Image` object: only the load handler's effect is modelled, as `ImageCache.Loaded`. `ImageCache.get` is a plain LRU read, as in `LruCache.Get`.
- `Math.round` is not modelled. This covers the rounded discount, which is kept as an exact percentage, and the megabyte rounding of heap sizes, which are taken as already rounded.
- `parseFloat` is modelled only for an optional sign, digits and one decimal point. Exponents and `Infinity` are not.
- `toLowerCase` and `trim` are ASCII-only for letters. Case mapping outside `A`-`Z` is not modelled.
- Dates: `lastModified`/`lastmod` and the current date in the sitemap are left out.
- The constant JSON-LD builders (organization, website, local business) and `generateProductStructuredData` are left out. They are fixed object literals with no logic to verify.
- Rendering: JSX, CSS classes, `ProgressiveImage`, the performance optimizer's own intersection observer and the route-change listeners.
- The progressive-loading hook's re-fetch when `dataFetcher` changes: the data is fetched once on mount.
- `colorMap` lookups of inherited object keys (such as `constructor`) are not modelled. The map holds only its own entries.
- Negative list limits in the product service: limits are natural numbers.
- ProductService.ProductPatterns: product ids are natural numbers. The source takes any `number` and uses `id.toString()`, so negative and fractional ids, and their keys and patterns, are not modelled.
- EnhancedCache.Set: one clock reading `now` serves both the stored entry and the eviction scan. The source reads `Date.now()` again inside `evictOldest` (lib/cache-enhanced.ts:33 and :104). A later reading can only raise the scan's starting bound, so the model may pick no victim where the source would evict an entry accessed exactly at `now`.
- LruCache.Get: moves a present key to the end whatever its value. The source skips the move when the stored value is `undefined`. The only user, the image cache, stores image objects and never `undefined`.
- CacheWarming.WarmedKeysPresent: holds only when the whole warming happens at one clock reading. In the source each store reads the clock again. Once the clock moves on, a full cache can evict a key warmed a moment earlier, as `CacheWarming.WarmingLaterEvicts` shows.
- LexOrder.SortUnique: the order is by code point. JavaScript's default sort compares UTF-16 code units, which orders a character above U+FFFF before one in U+E000 to U+FFFF. The model does not reproduce that.
- ProductService.DopeArrivals: no longer promises that the call succeeds. The grouping into a plain object throws on a category named like a property of `Object.prototype`, and that failure reaches the caller.
- `usePerformanceMonitor` never stores a measurement. Its metrics stay at their initial nulls, so its score is always 100 (`PerformanceMonitor.HookScoreIsFull`). `UpdateMetrics` models the standalone `updateMetrics` helper.

## Findings

| source | as written | input that shows it | evidently intended | confidence | as-written member | corrected member |
|---|---|---|---|---|---|---|
| components/color-feature-combination.tsx:91-94 | the duplicate test compares the untrimmed colour and feature inputs with stored values that were trimmed when saved | colour `" Black"` with price `10`, added twice in a row | compare the trimmed inputs, so the second add is reported as a duplicate | not executed | CombinationEditor.PaddedColorSavedTwice | CombinationEditor.AddCheckedTwiceRefused |

=== FILE: api_cache.dfy ===
/** `APICache`: get-or-compute over an `EnhancedCache` sized for API responses, with
    invalidation by substring of the key. A fetcher is modelled by the outcome it would
    produce for this call; `fetched` records whether the fetcher was called at all. */
module ApiCache {
  import opened Wrappers
  import OrderedMap
  import Lists
  import Text
  import EnhancedCache

  const MaxSize: int := 200
  /** Ten minutes, in milliseconds. */
  const Ttl: int := 600000
  const CleanupInterval: int := 60000

  /** A cached response. `null` is a value a fetcher may produce and the cache may store, but
      a stored `null` is indistinguishable from a miss. Every other value (`undefined`
      included) is `Data`. */
  datatype Value<+V> = Null | Data(v: V)

  type Store<V> = EnhancedCache.Cache<Value<V>>

  /** What `get` returns: the cache afterwards, the settled result (`Err` when the fetcher
      rejected and the rejection propagates), and whether the fetcher was called. */
  datatype Lookup<V> = Lookup(cache: Store<V>, result: Outcome<Value<V>>, fetched: bool)

  /** The instance behind `new APICache()`. */
  function New<V>(): (c: Store<V>)
    ensures EnhancedCache.Valid(c) && c.entries == []
    ensures c.maxSize == MaxSize && c.defaultTtl == Ttl && c.sweepEvery == Some(CleanupInterval)
  {
    EnhancedCache.New(Some(MaxSize), Some(Ttl), Some(CleanupInterval))
  }

  /** The `null` test `has` applies to a cached response. */
  predicate IsNull<V>(x: Value<V>) {
    x.Null?
  }

  /** Whether a read at `now` would be served from the cache. */
  predicate Hit<V>(c: Store<V>, key: string, now: int) {
    var f := EnhancedCache.Fresh(c, key, now);
    f.Some? && f.value.Data?
  }

  /** `get(key, fetcher)`: a fresh non-null entry is returned without calling the fetcher;
      otherwise the fetcher is called once, and a value it resolves with is stored under the
      default TTL and returned, while a rejection stores nothing. */
  function Get<V>(c: Store<V>, key: string, fetch: Outcome<Value<V>>, now: int): (r: Lookup<V>)
    requires EnhancedCache.Valid(c)
    ensures EnhancedCache.Valid(r.cache)
    ensures r.fetched <==> !Hit(c, key, now)
    ensures !r.fetched ==> r.result == Ok(EnhancedCache.Fresh(c, key, now).value)
    ensures r.fetched ==> r.result == fetch
    ensures !r.fetched || fetch.Err? ==> r.cache == EnhancedCache.Get(c, key, now).cache
    ensures r.fetched && fetch.Ok? ==>
      OrderedMap.Get(r.cache.entries, key) == Some(EnhancedCache.Entry(fetch.value, now, c.defaultTtl, 0, now))
    ensures r.cache.maxSize == c.maxSize && r.cache.defaultTtl == c.defaultTtl
  {
    var g := EnhancedCache.Get(c, key, now);
    if g.value.Some? && g.value.value.Data? then Lookup(g.cache, Ok(g.value.value), false)
    else
      match fetch
      case Ok(x) => Lookup(EnhancedCache.Set(g.cache, key, x, None, now), fetch, true)
      case Err => Lookup(g.cache, Err, true)
  }

  /** `set(key, data, ttl)`: a plain store into the underlying cache. */
  function Set<V>(c: Store<V>, key: string, data: Value<V>, ttl: Option<int>, now: int): (r: Store<V>)
    requires EnhancedCache.Valid(c)
    ensures EnhancedCache.Valid(r)
    ensures OrderedMap.Get(r.entries, key) == Some(EnhancedCache.Entry(data, now, EnhancedCache.OrElse(ttl, c.defaultTtl), 0, now))
    ensures forall k :: k != key ==>
      OrderedMap.Get(r.entries, k) == (if EnhancedCache.Evicts(c, now, k) then None else OrderedMap.Get(c.entries, k))
  {
    EnhancedCache.Set(c, key, data, ttl, now)
  }

  /** Whether `invalidate(pattern)` deletes the entry under `k`: an absent or empty pattern
      is falsy and clears everything; otherwise the key must contain the pattern. */
  predicate Invalidates(pattern: Option<string>, k: string) {
    pattern.None? || pattern.value == "" || Text.Contains(k, pattern.value)
  }

  /** `invalidate(pattern)`: deletes exactly the keys the pattern reaches and leaves every
      other entry, and the order of the survivors, as it was. */
  function Invalidate<V>(c: Store<V>, pattern: Option<string>): (r: Store<V>)
    requires EnhancedCache.Valid(c)
    ensures EnhancedCache.Valid(r)
    ensures r.(entries := c.entries) == c
    ensures Lists.Subseq(r.entries, c.entries)
    ensures forall k :: OrderedMap.Get(r.entries, k) == (if Invalidates(pattern, k) then None else OrderedMap.Get(c.entries, k))
  {
    if pattern.None? || pattern.value == "" then EnhancedCache.Clear(c)
    else
      var p := pattern.value;
      c.(entries := OrderedMap.Filter(c.entries, (k: string, e: EnhancedCache.Entry<Value<V>>) => !Text.Contains(k, p)))
  }

  /** `getStats()` of the underlying cache. */
  function Stats<V>(c: Store<V>): (s: EnhancedCache.Stats)
    ensures s.size == |c.entries| && s.hits == EnhancedCache.TotalHits(c.entries)
  {
    EnhancedCache.GetStats(c)
  }
}

/** Properties of `APICache` that relate several calls. */
module ApiCacheFacts {
  import opened Wrappers
  import OrderedMap
  import EnhancedCache
  import opened ApiCache

  /** After a miss whose fetch resolves with non-null data, a second `get` within the TTL is
      a hit: it returns the same data and does not call its fetcher. */
  lemma MissThenHit<V>(c: Store<V>, key: string, v: V, again: Outcome<Value<V>>, now: int, later: int)
    requires EnhancedCache.Valid(c) && !Hit(c, key, now)
    requires 0 <= later - now <= c.defaultTtl
    ensures var first := Get(c, key, Ok(Data(v)), now);
      var second := Get(first.cache, key, again, later);
      !second.fetched && second.result == Ok(Data(v))
  {
  }

  /** A fetch that resolves with `null` is stored, but the next `get` misses and calls its
      fetcher again, however soon it comes. */
  lemma NullIsRefetched<V>(c: Store<V>, key: string, again: Outcome<Value<V>>, now: int, later: int)
    requires EnhancedCache.Valid(c) && !Hit(c, key, now)
    ensures var first := Get(c, key, Ok(Null), now);
      OrderedMap.Has(first.cache.entries, key) && Get(first.cache, key, again, later).fetched
  {
  }

  /** `has` on the API cache answers whether `get` would be served without its fetcher. */
  lemma HasIsHit<V>(c: Store<V>, key: string, now: int)
    requires EnhancedCache.Valid(c)
    ensures EnhancedCache.Has(c, key, now, IsNull).found <==> Hit(c, key, now)
  {
  }

  /** A response cached as `null` (a missing product, say) is present, yet `has` answers
      `false` for it; cached data answers `true` while its TTL lasts. */
  lemma CachedNullNotHad<V>(c: Store<V>, key: string, v: V, now: int)
    requires EnhancedCache.Valid(c)
    ensures var s := Set(c, key, Null, None, now);
      OrderedMap.Has(s.entries, key) && !EnhancedCache.Has(s, key, now, IsNull).found
    ensures c.defaultTtl >= 0 ==> EnhancedCache.Has(Set(c, key, Data(v), None, now), key, now, IsNull).found
  {
  }

  /** Invalidating with the same pattern twice is the same as once. */
  lemma InvalidateIdempotent<V>(c: Store<V>, pattern: Option<string>)
    requires EnhancedCache.Valid(c)
    ensures var once := Invalidate(c, pattern);
      forall k :: OrderedMap.Get(Invalidate(once, pattern).entries, k) == OrderedMap.Get(once.entries, k)
  {
  }
}

/** `createCacheKey(prefix, ...parts)`: the prefix, a colon, and the parts joined by colons. */
module CacheKeys {
  import Text

  function CreateCacheKey(prefix: string, parts: seq<string>): (key: string)
    ensures prefix + ":" <= key
    ensures |parts| == 0 ==> key == prefix + ":"
    ensures |parts| > 0 ==> key == Text.Join([prefix] + parts, ":")
  {
    assert |parts| > 0 ==> ([prefix] + parts)[1..] == parts;
    prefix + ":" + Text.Join(parts, ":")
  }

  /** Whether a key part can be recovered by splitting on `':'`. */
  predicate ColonFree(s: string) {
    ':' !in s
  }

  /** With a colon-free prefix and at least one part, all colon-free, splitting the key on
      `':'` gives back the prefix followed by the parts. */
  lemma SplitRecoversParts(prefix: string, parts: seq<string>)
    requires ColonFree(prefix) && |parts| >= 1
    requires forall i :: 0 <= i < |parts| ==> ColonFree(parts[i])
    ensures Text.Split(CreateCacheKey(prefix, parts), ':') == [prefix] + parts
  {
    var all := [prefix] + parts;
    assert forall i :: 0 <= i < |all| ==> ':' !in all[i] by {
      forall i | 0 <= i < |all| ensures ':' !in all[i] {
        if i > 0 { assert all[i] == parts[i - 1]; }
      }
    }
    Text.SplitJoin(all, ':');
  }

  /** With no parts the key ends in a colon, and splitting it yields an empty last piece. */
  lemma NoPartsTrailingColon(prefix: string)
    requires ColonFree(prefix)
    ensures var key := CreateCacheKey(prefix, []);
      key[|key| - 1] == ':' && Text.Split(key, ':') == [prefix, ""]
  {
    Text.SplitAtFirstSeparator(prefix, ':', "");
    assert prefix + [':'] + "" == prefix + ":";
  }

  /** Keys built from colon-free pieces determine their prefix and parts. */
  lemma CreateCacheKeyInjective(p1: string, parts1: seq<string>, p2: string, parts2: seq<string>)
    requires ColonFree(p1) && |parts1| >= 1 && forall i :: 0 <= i < |parts1| ==> ColonFree(parts1[i])
    requires ColonFree(p2) && |parts2| >= 1 && forall i :: 0 <= i < |parts2| ==> ColonFree(parts2[i])
    requires CreateCacheKey(p1, parts1) == CreateCacheKey(p2, parts2)
    ensures p1 == p2 && parts1 == parts2
  {
    SplitRecoversParts(p1, parts1);
    SplitRecoversParts(p2, parts2);
    assert ([p1] + parts1)[1..] == parts1;
    assert ([p2] + parts2)[1..] == parts2;
  }
}

/** `warmCache(keys, fetcher, concurrency)`: the keys are cut into consecutive chunks of
    `concurrency` keys, and each key of each chunk is fetched and stored; a failing fetch is
    skipped. The fetches of one chunk are modelled one after another in key order, all at the
    clock reading `now`. */
module CacheWarming {
  import opened Wrappers
  import OrderedMap
  import EnhancedCache
  import opened ApiCache

  const DefaultConcurrency: nat := 3

  /** The concatenation of a list of chunks. */
  function Flatten<T>(chunks: seq<seq<T>>): seq<T>
    decreases |chunks|
  {
    if |chunks| == 0 then [] else Flatten(chunks[..|chunks| - 1]) + chunks[|chunks| - 1]
  }

  /** The chunking loop: `keys.slice(i, i + size)` for `i = 0, size, 2 * size, …`. With a
      size of `0` and at least one key the loop of the source never ends, so that call is
      excluded. */
  method Chunks<T>(keys: seq<T>, size: nat) returns (chunks: seq<seq<T>>)
    requires size >= 1 || |keys| == 0
    ensures Flatten(chunks) == keys
    ensures forall j :: 0 <= j < |chunks| ==> 1 <= |chunks[j]| <= size
    ensures forall j :: 0 <= j < |chunks| - 1 ==> |chunks[j]| == size
  {
    chunks := [];
    var i := 0;
    while i < |keys|
      invariant 0 <= i <= |keys|
      invariant Flatten(chunks) == keys[..i]
      invariant forall j :: 0 <= j < |chunks| ==> 1 <= |chunks[j]| <= size
      invariant forall j :: 0 <= j < |chunks| ==> |chunks[j]| == size
      decreases |keys| - i
    {
      var end := if i + size <= |keys| then i + size else |keys|;
      var chunk := keys[i..end];
      assert (chunks + [chunk])[..|chunks|] == chunks;
      assert keys[..end] == keys[..i] + chunk;
      if end < i + size {
        chunks := chunks + [chunk];
        i := end;
        break;
      }
      chunks := chunks + [chunk];
      i := end;
    }
    assert keys[..|keys|] == keys;
  }

  /** One key of a chunk: a resolved fetch is stored with the default TTL, a rejected one is
      logged and skipped. */
  function WarmOne<V>(c: Store<V>, key: string, fetcher: string -> Outcome<Value<V>>, now: int): (r: Store<V>)
    requires EnhancedCache.Valid(c)
    ensures EnhancedCache.Valid(r)
    ensures fetcher(key).Err? ==> r == c
    ensures fetcher(key).Ok? ==> r == ApiCache.Set(c, key, fetcher(key).value, None, now)
  {
    match fetcher(key)
    case Ok(x) => ApiCache.Set(c, key, x, None, now)
    case Err => c
  }

  /** Warming the keys in order, one after another. */
  function WarmAll<V>(c: Store<V>, keys: seq<string>, fetcher: string -> Outcome<Value<V>>, now: int): (r: Store<V>)
    requires EnhancedCache.Valid(c)
    ensures EnhancedCache.Valid(r)
    decreases |keys|
  {
    if |keys| == 0 then c
    else WarmOne(WarmAll(c, keys[..|keys| - 1], fetcher, now), keys[|keys| - 1], fetcher, now)
  }

  /** The two loops of `warmCache`, over the chunks and over the keys of each chunk. */
  method WarmCache<V>(c: Store<V>, keys: seq<string>, fetcher: string -> Outcome<Value<V>>, concurrency: nat, now: int)
    returns (r: Store<V>)
    requires EnhancedCache.Valid(c)
    requires concurrency >= 1 || |keys| == 0
    ensures EnhancedCache.Valid(r)
    ensures r == WarmAll(c, keys, fetcher, now)
  {
    var chunks := Chunks(keys, concurrency);
    r := c;
    var n := 0;
    while n < |chunks|
      invariant 0 <= n <= |chunks|
      invariant EnhancedCache.Valid(r)
      invariant r == WarmAll(c, Flatten(chunks[..n]), fetcher, now)
      decreases |chunks| - n
    {
      r := WarmChunk(c, Flatten(chunks[..n]), r, chunks[n], fetcher, now);
      FlattenSnoc(chunks, n);
      n := n + 1;
    }
    assert chunks[..|chunks|] == chunks;
  }

  /** The inner loop: the keys of one chunk, continuing from the cache warmed with `done`. */
  method WarmChunk<V>(ghost c: Store<V>, ghost done: seq<string>, r0: Store<V>, chunk: seq<string>,
                      fetcher: string -> Outcome<Value<V>>, now: int) returns (r: Store<V>)
    requires EnhancedCache.Valid(c) && r0 == WarmAll(c, done, fetcher, now)
    ensures EnhancedCache.Valid(r)
    ensures r == WarmAll(c, done + chunk, fetcher, now)
  {
    r := r0;
    var j := 0;
    ghost var warmed := done;
    assert chunk[..0] == [];
    while j < |chunk|
      invariant 0 <= j <= |chunk|
      invariant warmed == done + chunk[..j]
      invariant r == WarmAll(c, warmed, fetcher, now)
      decreases |chunk| - j
    {
      WarmAllSnoc(c, warmed, chunk[j], fetcher, now);
      NextWarmed(done, chunk, j, warmed);
      r := WarmOne(r, chunk[j], fetcher, now);
      warmed := warmed + [chunk[j]];
      j := j + 1;
    }
    assert chunk[..|chunk|] == chunk;
  }

  lemma NextWarmed(done: seq<string>, chunk: seq<string>, j: nat, warmed: seq<string>)
    requires j < |chunk| && warmed == done + chunk[..j]
    ensures warmed + [chunk[j]] == done + chunk[..j + 1]
  {
    assert chunk[..j + 1] == chunk[..j] + [chunk[j]];
  }

  lemma FlattenSnoc<T>(chunks: seq<seq<T>>, n: nat)
    requires n < |chunks|
    ensures Flatten(chunks[..n + 1]) == Flatten(chunks[..n]) + chunks[n]
  {
    assert chunks[..n + 1][..n] == chunks[..n];
  }

  lemma WarmAllSnoc<V>(c: Store<V>, keys: seq<string>, key: string, fetcher: string -> Outcome<Value<V>>, now: int)
    requires EnhancedCache.Valid(c)
    ensures WarmAll(c, keys + [key], fetcher, now) == WarmOne(WarmAll(c, keys, fetcher, now), key, fetcher, now)
  {
    assert (keys + [key])[..|keys|] == keys;
  }

  /** Every key whose fetch resolves holds its fetched value afterwards, stored at `now`: an
      entry written during warming was accessed at `now`, so no later store of the same
      warming can evict it. */
  lemma {:induction false} WarmedKeysPresent<V>(c: Store<V>, keys: seq<string>, fetcher: string -> Outcome<Value<V>>, now: int, k: string)
    requires EnhancedCache.Valid(c)
    requires k in keys && fetcher(k).Ok?
    ensures OrderedMap.Get(WarmAll(c, keys, fetcher, now).entries, k) ==
      Some(EnhancedCache.Entry(fetcher(k).value, now, c.defaultTtl, 0, now))
    decreases |keys|
  {
    var init := keys[..|keys| - 1];
    var last := keys[|keys| - 1];
    var before := WarmAll(c, init, fetcher, now);
    WarmKeepsConfig(c, init, fetcher, now);
    if k != last {
      assert k in init by {
        var i :| 0 <= i < |keys| && keys[i] == k;
        assert i < |keys| - 1 && init[i] == k;
      }
      WarmedKeysPresent(c, init, fetcher, now, k);
      if fetcher(last).Ok? {
        NeverEvictsTouchedNow(before, now, k);
      }
    }
  }

  /** `WarmedKeysPresent` needs the single clock reading: once the clock moves on between two
      stores, a full cache evicts a key warmed a moment earlier. With room for one entry,
      warming `"a"` at time 1 and `"b"` at time 2 leaves no `"a"`. */
  lemma WarmingLaterEvicts(fetcher: string -> Outcome<Value<int>>)
    requires fetcher("a").Ok? && fetcher("b").Ok?
    ensures var c := EnhancedCache.New<Value<int>>(Some(1), None, None);
      OrderedMap.Get(WarmOne(WarmOne(c, "a", fetcher, 1), "b", fetcher, 2).entries, "a") == None
  {
    var c := EnhancedCache.New<Value<int>>(Some(1), None, None);
    var c1 := WarmOne(c, "a", fetcher, 1);
    FirstWarm(fetcher);
    assert EnhancedCache.OldestIndex(c1.entries, 2) == Some(0);
    assert EnhancedCache.Evicts(c1, 2, "a");
  }

  lemma FirstWarm(fetcher: string -> Outcome<Value<int>>)
    requires fetcher("a").Ok?
    ensures var c1 := WarmOne(EnhancedCache.New<Value<int>>(Some(1), None, None), "a", fetcher, 1);
      c1.maxSize == 1 && |c1.entries| == 1 && c1.entries[0].0 == "a" && c1.entries[0].1.lastAccessed == 1
  {
    var c := EnhancedCache.New<Value<int>>(Some(1), None, None);
    assert c.entries == [] && c.maxSize == 1;
    var c1 := WarmOne(c, "a", fetcher, 1);
    assert c1.entries == [("a", EnhancedCache.Entry(fetcher("a").value, 1, c.defaultTtl, 0, 1))];
  }

  lemma {:induction false} WarmKeepsConfig<V>(c: Store<V>, keys: seq<string>, fetcher: string -> Outcome<Value<V>>, now: int)
    requires EnhancedCache.Valid(c)
    ensures WarmAll(c, keys, fetcher, now).defaultTtl == c.defaultTtl
    ensures WarmAll(c, keys, fetcher, now).maxSize == c.maxSize
    decreases |keys|
  {
    if |keys| > 0 {
      WarmKeepsConfig(c, keys[..|keys| - 1], fetcher, now);
    }
  }

  /** The eviction victim was accessed strictly before `now`. */
  lemma NeverEvictsTouchedNow<V>(c: Store<V>, now: int, k: string)
    requires EnhancedCache.Valid(c)
    requires OrderedMap.Has(c.entries, k) && OrderedMap.Get(c.entries, k).value.lastAccessed >= now
    ensures !EnhancedCache.Evicts(c, now, k)
  {
    var victim := EnhancedCache.Victim(c.entries, now);
    if victim.Some? {
      var i := EnhancedCache.OldestIndex(c.entries, now).value;
      assert OrderedMap.Get(c.entries, victim.value) == Some(c.entries[i].1);
    }
  }

  /** When every fetch fails, warming leaves the cache exactly as it was. */
  lemma {:induction false} AllFailuresChangeNothing<V>(c: Store<V>, keys: seq<string>, fetcher: string -> Outcome<Value<V>>, now: int)
    requires EnhancedCache.Valid(c)
    requires forall i :: 0 <= i < |keys| ==> fetcher(keys[i]).Err?
    ensures WarmAll(c, keys, fetcher, now) == c
    decreases |keys|
  {
    if |keys| > 0 {
      AllFailuresChangeNothing(c, keys[..|keys| - 1], fetcher, now);
    }
  }
}

=== FILE: combination_editor.dfy ===
/** The admin editor for a product's colour-feature combinations: adding with validation and
    a duplicate check, removing by id, updating in place, and the swatch colour of a name. */
module CombinationEditor {
  import opened Wrappers
  import Text
  import Lists

  /** A stored combination. `discount` is the percentage before rounding to an integer. */
  datatype Combo = Combo(id: string, color: string, feature: string, price: real,
                         originalPrice: Option<Text.Number>, discount: Option<real>)

  /** The four text inputs of the editor form. */
  datatype Form = Form(color: string, feature: string, price: string, originalPrice: string)

  /** What became of an add or an update: left alone for an incomplete form, refused with an
      alert, or saved. */
  datatype Verdict = Incomplete | BadPrice | BadOriginalPrice | Duplicate | Saved

  datatype Edit = Edit(combos: seq<Combo>, verdict: Verdict)

  /** The outcome of the checks that add and update share. */
  datatype Checked = Rejected(verdict: Verdict) | Accepted(price: real, original: Option<Text.Number>)

  /** The original price as parsed: absent for a blank input, otherwise what `parseFloat`
      reads, `NaN` included. */
  function OriginalOf(f: Form): Option<Text.Number> {
    if Text.Blank(f.originalPrice) then None else Some(Text.ParseFloat(f.originalPrice))
  }

  /** The checks run before a save: colour and price must be non-blank; the price must parse
      to a positive number; a truthy original price must be positive, so that `0` and `NaN`
      slip through as they are falsy. */
  function Check(f: Form): (r: Checked)
    ensures r.Rejected? ==> r.verdict in {Incomplete, BadPrice, BadOriginalPrice}
    ensures r.Rejected? && r.verdict == Incomplete <==> Text.Blank(f.color) || Text.Blank(f.price)
    ensures r.Accepted? <==> (!Text.Blank(f.color) && !Text.Blank(f.price)
      && Text.ParseFloat(f.price).Num? && Text.ParseFloat(f.price).v > 0.0
      && !(OriginalOf(f).Some? && OriginalOf(f).value.Num? && OriginalOf(f).value.v < 0.0))
    ensures r.Accepted? ==> r.price > 0.0 && Text.ParseFloat(f.price) == Text.Num(r.price)
    ensures r.Accepted? ==> r.original == OriginalOf(f)
  {
    if Text.Blank(f.color) || Text.Blank(f.price) then Rejected(Incomplete)
    else
      var price := Text.ParseFloat(f.price);
      var original := OriginalOf(f);
      if price.NaN? || price.v <= 0.0 then Rejected(BadPrice)
      else if original.Some? && original.value.Truthy() && original.value.v <= 0.0 then Rejected(BadOriginalPrice)
      else Accepted(price.v, original)
  }

  /** The discount percentage, before rounding: only for a truthy original price. */
  function Discount(price: real, original: Option<Text.Number>): (d: Option<real>)
    ensures d.Some? <==> original.Some? && original.value.Truthy()
    ensures d.Some? ==> d.value * original.value.v == (original.value.v - price) * 100.0
  {
    if original.Some? && original.value.Truthy() then
      Some((original.value.v - price) / original.value.v * 100.0)
    else None
  }

  /** The combination a checked form describes, under a given id. */
  function FromForm(id: string, f: Form, price: real, original: Option<Text.Number>): (c: Combo)
    ensures c.id == id && c.color == Text.Trim(f.color) && c.feature == Text.Trim(f.feature)
    ensures c.price == price && c.originalPrice == original
  {
    Combo(id, Text.Trim(f.color), Text.Trim(f.feature), price, original, Discount(price, original))
  }

  /** The duplicate test of an add: the untrimmed input colour against the stored colour, case
      aside; the feature too when one is given, or else an exactly empty stored feature. */
  predicate SameAsInput(c: Combo, f: Form) {
    && Text.Lower(c.color) == Text.Lower(f.color)
    && (if !Text.Blank(f.feature) then Text.Lower(c.feature) == Text.Lower(f.feature) else c.feature == [])
  }

  predicate IsDuplicate(cs: seq<Combo>, f: Form) {
    exists i :: 0 <= i < |cs| && SameAsInput(cs[i], f)
  }

  /** `handleAddCombination` at time `now`: a checked, new combination is appended with the
      decimal time as its id; anything else leaves the list as it was. */
  function Add(cs: seq<Combo>, f: Form, now: nat): (e: Edit)
    ensures e.verdict != Saved ==> e.combos == cs
    ensures e.verdict == Saved <==> Check(f).Accepted? && !IsDuplicate(cs, f)
    ensures e.verdict == Duplicate <==> Check(f).Accepted? && IsDuplicate(cs, f)
    ensures e.verdict == Saved ==> (|e.combos| == |cs| + 1 && e.combos[..|cs|] == cs
      && e.combos[|cs|] == FromForm(Text.NatToString(now), f, Check(f).price, Check(f).original))
  {
    match Check(f)
    case Rejected(v) => Edit(cs, v)
    case Accepted(price, original) =>
      if IsDuplicate(cs, f) then Edit(cs, Duplicate)
      else Edit(cs + [FromForm(Text.NatToString(now), f, price, original)], Saved)
  }

  /** The test `handleRemoveCombination` filters with. */
  function KeepsOther(id: string): Combo -> bool {
    (c: Combo) => c.id != id
  }

  /** `handleRemoveCombination`: every combination with the id goes, the rest keep their order
      and their repeats. */
  function Remove(cs: seq<Combo>, id: string): (r: seq<Combo>)
    ensures forall i :: 0 <= i < |r| ==> r[i].id != id
    ensures forall c :: c in r <==> c in cs && c.id != id
    ensures Lists.Subseq(r, cs)
    ensures forall i :: 0 <= i < |cs| ==>
      multiset(r)[cs[i]] == if cs[i].id == id then 0 else multiset(cs)[cs[i]]
  {
    var r := Lists.Filter(cs, KeepsOther(id));
    assert forall c :: c in r ==> c in cs by {
      forall c | c in r ensures c in cs {
        var i :| 0 <= i < |r| && r[i] == c;
      }
    }
    r
  }

  /** Removing an id that no combination carries changes nothing, and removing twice is
      removing once. */
  lemma RemoveAbsent(cs: seq<Combo>, id: string)
    requires forall i :: 0 <= i < |cs| ==> cs[i].id != id
    ensures Remove(cs, id) == cs
  {
    Lists.FilterAll(cs, KeepsOther(id));
  }

  lemma RemoveTwice(cs: seq<Combo>, id: string)
    ensures Remove(Remove(cs, id), id) == Remove(cs, id)
  {
    RemoveAbsent(Remove(cs, id), id);
  }

  /** `handleUpdateCombination`: with an editing id and a checked form, the combinations with
      that id take the form's colour, feature and prices and keep their id; there is no
      duplicate check. */
  function Update(cs: seq<Combo>, editing: Option<string>, f: Form): (e: Edit)
    ensures e.verdict != Saved ==> e.combos == cs
    ensures e.verdict == Saved <==> editing.Some? && editing.value != [] && Check(f).Accepted?
    ensures |e.combos| == |cs|
    ensures forall i :: 0 <= i < |cs| ==> e.combos[i].id == cs[i].id
    ensures forall i :: 0 <= i < |cs| && (editing.None? || cs[i].id != editing.value) ==> e.combos[i] == cs[i]
    ensures e.verdict == Saved ==> forall i :: 0 <= i < |cs| && cs[i].id == editing.value ==>
      e.combos[i] == FromForm(cs[i].id, f, Check(f).price, Check(f).original)
  {
    if editing.None? || editing.value == [] then Edit(cs, Incomplete)
    else
      match Check(f)
      case Rejected(v) => Edit(cs, v)
      case Accepted(price, original) => Edit(Revise(cs, editing.value, f, price, original), Saved)
  }

  /** The list with every combination carrying `id` rewritten from the form. */
  function Revise(cs: seq<Combo>, id: string, f: Form, price: real, original: Option<Text.Number>): (r: seq<Combo>)
    ensures |r| == |cs|
    ensures forall i :: 0 <= i < |cs| ==> r[i] == if cs[i].id == id then FromForm(id, f, price, original) else cs[i]
  {
    seq(|cs|, i requires 0 <= i < |cs| => if cs[i].id == id then FromForm(id, f, price, original) else cs[i])
  }

  /** Saving the same form twice is saving it once. */
  lemma UpdateIdempotent(cs: seq<Combo>, editing: Option<string>, f: Form)
    ensures Update(Update(cs, editing, f).combos, editing, f) == Update(cs, editing, f)
  {
  }

  /** The swatch colours the editor knows. */
  const ColorMap: map<string, string> := map[
    "black" := "#000000", "white" := "#ffffff", "red" := "#ff0000", "green" := "#00ff00",
    "blue" := "#0000ff", "yellow" := "#ffff00", "orange" := "#ffa500", "pink" := "#ffc0cb",
    "purple" := "#800080", "grey" := "#808080", "gray" := "#808080", "golden" := "#ffd700",
    "avacado" := "#568203", "gift" := "#ff6b6b", "moon" := "#c0c0c0", "switch" := "#4a4a4a"]

  /** `getColorValue`: the hex code of a known name, compared lower-cased and trimmed, or
      else the normalised name itself. */
  function GetColorValue(name: string): (r: string)
    ensures Text.Normalize(name) in ColorMap ==> r == ColorMap[Text.Normalize(name)]
    ensures Text.Normalize(name) !in ColorMap ==> r == Text.Normalize(name)
  {
    var key := Text.Normalize(name);
    if key in ColorMap then ColorMap[key] else key
  }

  /** Hex codes are already normalised and name no colour, and a normalised name normalises
      to itself, so a swatch colour is its own swatch colour. */
  lemma ColorValueIdempotent(name: string)
    ensures GetColorValue(GetColorValue(name)) == GetColorValue(name)
  {
    var key := Text.Normalize(name);
    Text.NormalizeIdempotent(name);
    if key in ColorMap {
      ColorMapShape();
      var v := ColorMap[key];
      HexNormal(v);
      assert v !in ColorMap by {
        assert v[0] == '#';
      }
    }
  }

  /** `#` and six lower-case hexadecimal digits. */
  predicate HexCode(v: string) {
    |v| == 7 && v[0] == '#' && forall i :: 1 <= i < 7 ==> Text.IsDigit(v[i]) || 'a' <= v[i] <= 'f'
  }

  lemma ColorMapShape()
    ensures forall k :: k in ColorMap ==> |k| > 0 && Text.IsLowerLetter(k[0])
    ensures forall k :: k in ColorMap ==> HexCode(ColorMap[k])
  {
    ColorMapKeys();
    ColorMapValues();
  }

  lemma ColorMapKeys()
    ensures forall k :: k in ColorMap ==> |k| > 0 && Text.IsLowerLetter(k[0])
  {
    NamesStartLower();
    forall k | k in ColorMap ensures |k| > 0 && Text.IsLowerLetter(k[0]) {
      assert k in Names;
    }
  }

  /** The names of the colour map. */
  const Names: set<string> := {
    "black", "white", "red", "green", "blue", "yellow", "orange", "pink",
    "purple", "grey", "gray", "golden", "avacado", "gift", "moon", "switch"}

  lemma NamesStartLower()
    ensures forall k :: k in Names ==> |k| > 0 && Text.IsLowerLetter(k[0])
  {
  }

  /** The distinct codes of the colour map. */
  const Codes: set<string> := {
    "#000000", "#ffffff", "#ff0000", "#00ff00", "#0000ff", "#ffff00", "#ffa500", "#ffc0cb",
    "#800080", "#808080", "#ffd700", "#568203", "#ff6b6b", "#c0c0c0", "#4a4a4a"}

  lemma ColorMapValues()
    ensures forall k :: k in ColorMap ==> HexCode(ColorMap[k])
  {
    CodesAreHex();
    forall k | k in ColorMap ensures HexCode(ColorMap[k]) {
      assert ColorMap[k] in Codes;
    }
  }

  lemma CodesAreHex()
    ensures forall v :: v in Codes ==> HexCode(v)
  {
  }

  lemma HexNormal(v: string)
    requires HexCode(v)
    ensures Text.Normalize(v) == v
  {
    assert Text.Lower(v) == v;
    Text.TrimOfTrimmed(v);
  }

  /** The duplicate test compares the untrimmed inputs while the stored names are trimmed, so a
      form whose colour starts with a space is saved twice in a row. */
  lemma PaddedColorSavedTwice(cs: seq<Combo>, f: Form, now1: nat, now2: nat)
    requires Add(cs, f, now1).verdict == Saved
    requires |f.color| > 0 && Text.IsSpace(f.color[0])
    ensures var once := Add(cs, f, now1).combos;
      var twice := Add(once, f, now2);
      twice.verdict == Saved && twice.combos[|cs|].color == twice.combos[|cs| + 1].color
        && twice.combos[|cs|].feature == twice.combos[|cs| + 1].feature
  {
    var once := Add(cs, f, now1).combos;
    var added := once[|cs|];
    assert once == cs + [added];
    PaddedNeverSame(added, f);
    NotDuplicateAfter(cs, added, f);
  }

  /** A stored colour that is the trimmed input is shorter than an input that starts with a
      space, so the untrimmed test never matches it. */
  lemma PaddedNeverSame(c: Combo, f: Form)
    requires |f.color| > 0 && Text.IsSpace(f.color[0]) && c.color == Text.Trim(f.color)
    ensures !SameAsInput(c, f)
  {
    assert |Text.TrimStart(f.color)| < |f.color|;
    assert |Text.Lower(c.color)| < |Text.Lower(f.color)|;
  }

  lemma NotDuplicateAfter(cs: seq<Combo>, c: Combo, f: Form)
    requires !IsDuplicate(cs, f) && !SameAsInput(c, f)
    ensures !IsDuplicate(cs + [c], f)
  {
    var once := cs + [c];
    forall i | 0 <= i < |once| ensures !SameAsInput(once[i], f) {
      if i < |cs| {
        assert once[i] == cs[i];
      }
    }
  }

  /** The duplicate test on trimmed inputs, as the stored names are trimmed. */
  predicate SameAsTrimmedInput(c: Combo, f: Form) {
    && Text.Lower(c.color) == Text.Lower(Text.Trim(f.color))
    && (if !Text.Blank(f.feature) then Text.Lower(c.feature) == Text.Lower(Text.Trim(f.feature)) else c.feature == [])
  }

  predicate IsTrimmedDuplicate(cs: seq<Combo>, f: Form) {
    exists i :: 0 <= i < |cs| && SameAsTrimmedInput(cs[i], f)
  }

  /** The add with the duplicate test on trimmed inputs. */
  function AddChecked(cs: seq<Combo>, f: Form, now: nat): (e: Edit)
    ensures e.verdict != Saved ==> e.combos == cs
    ensures e.verdict == Saved <==> Check(f).Accepted? && !IsTrimmedDuplicate(cs, f)
    ensures e.verdict == Saved ==> (|e.combos| == |cs| + 1 && e.combos[..|cs|] == cs
      && e.combos[|cs|] == FromForm(Text.NatToString(now), f, Check(f).price, Check(f).original))
  {
    match Check(f)
    case Rejected(v) => Edit(cs, v)
    case Accepted(price, original) =>
      if IsTrimmedDuplicate(cs, f) then Edit(cs, Duplicate)
      else Edit(cs + [FromForm(Text.NatToString(now), f, price, original)], Saved)
  }

  /** With the trimmed test, the same form never saves twice in a row. */
  lemma AddCheckedTwiceRefused(cs: seq<Combo>, f: Form, now1: nat, now2: nat)
    requires AddChecked(cs, f, now1).verdict == Saved
    ensures AddChecked(AddChecked(cs, f, now1).combos, f, now2).verdict == Duplicate
  {
    var once := AddChecked(cs, f, now1).combos;
    var added := once[|cs|];
    assert SameAsTrimmedInput(added, f) by {
      if Text.Blank(f.feature) {
        assert added.feature == Text.Trim(f.feature);
      }
    }
  }
}

=== FILE: combination_filter.dfy ===
/** JavaScript's default `sort` order on strings: character by character, a proper prefix
    first. Characters are compared by code point, which is the code-unit order for text in
    the Basic Multilingual Plane. */
module LexOrder {

  predicate Less(a: string, b: string)
    decreases |a|
  {
    if |b| == 0 then false
    else if |a| == 0 then true
    else a[0] < b[0] || (a[0] == b[0] && Less(a[1..], b[1..]))
  }

  lemma {:induction false} Irreflexive(a: string)
    ensures !Less(a, a)
    decreases |a|
  {
    if |a| > 0 {
      Irreflexive(a[1..]);
    }
  }

  lemma {:induction false} Transitive(a: string, b: string, c: string)
    requires Less(a, b) && Less(b, c)
    ensures Less(a, c)
    decreases |a|
  {
    if |a| > 0 && a[0] == b[0] && b[0] == c[0] {
      Transitive(a[1..], b[1..], c[1..]);
    }
  }

  lemma {:induction false} Total(a: string, b: string)
    requires a != b
    ensures Less(a, b) || Less(b, a)
    decreases |a|
  {
    if |a| > 0 && |b| > 0 && a[0] == b[0] {
      assert a[1..] != b[1..] by {
        assert a == [a[0]] + a[1..] && b == [b[0]] + b[1..];
      }
      Total(a[1..], b[1..]);
    }
  }

  lemma {:induction false} Asymmetric(a: string, b: string)
    requires Less(a, b)
    ensures !Less(b, a)
    decreases |a|
  {
    if |a| > 0 && a[0] == b[0] {
      Asymmetric(a[1..], b[1..]);
    }
  }

  /** Strictly increasing, hence also free of repeats. */
  predicate Ascending(xs: seq<string>) {
    forall i, j :: 0 <= i < j < |xs| ==> Less(xs[i], xs[j])
  }

  /** Puts `x` in its place in an ascending list, unless it is already there. */
  function Insert(x: string, xs: seq<string>): (r: seq<string>)
    requires Ascending(xs)
    ensures Ascending(r)
    ensures forall y :: y in r <==> y == x || y in xs
    decreases |xs|
  {
    if |xs| == 0 then [x]
    else if x == xs[0] then xs
    else if Less(x, xs[0]) then
      forall j | 0 <= j < |xs| ensures Less(x, xs[j]) {
        if j > 0 {
          Transitive(x, xs[0], xs[j]);
        }
      }
      [x] + xs
    else
      Total(x, xs[0]);
      var rest := Insert(x, xs[1..]);
      forall j | 0 <= j < |rest| ensures Less(xs[0], rest[j]) {
        if rest[j] != x {
          assert rest[j] in rest;
          assert rest[j] in xs[1..];
          var k :| 0 <= k < |xs[1..]| && xs[1..][k] == rest[j];
          assert xs[1..][k] == xs[k + 1];
        }
      }
      [xs[0]] + rest
  }

  /** Sorts and de-duplicates: `Array.from(new Set(xs)).sort()`. */
  function SortUnique(xs: seq<string>): (r: seq<string>)
    ensures Ascending(r)
    ensures forall y :: y in r <==> y in xs
    decreases |xs|
  {
    if |xs| == 0 then []
    else
      var r := Insert(xs[|xs| - 1], SortUnique(xs[..|xs| - 1]));
      assert xs == xs[..|xs| - 1] + [xs[|xs| - 1]];
      r
  }

  /** An ascending list is fixed by its elements: two with the same elements are equal. */
  lemma {:induction false} AscendingUnique(a: seq<string>, b: seq<string>)
    requires Ascending(a) && Ascending(b)
    requires forall y :: y in a <==> y in b
    ensures a == b
    decreases |a|
  {
    if |a| > 0 {
      assert a[0] in b;
    }
    if |b| > 0 {
      assert b[0] in a;
    }
    if |a| > 0 && |b| > 0 {
      assert a[0] == b[0] by {
        if a[0] != b[0] {
          Total(a[0], b[0]);
          if Less(a[0], b[0]) {
            LeastOf(b, a[0]);
          } else {
            LeastOf(a, b[0]);
          }
        }
      }
      forall y ensures y in a[1..] <==> y in b[1..] {
        AfterHead(a, y);
        AfterHead(b, y);
      }
      AscendingUnique(a[1..], b[1..]);
      assert a == [a[0]] + a[1..] && b == [b[0]] + b[1..];
    }
  }

  /** Nothing in an ascending list lies below its head. */
  lemma LeastOf(xs: seq<string>, y: string)
    requires Ascending(xs) && |xs| > 0 && Less(y, xs[0])
    ensures y !in xs
  {
    Irreflexive(y);
    forall i | 0 <= i < |xs| ensures Less(y, xs[i]) {
      if i > 0 {
        Transitive(y, xs[0], xs[i]);
      }
    }
  }

  /** The tail of an ascending list holds everything but the head. */
  lemma AfterHead(xs: seq<string>, y: string)
    requires Ascending(xs) && |xs| > 0
    ensures y in xs[1..] <==> y in xs && y != xs[0]
  {
    assert xs == [xs[0]] + xs[1..];
    forall i | 1 <= i < |xs| ensures xs[i] != xs[0] {
      Asymmetric(xs[0], xs[i]);
      Irreflexive(xs[0]);
    }
  }
}

/** The storefront's combination filter: the "colour | feature" strings offered, the
    products a selection keeps, and the selection buttons. */
module CombinationFilter {
  import opened Wrappers
  import Text
  import Lists
  import LexOrder
  import OptionsSelector

  /** What the filter needs of a product: its `features` when they form an array. */
  datatype Listing = Listing(features: Option<seq<string>>)

  /** A feature string written as a combination. */
  predicate IsCombination(f: string) {
    Text.Contains(f, OptionsSelector.Pipe) || Text.Contains(f, OptionsSelector.Plus)
  }

  /** Every combination string in the array features, in order of appearance. */
  function Candidates(products: seq<Listing>): (r: seq<string>)
    ensures forall i :: 0 <= i < |r| ==> IsCombination(r[i])
    ensures forall f :: f in r <==> exists k :: 0 <= k < |products| && Offers(products[k], f)
    decreases |products|
  {
    if |products| == 0 then []
    else
      var p := products[0];
      var own := if p.features.Some? then Lists.Filter(p.features.value, IsCombination) else [];
      var rest := Candidates(products[1..]);
      assert forall k :: 1 <= k < |products| ==> products[k] == products[1..][k - 1];
      own + rest
  }

  /** The product lists `f` among its array features and `f` is a combination. */
  predicate Offers(p: Listing, f: string) {
    p.features.Some? && f in p.features.value && IsCombination(f)
  }

  /** The combinations offered: sorted, each once. */
  function AvailableCombinations(products: seq<Listing>): (r: seq<string>)
    ensures LexOrder.Ascending(r)
    ensures forall f :: f in r <==> exists k :: 0 <= k < |products| && Offers(products[k], f)
  {
    LexOrder.SortUnique(Candidates(products))
  }

  /** Any ascending list of exactly the offered combinations is the one shown. */
  lemma AvailableIsTheSortedSet(products: seq<Listing>, shown: seq<string>)
    requires LexOrder.Ascending(shown)
    requires forall f :: f in shown <==> exists k :: 0 <= k < |products| && Offers(products[k], f)
    ensures AvailableCombinations(products) == shown
  {
    LexOrder.AscendingUnique(AvailableCombinations(products), shown);
  }

  /** The product lists one of the selected strings among its array features. */
  predicate Matches(p: Listing, selected: seq<string>) {
    p.features.Some? && exists i :: 0 <= i < |p.features.value| && p.features.value[i] in selected
  }

  /** The products shown for a selection: all of them for an empty selection, otherwise those
      with an array feature that is selected, in their order. */
  function FilterProducts(products: seq<Listing>, selected: seq<string>): (r: seq<Listing>)
    ensures |selected| == 0 ==> r == products
    ensures |selected| > 0 ==> forall i :: 0 <= i < |r| ==> r[i] in products && Matches(r[i], selected)
    ensures |selected| > 0 ==> forall i :: 0 <= i < |products| && Matches(products[i], selected) ==> products[i] in r
    ensures |selected| > 0 ==> forall i :: 0 <= i < |products| ==>
      multiset(r)[products[i]] == if Matches(products[i], selected) then multiset(products)[products[i]] else 0
    ensures Lists.Subseq(r, products)
  {
    if |selected| == 0 then
      Lists.SubseqRefl(products);
      products
    else Lists.Filter(products, p => Matches(p, selected))
  }

  /** Selecting more never hides a product that a non-empty selection showed. */
  lemma FilterMonotone(products: seq<Listing>, selected: seq<string>, more: seq<string>)
    requires |selected| > 0
    requires forall i :: 0 <= i < |selected| ==> selected[i] in more
    ensures Lists.Subseq(FilterProducts(products, selected), FilterProducts(products, more))
  {
    forall i | 0 <= i < |products| && Matches(products[i], selected) ensures Matches(products[i], more) {
      var fs := products[i].features.value;
      var j :| 0 <= j < |fs| && fs[j] in selected;
    }
    Lists.FilterMonotone(products, p => Matches(p, selected), p => Matches(p, more));
  }

  /** `handleCombinationToggle`: a selected string is dropped, any other is appended. */
  function Toggle(selected: seq<string>, c: string): (r: seq<string>)
    ensures c in selected ==> c !in r && forall x :: x in r <==> x in selected && x != c
    ensures c !in selected ==> r == selected + [c]
    ensures Lists.NoDup(selected) ==> Lists.NoDup(r)
    ensures c in selected ==> Lists.Subseq(r, selected)
  {
    if c in selected then
      Lists.RemoveAllNoDup(selected, c);
      Lists.RemoveAll(selected, c)
    else selected + [c]
  }

  /** Toggling a string twice gives the same selected strings back, and the very same list
      when the string was not selected. */
  lemma ToggleTwice(selected: seq<string>, c: string)
    ensures forall x :: x in Toggle(Toggle(selected, c), c) <==> x in selected
    ensures c !in selected ==> Toggle(Toggle(selected, c), c) == selected
  {
    if c !in selected {
      RemoveLast(selected, c);
    }
  }

  lemma {:induction false} RemoveLast(xs: seq<string>, c: string)
    requires c !in xs
    ensures Lists.RemoveAll(xs + [c], c) == xs
    decreases |xs|
  {
    if |xs| > 0 {
      assert (xs + [c])[1..] == xs[1..] + [c];
      RemoveLast(xs[1..], c);
      Lists.RemoveAllCons(xs + [c], c);
      assert xs == [xs[0]] + xs[1..];
    }
  }

  /** `clearAllFilters`. */
  function ClearAll(selected: seq<string>): (r: seq<string>)
    ensures |r| == 0
  {
    []
  }

  /** Clearing shows every product again. */
  lemma ClearShowsAll(products: seq<Listing>, selected: seq<string>)
    ensures FilterProducts(products, ClearAll(selected)) == products
  {
  }

  const AllProducts: string := "All Products"
  const CombinationsSuffix: string := " combinations"

  /** `getFilterSummary`. */
  function Summary(selected: seq<string>): (s: string)
    ensures |selected| == 0 ==> s == AllProducts
    ensures |selected| == 1 ==> s == selected[0]
    ensures |selected| >= 2 ==> s == Text.NatToString(|selected|) + CombinationsSuffix
  {
    if |selected| == 0 then AllProducts
    else if |selected| == 1 then selected[0]
    else Text.NatToString(|selected|) + CombinationsSuffix
  }

  /** Two or more selections are told apart by their count alone. */
  lemma SummaryCounts(a: seq<string>, b: seq<string>)
    requires |a| >= 2 && |b| >= 2
    ensures Summary(a) == Summary(b) <==> |a| == |b|
  {
    if Summary(a) == Summary(b) {
      var na := Text.NatToString(|a|);
      var nb := Text.NatToString(|b|);
      SameBeforeSuffix(na, nb);
      Text.NatToStringInjective(|a|, |b|);
    }
  }

  lemma SameBeforeSuffix(na: string, nb: string)
    requires na + CombinationsSuffix == nb + CombinationsSuffix
    ensures na == nb
  {
    assert |na| == |nb|;
    assert na == (na + CombinationsSuffix)[..|na|];
    assert nb == (nb + CombinationsSuffix)[..|nb|];
  }
}

=== FILE: enhanced_cache.dfy ===
/** `EnhancedCache`: a time-to-live cache with hit statistics and eviction of the entry
    accessed longest ago. The cache is a value; the clock reading `now` (milliseconds) is an
    explicit argument of every operation that consults `Date.now()`, and the interval timer of
    the background cleanup becomes the explicit `Sweep` operation. */
module EnhancedCache {
  import opened Wrappers
  import OrderedMap
  import Lists

  const DefaultMaxSize: int := 100
  /** Five minutes, in milliseconds. */
  const DefaultTtl: int := 300000
  /** One minute, in milliseconds. */
  const DefaultCleanupInterval: int := 60000

  /** One cached item: the data, when it was stored, its time to live, how often it was read
      and when it was last read (or stored). */
  datatype Entry<T> = Entry(data: T, timestamp: int, ttl: int, hits: nat, lastAccessed: int)

  /** The entries in insertion order, the configuration, and the period of the cleanup timer
      while it runs (`None` when it was never started or has been stopped). */
  datatype Cache<T> = Cache(
    entries: OrderedMap.Pairs<Entry<T>>,
    maxSize: int,
    defaultTtl: int,
    sweepEvery: Option<int>)

  /** What a read returns: the cache afterwards, and the data (`None` for JavaScript `null`). */
  datatype Read<T> = Read(cache: Cache<T>, value: Option<T>)

  /** What `has` and `delete` return: the cache afterwards and the boolean answer. */
  datatype Probe<T> = Probe(cache: Cache<T>, found: bool)

  /** `getStats()`: entry count, the sum of their hit counters, and hits per live entry. */
  datatype Stats = Stats(size: nat, hits: nat, hitRate: real)

  /** The representation invariant: a `Map` never holds a key twice. */
  predicate Valid<T>(c: Cache<T>) {
    OrderedMap.Unique(c.entries)
  }

  /** `x || fallback` for an optional number: absent and `0` both fall back. */
  function OrElse(x: Option<int>, fallback: int): (r: int)
    ensures x.Some? && x.value != 0 ==> r == x.value
    ensures x.None? || x.value == 0 ==> r == fallback
  {
    if x.Some? && x.value != 0 then x.value else fallback
  }

  /** The constructor: a zero or missing size or TTL takes the default, and the cleanup timer
      starts unless the interval is exactly `0`. */
  function New<T>(maxSize: Option<int>, defaultTtl: Option<int>, cleanupInterval: Option<int>): (c: Cache<T>)
    ensures Valid(c) && c.entries == []
    ensures c.maxSize != 0 && c.defaultTtl != 0
    ensures maxSize.None? ==> c.maxSize == DefaultMaxSize
    ensures defaultTtl.None? ==> c.defaultTtl == DefaultTtl
    ensures c.sweepEvery.None? <==> cleanupInterval == Some(0)
    ensures cleanupInterval.None? ==> c.sweepEvery == Some(DefaultCleanupInterval)
    ensures c.sweepEvery.Some? ==> c.sweepEvery.value != 0
    ensures c.maxSize == OrElse(maxSize, DefaultMaxSize) && c.defaultTtl == OrElse(defaultTtl, DefaultTtl)
    ensures cleanupInterval.Some? && cleanupInterval.value != 0 ==> c.sweepEvery == cleanupInterval
  {
    Cache([], OrElse(maxSize, DefaultMaxSize), OrElse(defaultTtl, DefaultTtl),
      if cleanupInterval == Some(0) then None else Some(OrElse(cleanupInterval, DefaultCleanupInterval)))
  }

  /** An entry is stale once strictly more than its TTL has passed since it was stored. */
  predicate Expired<T>(e: Entry<T>, now: int) {
    now - e.timestamp > e.ttl
  }

  /** The data a read at `now` would return, without the read's side effects. */
  function Fresh<T>(c: Cache<T>, key: string, now: int): Option<T> {
    match OrderedMap.Get(c.entries, key)
    case None => None
    case Some(e) => if Expired(e, now) then None else Some(e.data)
  }

  /** `get(key)`: `null` for an absent key; an expired entry is deleted and reads as `null`;
      otherwise the hit counter goes up, the access time becomes `now`, and the data is
      returned. The entry keeps its place in the order. */
  function Get<T>(c: Cache<T>, key: string, now: int): (r: Read<T>)
    requires Valid(c)
    ensures Valid(r.cache)
    ensures r.value == Fresh(c, key, now)
    ensures r.cache.(entries := c.entries) == c
    ensures !OrderedMap.Has(c.entries, key) ==> r.cache == c
    ensures OrderedMap.Has(c.entries, key) && Expired(OrderedMap.Get(c.entries, key).value, now) ==>
      !OrderedMap.Has(r.cache.entries, key) && Lists.Subseq(r.cache.entries, c.entries)
      && |r.cache.entries| == |c.entries| - 1
    ensures r.value.Some? ==>
      var e := OrderedMap.Get(c.entries, key).value;
      OrderedMap.Get(r.cache.entries, key) == Some(e.(hits := e.hits + 1, lastAccessed := now))
      && OrderedMap.Keys(r.cache.entries) == OrderedMap.Keys(c.entries)
    ensures forall k :: k != key ==> OrderedMap.Get(r.cache.entries, k) == OrderedMap.Get(c.entries, k)
  {
    match OrderedMap.Get(c.entries, key)
    case None => Read(c, None)
    case Some(e) =>
      if Expired(e, now) then Read(c.(entries := OrderedMap.Remove(c.entries, key)), None)
      else Read(c.(entries := OrderedMap.Put(c.entries, key, e.(hits := e.hits + 1, lastAccessed := now))), Some(e.data))
  }

  /** `has(key)`: whether `get(key)` returns something other than `null`. Expired entries
      count as absent and are deleted, a hit is counted like any read, and a fresh entry whose
      data is `null` (as `isNull` tells) answers `false` as well. */
  function Has<T>(c: Cache<T>, key: string, now: int, isNull: T -> bool): (r: Probe<T>)
    requires Valid(c)
    ensures Valid(r.cache)
    ensures r.found <==>
      OrderedMap.Has(c.entries, key)
      && !Expired(OrderedMap.Get(c.entries, key).value, now)
      && !isNull(OrderedMap.Get(c.entries, key).value.data)
    ensures r.cache == Get(c, key, now).cache
  {
    var g := Get(c, key, now);
    Probe(g.cache, g.value.Some? && !isNull(g.value.value))
  }

  /** `delete(key)`: removes the entry and reports whether there was one. */
  function Delete<T>(c: Cache<T>, key: string): (r: Probe<T>)
    requires Valid(c)
    ensures Valid(r.cache)
    ensures r.found <==> OrderedMap.Has(c.entries, key)
    ensures !OrderedMap.Has(r.cache.entries, key)
    ensures forall k :: k != key ==> OrderedMap.Get(r.cache.entries, k) == OrderedMap.Get(c.entries, k)
    ensures Lists.Subseq(r.cache.entries, c.entries)
  {
    Probe(c.(entries := OrderedMap.Remove(c.entries, key)), OrderedMap.Has(c.entries, key))
  }

  /** `clear()`. */
  function Clear<T>(c: Cache<T>): (r: Cache<T>)
    ensures Valid(r) && |r.entries| == 0
    ensures r.(entries := c.entries) == c
  {
    c.(entries := [])
  }

  /** `keys()`: a snapshot of the keys in iteration order. */
  function Keys<T>(c: Cache<T>): (ks: seq<string>)
    ensures |ks| == |c.entries|
    ensures forall k :: k in ks <==> OrderedMap.Has(c.entries, k)
  {
    var ks := OrderedMap.Keys(c.entries);
    assert forall k :: k in ks ==> OrderedMap.Has(c.entries, k) by {
      forall k | k in ks ensures OrderedMap.Has(c.entries, k) {
        var i :| 0 <= i < |ks| && ks[i] == k;
      }
    }
    ks
  }

  function TotalHits<T>(es: OrderedMap.Pairs<Entry<T>>): nat
    decreases |es|
  {
    if |es| == 0 then 0 else es[0].1.hits + TotalHits(es[1..])
  }

  /** `getStats()`: `hitRate` is hits per live entry (not hits per request), `0` when empty. */
  function GetStats<T>(c: Cache<T>): (s: Stats)
    ensures s.size == |c.entries|
    ensures s.size == 0 ==> s.hits == 0 && s.hitRate == 0.0
    ensures s.size > 0 ==> s.hitRate * (s.size as real) == s.hits as real
    ensures s.hits == TotalHits(c.entries)
  {
    var total := TotalHits(c.entries);
    var n := |c.entries|;
    Stats(n, total, if n > 0 then total as real / n as real else 0.0)
  }

  /** The `forEach` of `evictOldest` from position `i` on: it remembers the first entry whose
      access time is strictly below the best time seen so far (which starts at `now`). */
  function ScanOldest<T>(es: OrderedMap.Pairs<Entry<T>>, i: nat, best: Option<nat>, bestTime: int): (r: Option<nat>)
    requires i <= |es|
    requires forall j :: 0 <= j < i ==> es[j].1.lastAccessed >= bestTime
    requires best.Some? ==> (best.value < i && es[best.value].1.lastAccessed == bestTime
      && forall j :: 0 <= j < best.value ==> es[j].1.lastAccessed > bestTime)
    ensures r.None? ==> best.None? && forall j :: 0 <= j < |es| ==> es[j].1.lastAccessed >= bestTime
    ensures r.Some? ==> (r.value < |es|
      && es[r.value].1.lastAccessed <= bestTime
      && (best.None? ==> es[r.value].1.lastAccessed < bestTime)
      && (forall j :: 0 <= j < |es| ==> es[j].1.lastAccessed >= es[r.value].1.lastAccessed)
      && (forall j :: 0 <= j < r.value ==> es[j].1.lastAccessed > es[r.value].1.lastAccessed))
    decreases |es| - i
  {
    if i == |es| then best
    else if es[i].1.lastAccessed < bestTime then ScanOldest(es, i + 1, Some(i), es[i].1.lastAccessed)
    else ScanOldest(es, i + 1, best, bestTime)
  }

  /** The entry `evictOldest` picks: the first, in insertion order, of those with the smallest
      access time, provided that time is strictly before `now`. */
  function OldestIndex<T>(es: OrderedMap.Pairs<Entry<T>>, now: int): (r: Option<nat>)
    ensures r.None? <==> forall j :: 0 <= j < |es| ==> es[j].1.lastAccessed >= now
    ensures r.Some? ==> (r.value < |es| && es[r.value].1.lastAccessed < now
      && (forall j :: 0 <= j < |es| ==> es[j].1.lastAccessed >= es[r.value].1.lastAccessed)
      && (forall j :: 0 <= j < r.value ==> es[j].1.lastAccessed > es[r.value].1.lastAccessed))
  {
    ScanOldest(es, 0, None, now)
  }

  /** The key `evictOldest` deletes, if any: the empty key is falsy and is never deleted. */
  function Victim<T>(es: OrderedMap.Pairs<Entry<T>>, now: int): Option<string> {
    match OldestIndex(es, now)
    case None => None
    case Some(i) => if es[i].0 == "" then None else Some(es[i].0)
  }

  /** `set` evicts when the cache is at (or above) capacity, whether or not the key is new. */
  predicate Full<T>(c: Cache<T>) {
    |c.entries| >= c.maxSize
  }

  /** Whether a `set` at `now` deletes the entry under `k` to make room. */
  predicate Evicts<T>(c: Cache<T>, now: int, k: string) {
    Full(c) && Victim(c.entries, now) == Some(k)
  }

  /** `set(key, data, ttl)`: first, if the cache is full, evict the oldest entry; then store
      a new entry with zero hits, stored and accessed at `now`, whose TTL is `ttl || defaultTTL`.
      A key already present keeps its position unless it was itself the one evicted, in which
      case it is appended at the end. */
  function Set<T>(c: Cache<T>, key: string, data: T, ttl: Option<int>, now: int): (r: Cache<T>)
    requires Valid(c)
    ensures Valid(r)
    ensures r.(entries := c.entries) == c
    ensures OrderedMap.Get(r.entries, key) == Some(Entry(data, now, OrElse(ttl, c.defaultTtl), 0, now))
    ensures forall k :: k != key ==>
      OrderedMap.Get(r.entries, k) == (if Evicts(c, now, k) then None else OrderedMap.Get(c.entries, k))
    ensures (!Full(c) || Victim(c.entries, now).None?) ==>
      |r.entries| == |c.entries| + (if OrderedMap.Has(c.entries, key) then 0 else 1)
    ensures (!Full(c) || Victim(c.entries, now).None?) && OrderedMap.Has(c.entries, key) ==>
      OrderedMap.Keys(r.entries) == OrderedMap.Keys(c.entries)
    ensures Full(c) && Victim(c.entries, now).Some? ==> |r.entries| <= |c.entries|
    ensures Evicts(c, now, key) ==> r.entries[|r.entries| - 1].0 == key
    ensures (!Full(c) || Victim(c.entries, now).None?) ==>
      OrderedMap.Keys(r.entries) ==
        if OrderedMap.Has(c.entries, key) then OrderedMap.Keys(c.entries) else OrderedMap.Keys(c.entries) + [key]
    ensures Full(c) && Victim(c.entries, now).Some? ==>
      var kept := Lists.RemoveAll(OrderedMap.Keys(c.entries), Victim(c.entries, now).value);
      OrderedMap.Keys(r.entries) == if key in kept then kept else kept + [key]
  {
    var es := if Full(c) then (match Victim(c.entries, now) case None => c.entries case Some(v) => OrderedMap.KeysRemove(c.entries, v); OrderedMap.Remove(c.entries, v)) else c.entries;
    var e := Entry(data, now, OrElse(ttl, c.defaultTtl), 0, now);
    OrderedMap.PutKeys(es, key, e);
    OrderedMap.PutKeys(c.entries, key, e);
    c.(entries := OrderedMap.Put(es, key, e))
  }

  /** One tick of the cleanup timer: deletes exactly the entries expired at `now`. */
  function Sweep<T>(c: Cache<T>, now: int): (r: Cache<T>)
    requires Valid(c)
    ensures Valid(r)
    ensures r.(entries := c.entries) == c
    ensures Lists.Subseq(r.entries, c.entries)
    ensures forall i :: 0 <= i < |r.entries| ==> !Expired(r.entries[i].1, now)
    ensures forall k :: (OrderedMap.Get(r.entries, k) ==
      if OrderedMap.Has(c.entries, k) && !Expired(OrderedMap.Get(c.entries, k).value, now)
      then OrderedMap.Get(c.entries, k) else None)
  {
    c.(entries := OrderedMap.Filter(c.entries, (k: string, e: Entry<T>) => !Expired(e, now)))
  }

  /** `destroy()`: stops the cleanup timer and empties the cache; doing it again changes
      nothing. */
  function Destroy<T>(c: Cache<T>): (r: Cache<T>)
    ensures Valid(r) && |r.entries| == 0 && r.sweepEvery.None?
    ensures r.maxSize == c.maxSize && r.defaultTtl == c.defaultTtl
  {
    c.(entries := [], sweepEvery := None)
  }
}

/** Properties of `EnhancedCache` that relate several operations. */
module EnhancedCacheFacts {
  import opened Wrappers
  import OrderedMap
  import opened EnhancedCache

  /** `has` answers exactly what comparing the result of `get` with `null` answers, and
      leaves the cache as that `get` does. */
  lemma HasIsGetNotNull<T>(c: Cache<T>, key: string, now: int, isNull: T -> bool)
    requires Valid(c)
    ensures var g := Get(c, key, now);
      Has(c, key, now, isNull) == Probe(g.cache, g.value.Some? && !isNull(g.value.value))
  {
  }

  /** A stored value is served until strictly more than its TTL has passed, and from then on
      reads as `null`. */
  lemma SetThenGet<T>(c: Cache<T>, key: string, data: T, ttl: Option<int>, t: int, later: int)
    requires Valid(c)
    ensures var g := Get(Set(c, key, data, ttl, t), key, later);
      g.value == (if later - t > OrElse(ttl, c.defaultTtl) then None else Some(data))
      && (g.value.None? ==> !OrderedMap.Has(g.cache.entries, key))
  {
  }

  /** Reading a fresh entry raises the total hit count reported by `getStats` by exactly one. */
  lemma {:induction false} ReadCountsOneHit<T>(c: Cache<T>, key: string, now: int)
    requires Valid(c) && Fresh(c, key, now).Some?
    ensures GetStats(Get(c, key, now).cache).hits == GetStats(c).hits + 1
  {
    var i := OrderedMap.Find(c.entries, key).value;
    var e := c.entries[i].1;
    TotalHitsUpdate(c.entries, i, (key, e.(hits := e.hits + 1, lastAccessed := now)));
  }

  lemma {:induction false} TotalHitsUpdate<T>(es: OrderedMap.Pairs<Entry<T>>, i: nat, x: (string, Entry<T>))
    requires i < |es|
    ensures TotalHits(es[i := x]) == TotalHits(es) - es[i].1.hits + x.1.hits
    decreases i
  {
    if i > 0 {
      TotalHitsUpdate(es[1..], i - 1, x);
      assert es[i := x][1..] == es[1..][i - 1 := x];
    }
  }

  /** The size cap holds after a `set` as long as, whenever the cache is full, some entry was
      last touched strictly before `now` and no key is the empty string. */
  lemma SetKeepsCapacity<T>(c: Cache<T>, key: string, data: T, ttl: Option<int>, now: int)
    requires Valid(c) && 1 <= c.maxSize && |c.entries| <= c.maxSize
    requires forall i :: 0 <= i < |c.entries| ==> c.entries[i].0 != ""
    requires |c.entries| == c.maxSize ==> exists i :: 0 <= i < |c.entries| && c.entries[i].1.lastAccessed < now
    ensures |Set(c, key, data, ttl, now).entries| <= c.maxSize
  {
    if Full(c) {
      var i := OldestIndex(c.entries, now).value;
      assert Victim(c.entries, now) == Some(c.entries[i].0);
    }
  }

  /** When every entry was touched at `now` (several sets within one millisecond), a full
      cache evicts nothing and a new key pushes it past its cap. */
  lemma SetCanExceedCapacity<T>(c: Cache<T>, key: string, data: T, ttl: Option<int>, now: int)
    requires Valid(c) && Full(c)
    requires forall i :: 0 <= i < |c.entries| ==> c.entries[i].1.lastAccessed >= now
    requires !OrderedMap.Has(c.entries, key)
    ensures |Set(c, key, data, ttl, now).entries| == |c.entries| + 1 > c.maxSize
  {
  }

  /** Two sets in the same millisecond on a one-entry cache leave two entries. */
  lemma SameMillisecondOverflow(now: int)
    ensures var c := New<int>(Some(1), None, None);
      |Set(Set(c, "a", 1, None, now), "b", 2, None, now).entries| == 2
  {
    var c1 := StoreFirst(1, None, 1, now);
    SetCanExceedCapacity(c1, "b", 2, None, now);
  }

  /** The first store into a fresh cache with the default TTL. */
  lemma StoreFirst(size: int, cleanup: Option<int>, data: int, now: int) returns (c1: Cache<int>)
    requires size >= 1
    ensures c1 == Set(New<int>(Some(size), None, cleanup), "a", data, None, now)
    ensures c1.maxSize == size && c1.defaultTtl == DefaultTtl
    ensures c1.entries == [("a", Entry(data, now, DefaultTtl, 0, now))]
  {
    var c := New<int>(Some(size), None, cleanup);
    assert c.entries == [] && c.maxSize == size && c.defaultTtl == DefaultTtl;
    assert !Full(c);
    c1 := Set(c, "a", data, None, now);
    assert c1.entries == OrderedMap.Put([], "a", Entry(data, now, DefaultTtl, 0, now));
  }

  /** Eviction follows access time, not insertion: with room for two, after storing `a` and
      `b` and reading `a`, storing `c` evicts `b`. */
  lemma EvictsLeastRecentlyRead()
    ensures var c0 := New<int>(Some(2), None, Some(0));
      var c1 := Set(c0, "a", 1, None, 1);
      var c2 := Set(c1, "b", 2, None, 2);
      var c3 := Get(c2, "a", 3).cache;
      var c4 := Set(c3, "c", 3, None, 4);
      OrderedMap.Keys(c4.entries) == ["a", "c"]
  {
    var c0 := New<int>(Some(2), None, Some(0));
    var ea := Entry(1, 1, DefaultTtl, 0, 1);
    var eb := Entry(2, 2, DefaultTtl, 0, 2);
    var c1 := StoreFirst(2, Some(0), 1, 1);
    var c2 := StoreSecond(c1, ea);
    var es := [("a", ea.(hits := 1, lastAccessed := 3)), ("b", eb)];
    var c3 := ReadFirst(c2, ea, eb);
    OldestOfTwo(es, 4);
    StoreThird(c3, es);
  }

  lemma StoreSecond(c1: Cache<int>, ea: Entry<int>) returns (c2: Cache<int>)
    requires c1.maxSize == 2 && c1.defaultTtl == DefaultTtl && c1.entries == [("a", ea)]
    ensures c2 == Set(c1, "b", 2, None, 2)
    ensures c2.entries == [("a", ea), ("b", Entry(2, 2, DefaultTtl, 0, 2))]
  {
    c2 := Set(c1, "b", 2, None, 2);
  }

  lemma ReadFirst(c2: Cache<int>, ea: Entry<int>, eb: Entry<int>) returns (c3: Cache<int>)
    requires c2.entries == [("a", ea), ("b", eb)] && ea.timestamp == 1 && ea.ttl == DefaultTtl
    ensures c3 == Get(c2, "a", 3).cache
    ensures c3.entries == [("a", ea.(hits := ea.hits + 1, lastAccessed := 3)), ("b", eb)]
    ensures c3.maxSize == c2.maxSize && c3.defaultTtl == c2.defaultTtl
  {
    assert OrderedMap.Find(c2.entries, "a") == Some(0);
    c3 := Get(c2, "a", 3).cache;
  }

  lemma StoreThird(c3: Cache<int>, es: OrderedMap.Pairs<Entry<int>>)
    requires c3.entries == es && c3.maxSize == 2 && |es| == 2 && es[0].0 == "a" && es[1].0 == "b"
    requires OldestIndex(es, 4) == Some(1)
    ensures OrderedMap.Keys(Set(c3, "c", 3, None, 4).entries) == ["a", "c"]
  {
    assert Victim(es, 4) == Some("b");
    assert OrderedMap.Find(es, "b") == Some(1);
    var rest := OrderedMap.Remove(es, "b");
    assert rest == [es[0]];
    assert OrderedMap.Find(rest, "c") == None;
  }

  lemma OldestOfTwo<T>(es: OrderedMap.Pairs<Entry<T>>, now: int)
    requires |es| == 2 && es[1].1.lastAccessed < es[0].1.lastAccessed && es[1].1.lastAccessed < now
    ensures OldestIndex(es, now) == Some(1)
  {
  }

  /** A sweep at `now` changes no answer a read at `now` would give. */
  lemma SweepInvisibleToReads<T>(c: Cache<T>, now: int, key: string)
    requires Valid(c)
    ensures Fresh(Sweep(c, now), key, now) == Fresh(c, key, now)
  {
  }

  /** `destroy()` may be called any number of times. */
  lemma DestroyIdempotent<T>(c: Cache<T>)
    ensures Destroy(Destroy(c)) == Destroy(c)
  {
  }
}

=== FILE: image_preload.dfy ===
/** The enhanced image component: which source it renders, when it is in view and how it loads,
    and the preload hook's bookkeeping of images loading and loaded. The browser's `Image` object
    and the intersection observer become events. */
module ImagePreload {
  import Lists

  // ---------------------------------------------------------------------------------------------
  // The image component

  const DefaultFallback: string := "/placeholder-product.svg"

  datatype LoadingMode = Lazy | Eager

  /** The component's state: loaded, failed, in view. */
  datatype View = View(isLoaded: bool, hasError: bool, isInView: bool)

  /** What may happen to a mounted image. */
  datatype ImageEvent = Intersected | ImgLoaded | ImgFailed

  /** On mount nothing has loaded or failed; a priority image is in view from the start. */
  function Mounted(priority: bool): (v: View)
    ensures !v.isLoaded && !v.hasError && (v.isInView <==> priority)
  {
    View(false, false, priority)
  }

  /** One event. The observer is only set up for non-priority images, so only they react to
      intersecting; a priority image is in view already. */
  function OnEvent(v: View, priority: bool, e: ImageEvent): (r: View)
    ensures v.isInView ==> r.isInView
    ensures v.isLoaded ==> r.isLoaded
    ensures v.hasError ==> r.hasError
    ensures e.Intersected? ==> ((r.isInView <==> v.isInView || !priority)
      && r.isLoaded == v.isLoaded && r.hasError == v.hasError)
    ensures e.ImgLoaded? ==> r.isLoaded && r.isInView == v.isInView && r.hasError == v.hasError
    ensures e.ImgFailed? ==> r.hasError && r.isInView == v.isInView && r.isLoaded == v.isLoaded
  {
    match e
    case Intersected => if priority then v else v.(isInView := true)
    case ImgLoaded => v.(isLoaded := true)
    case ImgFailed => v.(hasError := true)
  }

  function Replay(v: View, priority: bool, es: seq<ImageEvent>): View
    decreases |es|
  {
    if |es| == 0 then v else Replay(OnEvent(v, priority, es[0]), priority, es[1..])
  }

  /** Being in view never reverts, whatever happens; a priority image is always in view; and a
      non-priority image is in view exactly once it has intersected. */
  lemma {:induction false} InViewSticks(v: View, priority: bool, es: seq<ImageEvent>)
    requires priority ==> v.isInView
    ensures var r := Replay(v, priority, es);
      (v.isInView ==> r.isInView) && (priority ==> r.isInView)
      && (r.isInView <==> v.isInView || (!priority && Intersected in es))
    decreases |es|
  {
    if |es| > 0 {
      var w := OnEvent(v, priority, es[0]);
      InViewSticks(w, priority, es[1..]);
      assert es == [es[0]] + es[1..];
      assert Intersected in es <==> es[0] == Intersected || Intersected in es[1..];
    }
  }

  /** The source the `<img>` is given: the fallback once loading failed, the own source before. */
  function RenderedSrc(src: string, fallback: string, v: View): (s: string)
    ensures v.hasError ==> s == fallback
    ensures !v.hasError ==> s == src
  {
    if v.hasError then fallback else src
  }

  /** The `loading` attribute: priority images load eagerly, the others as asked. */
  function LoadingOf(priority: bool, loading: LoadingMode): (m: LoadingMode)
    ensures priority ==> m == Eager
    ensures !priority ==> m == loading
  {
    if priority then Eager else loading
  }

  /** With a fallback different from the source, the fallback is rendered exactly when the image
      failed, and the own source exactly when it did not. */
  lemma FallbackIffError(src: string, fallback: string, v: View)
    requires src != fallback
    ensures RenderedSrc(src, fallback, v) == fallback <==> v.hasError
    ensures RenderedSrc(src, fallback, v) == src <==> !v.hasError
  {
  }

  // ---------------------------------------------------------------------------------------------
  // useImagePreload

  /** The hook's two sets. */
  datatype Preloads = Preloads(loaded: set<string>, loading: set<string>)

  const Empty: Preloads := Preloads({}, {})

  /** `preloadImage(src)`: nothing when the source is loaded or loading already; otherwise it is
      marked loading (and the browser starts fetching it). */
  function Request(p: Preloads, src: string): (r: Preloads)
    ensures src in p.loaded || src in p.loading ==> r == p
    ensures src !in p.loaded && src !in p.loading ==> r == Preloads(p.loaded, p.loading + {src})
  {
    if src in p.loaded || src in p.loading then p
    else p.(loading := p.loading + {src})
  }

  /** The image's `onload`: the source moves from loading to loaded. */
  function OnLoad(p: Preloads, src: string): (r: Preloads)
    ensures r.loaded == p.loaded + {src} && r.loading == p.loading - {src}
  {
    Preloads(p.loaded + {src}, p.loading - {src})
  }

  /** The image's `onerror`: the source stops loading and is not counted as loaded. */
  function OnError(p: Preloads, src: string): (r: Preloads)
    ensures r.loaded == p.loaded && r.loading == p.loading - {src}
  {
    p.(loading := p.loading - {src})
  }

  datatype PreloadEvent = Asked(src: string) | Settled(src: string, ok: bool)

  function Step(p: Preloads, e: PreloadEvent): Preloads {
    match e
    case Asked(s) => Request(p, s)
    case Settled(s, ok) => if ok then OnLoad(p, s) else OnError(p, s)
  }

  function Run(p: Preloads, es: seq<PreloadEvent>): Preloads
    decreases |es|
  {
    if |es| == 0 then p else Run(Step(p, es[0]), es[1..])
  }

  ghost predicate Disjoint(p: Preloads) {
    p.loaded * p.loading == {}
  }

  /** Every step keeps the two sets apart and never forgets a loaded image. */
  lemma StepKeeps(p: Preloads, e: PreloadEvent)
    requires Disjoint(p)
    ensures var r := Step(p, e); Disjoint(r) && p.loaded <= r.loaded
  {
    var r := Step(p, e);
    match e
    case Asked(s) =>
    case Settled(s, ok) =>
      if ok {
        forall x | x in r.loaded
          ensures x !in r.loading
        {
          if x != s {
            assert x in p.loaded;
          }
        }
      }
  }

  /** Over any run the sets stay disjoint, `loaded` only grows, and a source ends up loaded only
      when it was loaded to begin with or some load of it succeeded. */
  lemma {:induction false} RunKeeps(p: Preloads, es: seq<PreloadEvent>)
    requires Disjoint(p)
    ensures var r := Run(p, es);
      Disjoint(r) && p.loaded <= r.loaded
      && forall x :: x in r.loaded ==> x in p.loaded || Settled(x, true) in es
    decreases |es|
  {
    if |es| > 0 {
      var q := Step(p, es[0]);
      StepKeeps(p, es[0]);
      RunKeeps(q, es[1..]);
      var r := Run(p, es);
      assert es == [es[0]] + es[1..];
      forall x | x in r.loaded
        ensures x in p.loaded || Settled(x, true) in es
      {
        if x !in q.loaded {
          assert Settled(x, true) in es[1..];
        } else if x !in p.loaded {
          assert es[0] == Settled(x, true);
        }
      }
    }
  }

  /** `srcs.forEach(preloadImage)`: every call sees the sets as they were when the effect ran,
      so the images started are those not loaded or loading then, duplicates included. */
  function Started(p: Preloads, srcs: seq<string>): (r: seq<string>)
    ensures |r| <= |srcs|
    ensures forall i :: 0 <= i < |r| ==> r[i] in srcs && r[i] !in p.loaded && r[i] !in p.loading
    ensures forall i :: 0 <= i < |srcs| && srcs[i] !in p.loaded && srcs[i] !in p.loading ==> srcs[i] in r
    ensures forall i :: 0 <= i < |srcs| ==>
      multiset(r)[srcs[i]] == if srcs[i] !in p.loaded && srcs[i] !in p.loading then multiset(srcs)[srcs[i]] else 0
    ensures Lists.Subseq(r, srcs)
  {
    Lists.Filter(srcs, s => s !in p.loaded && s !in p.loading)
  }

  /** The sets after the effect: the sources started are all marked loading, nothing else moves. */
  function PreloadAll(p: Preloads, srcs: seq<string>): (r: Preloads)
    ensures r.loaded == p.loaded
    ensures forall s :: s in r.loading <==> s in p.loading || s in Started(p, srcs)
  {
    Preloads(p.loaded, p.loading + set i | 0 <= i < |Started(p, srcs)| :: Started(p, srcs)[i])
  }

  /** Listing a source twice starts two loads of it, but it is marked loading once. */
  lemma DuplicateStartsTwice(src: string)
    ensures Started(Empty, [src, src]) == [src, src]
    ensures PreloadAll(Empty, [src, src]).loading == {src}
  {
    var r := Started(Empty, [src, src]);
    assert r == Lists.Filter([src, src], s => s !in Empty.loaded && s !in Empty.loading);
    assert |r| == 2 by {
      assert Lists.Filter([src], s => s !in Empty.loaded && s !in Empty.loading) == [src];
    }
  }
}

=== FILE: lists.dfy ===
/** Sequence helpers: order-preserving de-duplication (a JavaScript `Set` built from a list),
    removal of every occurrence, and the sub-list relation. */
module Lists {
  import opened Wrappers

  predicate NoDup<T(==)>(xs: seq<T>) {
    forall i, j :: 0 <= i < j < |xs| ==> xs[i] != xs[j]
  }

  /** `xs` is an order-preserving sub-list of `ys`. */
  predicate Subseq<T(==)>(xs: seq<T>, ys: seq<T>)
    decreases |ys|
  {
    if |xs| == 0 then true
    else if |ys| == 0 then false
    else if xs[0] == ys[0] then Subseq(xs[1..], ys[1..])
    else Subseq(xs, ys[1..])
  }

  /** The position of the first `x` in `xs`. */
  function IndexOf<T(==)>(xs: seq<T>, x: T): (k: nat)
    requires x in xs
    ensures k < |xs| && xs[k] == x
    ensures forall j :: 0 <= j < k ==> xs[j] != x
  {
    if xs[0] == x then 0
    else
      assert forall j :: 1 <= j < |xs| ==> xs[j] == xs[1..][j - 1];
      1 + IndexOf(xs[1..], x)
  }

  /** The elements of `r` come in the order in which `xs` first shows them. */
  predicate FirstSeen<T(==)>(r: seq<T>, xs: seq<T>) {
    forall i, j :: 0 <= i < j < |r| && r[i] in xs && r[j] in xs ==> IndexOf(xs, r[i]) < IndexOf(xs, r[j])
  }

  /** `[...new Set(xs)]`: elements in order of first occurrence, each once. Built the way a
      `Set` is filled, one element at a time from the left. */
  function Dedupe<T(==)>(xs: seq<T>): (r: seq<T>)
    ensures NoDup(r)
    ensures forall i :: 0 <= i < |r| ==> r[i] in xs
    ensures forall i :: 0 <= i < |xs| ==> xs[i] in r
    decreases |xs|
  {
    if |xs| == 0 then []
    else
      var d := Dedupe(xs[..|xs| - 1]);
      var x := xs[|xs| - 1];
      assert xs == xs[..|xs| - 1] + [x];
      if x in d then d else d + [x]
  }

  /** De-duplication keeps the order in which the elements are first seen. */
  lemma {:induction false} DedupeFirstSeen<T>(xs: seq<T>)
    ensures FirstSeen(Dedupe(xs), xs)
    decreases |xs|
  {
    if |xs| > 0 {
      var init := xs[..|xs| - 1];
      var x := xs[|xs| - 1];
      DedupeFirstSeen(init);
      assert xs == init + [x];
      DedupeStep(init, Dedupe(init), x);
    }
  }

  /** Appending never moves the first occurrence of an element already present, and a new
      element is first seen at the end. */
  lemma IndexOfSnoc<T>(init: seq<T>, x: T, y: T)
    requires y in init || y == x
    ensures y in init ==> IndexOf(init + [x], y) == IndexOf(init, y)
    ensures y !in init ==> IndexOf(init + [x], y) == |init|
  {
    var xs := init + [x];
    var k := IndexOf(xs, y);
    if y in init {
      var k0 := IndexOf(init, y);
      assert xs[k0] == y;
      assert k <= k0;
      assert init[k] == y;
    } else {
      assert forall j :: 0 <= j < |init| ==> xs[j] == init[j];
    }
  }

  /** Adding one element at the right end keeps the first-occurrence order. */
  lemma DedupeStep<T>(init: seq<T>, d: seq<T>, x: T)
    requires forall i :: 0 <= i < |d| ==> d[i] in init
    requires forall i :: 0 <= i < |init| ==> init[i] in d
    requires FirstSeen(d, init)
    ensures FirstSeen(if x in d then d else d + [x], init + [x])
  {
    var xs := init + [x];
    var r := if x in d then d else d + [x];
    forall i, j | 0 <= i < j < |r| && r[i] in xs && r[j] in xs
      ensures IndexOf(xs, r[i]) < IndexOf(xs, r[j])
    {
      assert r[i] == d[i];
      IndexOfSnoc(init, x, r[i]);
      if j < |d| {
        assert r[j] == d[j];
        IndexOfSnoc(init, x, r[j]);
      } else {
        assert r[j] == x && x !in init;
        IndexOfSnoc(init, x, x);
      }
    }
  }

  /** De-duplication keeps exactly the elements it was given. */
  lemma DedupeMembers<T>(xs: seq<T>)
    ensures forall x :: x in Dedupe(xs) <==> x in xs
  {
    var r := Dedupe(xs);
    forall x ensures x in r <==> x in xs {
      if x in r {
        var i :| 0 <= i < |r| && r[i] == x;
      }
      if x in xs {
        var i :| 0 <= i < |xs| && xs[i] == x;
      }
    }
  }

  /** `xs.findIndex(p)`: the first position whose element satisfies `p`, `None` for `-1`. */
  function FindIndex<T>(xs: seq<T>, p: T -> bool): (r: Option<nat>)
    ensures r.Some? ==> r.value < |xs| && p(xs[r.value])
    ensures r.Some? ==> forall j :: 0 <= j < r.value ==> !p(xs[j])
    ensures r.None? ==> forall j :: 0 <= j < |xs| ==> !p(xs[j])
    decreases |xs|
  {
    if |xs| == 0 then None
    else if p(xs[0]) then Some(0)
    else
      var rest := FindIndex(xs[1..], p);
      assert forall j :: 1 <= j < |xs| ==> xs[j] == xs[1..][j - 1];
      if rest.None? then None else Some(rest.value + 1)
  }

  /** `xs.filter(p)`: the elements satisfying `p`, in order, each as often as in `xs`. */
  function Filter<T(==)>(xs: seq<T>, p: T -> bool): (r: seq<T>)
    ensures forall i :: 0 <= i < |r| ==> r[i] in xs && p(r[i])
    ensures forall i :: 0 <= i < |xs| && p(xs[i]) ==> xs[i] in r
    ensures |r| <= |xs|
    ensures Subseq(r, xs)
    ensures forall i :: 0 <= i < |xs| ==> multiset(r)[xs[i]] == if p(xs[i]) then multiset(xs)[xs[i]] else 0
    decreases |xs|
  {
    if |xs| == 0 then []
    else
      var rest := Filter(xs[1..], p);
      FilterConsMembers(xs, p, rest);
      FilterConsOrder(xs, p, rest);
      FilterConsCount(xs, p, rest);
      if p(xs[0]) then [xs[0]] + rest else rest
  }

  /** Putting the head back in front of a filtered tail keeps the right elements. */
  lemma FilterConsMembers<T>(xs: seq<T>, p: T -> bool, rest: seq<T>)
    requires |xs| > 0
    requires forall i :: 0 <= i < |rest| ==> rest[i] in xs[1..] && p(rest[i])
    requires forall i :: 0 <= i < |xs[1..]| && p(xs[1..][i]) ==> xs[1..][i] in rest
    requires |rest| <= |xs[1..]|
    ensures var r := if p(xs[0]) then [xs[0]] + rest else rest;
      (forall i :: 0 <= i < |r| ==> r[i] in xs && p(r[i]))
      && (forall i :: 0 <= i < |xs| && p(xs[i]) ==> xs[i] in r)
      && |r| <= |xs|
  {
    assert forall i :: 1 <= i < |xs| ==> xs[i] == xs[1..][i - 1];
  }

  /** Putting the head back in front of a filtered tail keeps the order. */
  lemma FilterConsOrder<T>(xs: seq<T>, p: T -> bool, rest: seq<T>)
    requires |xs| > 0 && Subseq(rest, xs[1..])
    ensures Subseq(if p(xs[0]) then [xs[0]] + rest else rest, xs)
  {
    if p(xs[0]) {
      assert ([xs[0]] + rest)[1..] == rest;
    } else {
      assert [xs[0]] + xs[1..] == xs;
      SubseqCons(xs[0], rest, xs[1..]);
    }
  }

  /** Putting the head back in front of a filtered tail counts every element right. */
  lemma FilterConsCount<T>(xs: seq<T>, p: T -> bool, rest: seq<T>)
    requires |xs| > 0
    requires forall i :: 0 <= i < |rest| ==> rest[i] in xs[1..]
    requires forall i :: 0 <= i < |xs[1..]| ==>
      multiset(rest)[xs[1..][i]] == if p(xs[1..][i]) then multiset(xs[1..])[xs[1..][i]] else 0
    ensures forall i :: 0 <= i < |xs| ==>
      multiset(if p(xs[0]) then [xs[0]] + rest else rest)[xs[i]]
        == if p(xs[i]) then multiset(xs)[xs[i]] else 0
  {
    var tail := xs[1..];
    assert xs == [xs[0]] + tail;
    assert multiset(xs) == multiset([xs[0]]) + multiset(tail);
    if xs[0] !in tail {
      assert xs[0] !in rest;
    }
    assert forall i :: 1 <= i < |xs| ==> xs[i] == tail[i - 1];
  }

  /** Filtering by a weaker test keeps at least the same elements, in the same order. */
  lemma {:induction false} FilterMonotone<T>(xs: seq<T>, p: T -> bool, q: T -> bool)
    requires forall i :: 0 <= i < |xs| && p(xs[i]) ==> q(xs[i])
    ensures Subseq(Filter(xs, p), Filter(xs, q))
    decreases |xs|
  {
    if |xs| > 0 {
      var rp := Filter(xs[1..], p);
      var rq := Filter(xs[1..], q);
      assert forall i :: 1 <= i < |xs| ==> xs[i] == xs[1..][i - 1];
      FilterMonotone(xs[1..], p, q);
      if p(xs[0]) {
        assert Filter(xs, p) == [xs[0]] + rp && Filter(xs, q) == [xs[0]] + rq;
        assert ([xs[0]] + rp)[1..] == rp && ([xs[0]] + rq)[1..] == rq;
      } else if q(xs[0]) {
        assert Filter(xs, p) == rp && Filter(xs, q) == [xs[0]] + rq;
        SubseqCons(xs[0], rp, rq);
      } else {
        assert Filter(xs, p) == rp && Filter(xs, q) == rq;
      }
    }
  }

  /** Keeping everything is the identity. */
  lemma {:induction false} FilterAll<T>(xs: seq<T>, p: T -> bool)
    requires forall i :: 0 <= i < |xs| ==> p(xs[i])
    ensures Filter(xs, p) == xs
    decreases |xs|
  {
    if |xs| > 0 {
      var tail := xs[1..];
      forall i | 0 <= i < |tail| ensures p(tail[i]) {
        assert tail[i] == xs[i + 1];
      }
      FilterAll(tail, p);
      assert p(xs[0]);
      assert [xs[0]] + tail == xs;
    }
  }

  /** A list without repeats is its own de-duplication. */
  lemma {:induction false} DedupeOfNoDup<T>(xs: seq<T>)
    requires NoDup(xs)
    ensures Dedupe(xs) == xs
    decreases |xs|
  {
    if |xs| > 0 {
      var init := xs[..|xs| - 1];
      assert NoDup(init);
      DedupeOfNoDup(init);
      assert xs[|xs| - 1] !in init;
      assert xs == init + [xs[|xs| - 1]];
    }
  }

  /** Every occurrence of `x` removed, the rest kept in order (`xs.filter(y => y !== x)`). */
  function RemoveAll<T(==)>(xs: seq<T>, x: T): (r: seq<T>)
    ensures forall i :: 0 <= i < |r| ==> r[i] in xs && r[i] != x
    ensures forall i :: 0 <= i < |xs| && xs[i] != x ==> xs[i] in r
    ensures Subseq(r, xs)
    ensures x !in xs ==> r == xs
    decreases |xs|
  {
    if |xs| == 0 then []
    else if xs[0] == x then SubseqCons(xs[0], RemoveAll(xs[1..], x), xs[1..]); RemoveAll(xs[1..], x)
    else
      var rest := RemoveAll(xs[1..], x);
      assert xs == [xs[0]] + xs[1..];
      [xs[0]] + rest
  }

  lemma RemoveAllCons<T>(xs: seq<T>, x: T)
    requires |xs| > 0 && xs[0] != x
    ensures RemoveAll(xs, x) == [xs[0]] + RemoveAll(xs[1..], x)
  {
  }

  /** Removing an element keeps a list free of repeats. */
  lemma {:induction false} RemoveAllNoDup<T>(xs: seq<T>, x: T)
    ensures NoDup(xs) ==> NoDup(RemoveAll(xs, x))
    decreases |xs|
  {
    if |xs| > 0 && NoDup(xs) {
      var tail := xs[1..];
      assert NoDup(tail);
      RemoveAllNoDup(tail, x);
      if xs[0] != x {
        RemoveAllCons(xs, x);
        var r := RemoveAll(tail, x);
        assert xs[0] !in r by {
          assert xs[0] !in tail;
        }
      }
    }
  }

  /** Skipping an element of the longer list keeps a sub-list a sub-list. */
  lemma SubseqCons<T>(y: T, xs: seq<T>, ys: seq<T>)
    requires Subseq(xs, ys)
    ensures Subseq(xs, [y] + ys)
    decreases |ys|, 1
  {
    if |xs| > 0 && xs[0] == y {
      SubseqDropHead(xs, ys);
      assert ([y] + ys)[1..] == ys;
    } else {
      assert ([y] + ys)[1..] == ys;
    }
  }

  lemma SubseqDropHead<T>(xs: seq<T>, ys: seq<T>)
    requires |xs| > 0 && Subseq(xs, ys)
    ensures Subseq(xs[1..], ys)
    decreases |ys|, 0
  {
    if xs[0] != ys[0] {
      SubseqDropHead(xs, ys[1..]);
      SubseqCons(ys[0], xs[1..], ys[1..]);
      assert [ys[0]] + ys[1..] == ys;
    } else {
      SubseqCons(ys[0], xs[1..], ys[1..]);
      assert [ys[0]] + ys[1..] == ys;
    }
  }

  lemma SubseqRefl<T>(xs: seq<T>)
    ensures Subseq(xs, xs)
  {
    if |xs| > 0 {
      SubseqRefl(xs[1..]);
    }
  }

  /** A sub-list only holds elements of the list it is taken from. */
  lemma SubseqMembers<T>(xs: seq<T>, ys: seq<T>)
    requires Subseq(xs, ys)
    ensures forall i :: 0 <= i < |xs| ==> xs[i] in ys
    decreases |ys|
  {
    if |xs| > 0 {
      if xs[0] == ys[0] {
        SubseqMembers(xs[1..], ys[1..]);
        assert forall i :: 1 <= i < |xs| ==> xs[i] == xs[1..][i - 1];
      } else {
        SubseqMembers(xs, ys[1..]);
      }
    }
  }
}

=== FILE: lru_cache.dfy ===
/** `LRUCache`: a size-capped `Map` whose iteration order is recency order, because every read
    and every write moves its key to the end; the first key is the eviction candidate. */
module LruCache {
  import opened Wrappers
  import OrderedMap
  import Lists

  const DefaultMaxSize: int := 50

  datatype Lru<T> = Lru(entries: OrderedMap.Pairs<T>, maxSize: int)

  /** What `get` returns: the cache afterwards and the value (`None` for `undefined`). */
  datatype Read<T> = Read(cache: Lru<T>, value: Option<T>)

  predicate Valid<T>(c: Lru<T>) {
    OrderedMap.Unique(c.entries)
  }

  /** `new LRUCache(maxSize = 50)`: only a missing argument takes the default. */
  function New<T>(maxSize: Option<int>): (c: Lru<T>)
    ensures Valid(c) && c.entries == []
    ensures c.maxSize == maxSize.GetOr(DefaultMaxSize)
  {
    Lru([], maxSize.GetOr(DefaultMaxSize))
  }

  /** `delete` followed by `set`: the key moves to the end with value `v`. */
  function MoveToEnd<T>(m: OrderedMap.Pairs<T>, k: string, v: T): (r: OrderedMap.Pairs<T>)
    requires OrderedMap.Unique(m)
    ensures OrderedMap.Unique(r)
    ensures |r| > 0 && r[|r| - 1] == (k, v)
    ensures OrderedMap.Keys(r) == Lists.RemoveAll(OrderedMap.Keys(m), k) + [k]
    ensures forall k' :: k' != k ==> OrderedMap.Get(r, k') == OrderedMap.Get(m, k')
  {
    var rest := OrderedMap.Remove(m, k);
    OrderedMap.KeysRemove(m, k);
    var r := rest + [(k, v)];
    OrderedMap.AppendFresh(rest, (k, v));
    AppendNew(rest, k, v);
    r
  }

  /** `get(key)`: a present key moves to the most-recently-used end and its value is
      returned; an absent key changes nothing. */
  function Get<T>(c: Lru<T>, key: string): (r: Read<T>)
    requires Valid(c)
    ensures Valid(r.cache) && r.cache.maxSize == c.maxSize
    ensures r.value == OrderedMap.Get(c.entries, key)
    ensures r.value.None? ==> r.cache == c
    ensures r.value.Some? ==> OrderedMap.Keys(r.cache.entries) == Lists.RemoveAll(OrderedMap.Keys(c.entries), key) + [key]
    ensures forall k :: OrderedMap.Get(r.cache.entries, k) == OrderedMap.Get(c.entries, k)
  {
    match OrderedMap.Get(c.entries, key)
    case None => Read(c, None)
    case Some(v) => Read(c.(entries := MoveToEnd(c.entries, key, v)), Some(v))
  }

  /** Whether `set(key, _)` evicts the first key: the key is new, the cache is full and its
      first key is not the falsy empty string. */
  predicate Evicts<T>(c: Lru<T>, key: string) {
    !OrderedMap.Has(c.entries, key) && |c.entries| >= c.maxSize && |c.entries| > 0 && c.entries[0].0 != ""
  }

  /** `set(key, value)`: an existing key is moved to the end with the new value and nothing is
      evicted; a new key at capacity first evicts the first (least recently used) key, unless
      that key is the falsy empty string or the cache is empty; the new key goes at the end. */
  function Set<T>(c: Lru<T>, key: string, v: T): (r: Lru<T>)
    requires Valid(c)
    ensures Valid(r) && r.maxSize == c.maxSize
    ensures |r.entries| > 0 && r.entries[|r.entries| - 1] == (key, v)
    ensures OrderedMap.Has(c.entries, key) ==>
      OrderedMap.Keys(r.entries) == Lists.RemoveAll(OrderedMap.Keys(c.entries), key) + [key]
    ensures !OrderedMap.Has(c.entries, key) && |c.entries| < c.maxSize ==> r.entries == c.entries + [(key, v)]
    ensures !OrderedMap.Has(c.entries, key) && |c.entries| >= c.maxSize && |c.entries| > 0 && c.entries[0].0 != "" ==>
      r.entries == c.entries[1..] + [(key, v)]
    ensures !OrderedMap.Has(c.entries, key) && |c.entries| >= c.maxSize && (|c.entries| == 0 || c.entries[0].0 == "") ==>
      r.entries == c.entries + [(key, v)]
    ensures OrderedMap.Get(r.entries, key) == Some(v)
    ensures Evicts(c, key) ==> OrderedMap.Get(r.entries, c.entries[0].0) == None
    ensures forall k :: k != key && !(Evicts(c, key) && k == c.entries[0].0) ==>
      OrderedMap.Get(r.entries, k) == OrderedMap.Get(c.entries, k)
  {
    if OrderedMap.Has(c.entries, key) then
      c.(entries := MoveToEnd(c.entries, key, v))
    else
      var kept := if Evicts(c, key) then c.entries[1..] else c.entries;
      assert !OrderedMap.Has(kept, key);
      SetNewFrame(c, key, v, kept);
      c.(entries := kept + [(key, v)])
  }

  /** The frame of `set` on a new key: only `key` and, when evicted, the first key change. */
  lemma SetNewFrame<T>(c: Lru<T>, key: string, v: T, kept: OrderedMap.Pairs<T>)
    requires Valid(c) && !OrderedMap.Has(c.entries, key)
    requires kept == if Evicts(c, key) then c.entries[1..] else c.entries
    ensures OrderedMap.Get(kept + [(key, v)], key) == Some(v)
    ensures Evicts(c, key) ==> OrderedMap.Get(kept + [(key, v)], c.entries[0].0) == None
    ensures forall k :: k != key && !(Evicts(c, key) && k == c.entries[0].0) ==>
      OrderedMap.Get(kept + [(key, v)], k) == OrderedMap.Get(c.entries, k)
  {
    if Evicts(c, key) {
      AppendAfterFirst(c.entries, key, v);
    } else {
      AppendNew(c.entries, key, v);
    }
  }

  /** Appending a new key changes no other key's value. */
  lemma AppendNew<T>(m: OrderedMap.Pairs<T>, key: string, v: T)
    requires !OrderedMap.Has(m, key)
    ensures OrderedMap.Get(m + [(key, v)], key) == Some(v)
    ensures forall k :: k != key ==> OrderedMap.Get(m + [(key, v)], k) == OrderedMap.Get(m, k)
  {
    OrderedMap.FindAppend(m, (key, v), key);
    forall k | k != key ensures OrderedMap.Get(m + [(key, v)], k) == OrderedMap.Get(m, k) {
      OrderedMap.FindAppend(m, (key, v), k);
    }
  }

  /** Dropping the first key and appending a new one changes only those two keys. */
  lemma AppendAfterFirst<T>(m: OrderedMap.Pairs<T>, key: string, v: T)
    requires OrderedMap.Unique(m) && |m| > 0 && !OrderedMap.Has(m, key)
    ensures OrderedMap.Get(m[1..] + [(key, v)], key) == Some(v)
    ensures OrderedMap.Get(m[1..] + [(key, v)], m[0].0) == None
    ensures forall k :: k != key && k != m[0].0 ==>
      OrderedMap.Get(m[1..] + [(key, v)], k) == OrderedMap.Get(m, k)
  {
    var kept := m[1..];
    assert !OrderedMap.Has(kept, key) by {
      forall i | 0 <= i < |kept| ensures kept[i].0 != key {
        assert kept[i] == m[i + 1];
      }
    }
    assert !OrderedMap.Has(kept, m[0].0) by {
      forall i | 0 <= i < |kept| ensures kept[i].0 != m[0].0 {
        assert kept[i] == m[i + 1];
      }
    }
    assert m[0].0 != key;
    AppendNew(kept, key, v);
    assert kept == m[..0] + m[1..];
    forall k | k != key && k != m[0].0 ensures OrderedMap.Get(kept, k) == OrderedMap.Get(m, k) {
      OrderedMap.GetRemoveAt(m, 0, k);
    }
  }

  /** `has(key)`: a pure membership test that does not touch recency. */
  function Has<T>(c: Lru<T>, key: string): (b: bool)
    ensures b <==> key in OrderedMap.Keys(c.entries)
  {
    OrderedMap.Has(c.entries, key)
  }

  /** What `delete` returns: the cache afterwards and whether the key was there. */
  datatype Deleted<T> = Deleted(cache: Lru<T>, removed: bool)

  /** `delete(key)`: the key leaves the recency order, the others keep theirs and their
      values; the result says whether anything was removed. */
  function Delete<T>(c: Lru<T>, key: string): (r: Deleted<T>)
    requires Valid(c)
    ensures Valid(r.cache) && r.cache.maxSize == c.maxSize
    ensures r.removed <==> key in OrderedMap.Keys(c.entries)
    ensures OrderedMap.Keys(r.cache.entries) == Lists.RemoveAll(OrderedMap.Keys(c.entries), key)
    ensures OrderedMap.Get(r.cache.entries, key) == None
    ensures forall k :: k != key ==> OrderedMap.Get(r.cache.entries, k) == OrderedMap.Get(c.entries, k)
  {
    OrderedMap.KeysRemove(c.entries, key);
    Deleted(c.(entries := OrderedMap.Remove(c.entries, key)), OrderedMap.Has(c.entries, key))
  }

  function Clear<T>(c: Lru<T>): (r: Lru<T>)
    ensures Valid(r) && |r.entries| == 0 && r.maxSize == c.maxSize
  {
    c.(entries := [])
  }

  /** The cap that actually holds: a capacity below one still lets one entry in. */
  function Bound(maxSize: int): nat {
    if maxSize >= 1 then maxSize else 1
  }

  /** The invariant kept by every operation when no key is the empty string. */
  predicate Inv<T>(c: Lru<T>) {
    && Valid(c)
    && (forall i :: 0 <= i < |c.entries| ==> c.entries[i].0 != "")
    && |c.entries| <= Bound(c.maxSize)
  }

  /** With non-empty keys, `set` never lets the cache grow past its cap. */
  lemma SetKeepsCapacity<T>(c: Lru<T>, key: string, v: T)
    requires Inv(c) && key != ""
    ensures Inv(Set(c, key, v))
  {
    if OrderedMap.Has(c.entries, key) {
      MoveKeepsInvariant(c, key, v);
    } else {
      var r := Set(c, key, v);
      assert r.entries == (if Evicts(c, key) then c.entries[1..] else c.entries) + [(key, v)];
    }
  }

  /** Moving a present key to the end keeps the invariant: the keys only change order. */
  lemma MoveKeepsInvariant<T>(c: Lru<T>, key: string, v: T)
    requires Inv(c) && key != "" && OrderedMap.Has(c.entries, key)
    ensures Inv(c.(entries := MoveToEnd(c.entries, key, v)))
  {
    var r := MoveToEnd(c.entries, key, v);
    var ks := OrderedMap.Keys(c.entries);
    assert key in ks by {
      var i := OrderedMap.Find(c.entries, key).value;
      assert ks[i] == key;
    }
    RemoveAllShrinks(ks, key);
    assert |r| == |Lists.RemoveAll(ks, key)| + 1;
    forall i | 0 <= i < |r| ensures r[i].0 != "" {
      if i < |r| - 1 {
        assert OrderedMap.Keys(r)[i] in Lists.RemoveAll(ks, key);
      }
    }
  }

  lemma RemoveAllShrinks<T>(xs: seq<T>, x: T)
    requires x in xs
    ensures |Lists.RemoveAll(xs, x)| < |xs|
  {
  }

  /** Reads keep the invariant too: they only reorder. */
  lemma GetKeepsInvariant<T>(c: Lru<T>, key: string)
    requires Inv(c)
    ensures Inv(Get(c, key).cache)
  {
    if OrderedMap.Has(c.entries, key) {
      var v := OrderedMap.Get(c.entries, key).value;
      assert key != "" by {
        var i := OrderedMap.Find(c.entries, key).value;
        assert c.entries[i].0 == key;
      }
      MoveKeepsInvariant(c, key, v);
    }
  }

  /** With room for two, storing `a` and `b`, reading `a` and storing `c` evicts `b`. */
  lemma EvictsLeastRecentlyUsed()
    ensures var c := Set(Get(Set(Set(New<int>(Some(2)), "a", 1), "b", 2), "a").cache, "c", 3);
      OrderedMap.Keys(c.entries) == ["a", "c"]
  {
    var c2 := Set(Set(New<int>(Some(2)), "a", 1), "b", 2);
    StoresTwo();
    ReadMovesToEnd(c2);
    StoreEvictsFirst(Get(c2, "a").cache);
  }

  lemma StoresTwo()
    ensures var c := Set(Set(New<int>(Some(2)), "a", 1), "b", 2);
      Valid(c) && c.maxSize == 2 && c.entries == [("a", 1), ("b", 2)]
  {
    var c1 := Set(New<int>(Some(2)), "a", 1);
    assert c1.entries == [("a", 1)];
  }

  lemma ReadMovesToEnd(c: Lru<int>)
    requires Valid(c) && c.entries == [("a", 1), ("b", 2)]
    ensures Valid(Get(c, "a").cache) && Get(c, "a").cache.maxSize == c.maxSize
    ensures OrderedMap.Keys(Get(c, "a").cache.entries) == ["b", "a"]
  {
    assert OrderedMap.Get(c.entries, "a") == Some(1);
    assert OrderedMap.Keys(c.entries) == ["a", "b"];
    assert Lists.RemoveAll(["a", "b"], "a") == ["b"] by {
      assert ["a", "b"][1..] == ["b"] && ["b"][1..] == [];
      assert Lists.RemoveAll(["b"], "a") == ["b"] + Lists.RemoveAll([], "a");
    }
  }

  lemma StoreEvictsFirst(c: Lru<int>)
    requires Valid(c) && c.maxSize == 2 && OrderedMap.Keys(c.entries) == ["b", "a"]
    ensures OrderedMap.Keys(Set(c, "c", 3).entries) == ["a", "c"]
  {
    var ks := OrderedMap.Keys(c.entries);
    assert c.entries[0].0 == ks[0] && c.entries[1].0 == ks[1];
    assert !OrderedMap.Has(c.entries, "c");
    assert Evicts(c, "c");
    assert Set(c, "c", 3).entries == c.entries[1..] + [("c", 3)];
  }
}

/** `ImageCache`: an `LRUCache` of 100 image URLs plus the set of URLs known to have loaded.
    Only its bookkeeping is modelled; the browser image request is not. */
module ImageCache {
  import opened Wrappers
  import OrderedMap
  import LruCache

  const Capacity: int := 100

  datatype Images = Images(cache: LruCache.Lru<string>, loaded: set<string>)

  function New(): (r: Images)
    ensures LruCache.Inv(r.cache) && r.cache.maxSize == Capacity && r.loaded == {}
  {
    Images(LruCache.New(Some(Capacity)), {})
  }

  /** `preload(src)` returns at once for a URL that already loaded. */
  predicate NeedsRequest(im: Images, src: string) {
    src !in im.loaded
  }

  /** The `onload` handler of a preload: the URL is recorded as loaded and cached under
      itself. A failed load changes nothing. */
  function Loaded(im: Images, src: string): (r: Images)
    requires LruCache.Valid(im.cache)
    ensures r.loaded == im.loaded + {src}
    ensures LruCache.Valid(r.cache)
    ensures OrderedMap.Get(r.cache.entries, src) == Some(src)
    ensures !NeedsRequest(r, src)
  {
    Images(LruCache.Set(im.cache, src, src), im.loaded + {src})
  }

  /** `isLoaded(src)`. */
  predicate IsLoaded(im: Images, src: string) {
    src in im.loaded
  }

  /** `clear()`: forgets both the cache and the loaded set. */
  function Clear(im: Images): (r: Images)
    ensures r.loaded == {} && |r.cache.entries| == 0 && r.cache.maxSize == im.cache.maxSize
  {
    Images(LruCache.Clear(im.cache), {})
  }
}

=== FILE: options_selector.dfy ===
/** The variant picker of a product page: which colours and features it offers, what a
    colour-feature combination costs, and the single-select state behind its buttons. */
module OptionsSelector {
  import opened Wrappers
  import Text
  import Lists

  /** The `features` field of a product: missing (or falsy), one string, or a list. */
  datatype FeatureField = Absent | Single(text: string) | Many(items: seq<string>)

  /** A priced colour-feature combination. */
  datatype Combination = Combination(color: string, feature: string, price: real)

  /** A colour name as offered: non-empty and already trimmed. */
  predicate Clean(s: string) {
    |s| > 0 && Text.Trim(s) == s
  }

  /** Some piece of the list is not blank and trims to `x`. */
  predicate TrimsTo(pieces: seq<string>, x: string) {
    exists j :: 0 <= j < |pieces| && !Text.Blank(pieces[j]) && x == Text.Trim(pieces[j])
  }

  /** Every piece trimmed, in place. */
  function Trimmed(pieces: seq<string>): seq<string> {
    seq(|pieces|, i requires 0 <= i < |pieces| => Text.Trim(pieces[i]))
  }

  predicate NonEmpty(s: string) {
    |s| > 0
  }

  /** Trims every piece and drops the pieces left empty, keeping the order and the repeats. */
  function TrimmedNonEmpty(pieces: seq<string>): (r: seq<string>)
    ensures forall i :: 0 <= i < |r| ==> Clean(r[i])
    ensures forall x :: x in r <==> TrimsTo(pieces, x)
    ensures Lists.Subseq(r, Trimmed(pieces))
    ensures forall i :: 0 <= i < |pieces| ==>
      multiset(r)[Text.Trim(pieces[i])]
        == if Text.Blank(pieces[i]) then 0 else multiset(Trimmed(pieces))[Text.Trim(pieces[i])]
  {
    KeptPiecesClean(pieces);
    KeptPiecesMembers(pieces);
    KeptPiecesCount(pieces);
    Lists.Filter(Trimmed(pieces), NonEmpty)
  }

  lemma KeptPiecesCount(pieces: seq<string>)
    ensures var r := Lists.Filter(Trimmed(pieces), NonEmpty);
      forall i :: 0 <= i < |pieces| ==>
        multiset(r)[Text.Trim(pieces[i])]
          == if Text.Blank(pieces[i]) then 0 else multiset(Trimmed(pieces))[Text.Trim(pieces[i])]
  {
    var t := Trimmed(pieces);
    var r := Lists.Filter(t, NonEmpty);
    forall i | 0 <= i < |pieces|
      ensures multiset(r)[Text.Trim(pieces[i])]
        == if Text.Blank(pieces[i]) then 0 else multiset(t)[Text.Trim(pieces[i])]
    {
      assert t[i] == Text.Trim(pieces[i]);
    }
  }

  lemma KeptPiecesClean(pieces: seq<string>)
    ensures var r := Lists.Filter(Trimmed(pieces), NonEmpty);
      forall i :: 0 <= i < |r| ==> Clean(r[i])
  {
    var t := Trimmed(pieces);
    var r := Lists.Filter(t, NonEmpty);
    TrimmedAreClean(pieces);
    forall i | 0 <= i < |r| ensures Clean(r[i]) {
      var j :| 0 <= j < |t| && t[j] == r[i];
    }
  }

  lemma KeptPiecesMembers(pieces: seq<string>)
    ensures forall x :: x in Lists.Filter(Trimmed(pieces), NonEmpty) <==> TrimsTo(pieces, x)
  {
    var r := Lists.Filter(Trimmed(pieces), NonEmpty);
    forall x ensures x in r <==> TrimsTo(pieces, x) {
      if x in r {
        KeptIsTrimmed(pieces, x);
      }
      if TrimsTo(pieces, x) {
        TrimmedIsKept(pieces, x);
      }
    }
  }

  lemma KeptIsTrimmed(pieces: seq<string>, x: string)
    requires x in Lists.Filter(Trimmed(pieces), NonEmpty)
    ensures TrimsTo(pieces, x)
  {
    var t := Trimmed(pieces);
    var r := Lists.Filter(t, NonEmpty);
    var i :| 0 <= i < |r| && r[i] == x;
    assert x in t && NonEmpty(x);
    var j :| 0 <= j < |t| && t[j] == x;
    assert !Text.Blank(pieces[j]) && x == Text.Trim(pieces[j]);
  }

  lemma TrimmedIsKept(pieces: seq<string>, x: string)
    requires TrimsTo(pieces, x)
    ensures x in Lists.Filter(Trimmed(pieces), NonEmpty)
  {
    var t := Trimmed(pieces);
    var j :| 0 <= j < |pieces| && !Text.Blank(pieces[j]) && x == Text.Trim(pieces[j]);
    assert t[j] == x && NonEmpty(t[j]);
  }

  lemma TrimmedAreClean(pieces: seq<string>)
    ensures forall i :: 0 <= i < |pieces| ==> Text.Trim(Trimmed(pieces)[i]) == Trimmed(pieces)[i]
  {
    forall i | 0 <= i < |pieces| ensures Text.Trim(Trimmed(pieces)[i]) == Trimmed(pieces)[i] {
      Text.TrimOfTrimmed(Text.Trim(pieces[i]));
    }
  }

  /** Trimming never brings in a character the pieces lack. */
  lemma {:induction false} TrimmedLacks(pieces: seq<string>, c: char)
    requires forall j :: 0 <= j < |pieces| ==> c !in pieces[j]
    ensures forall i :: 0 <= i < |TrimmedNonEmpty(pieces)| ==> c !in TrimmedNonEmpty(pieces)[i]
  {
    var r := TrimmedNonEmpty(pieces);
    forall i | 0 <= i < |r| ensures c !in r[i] {
      assert r[i] in r;
      var j :| 0 <= j < |pieces| && !Text.Blank(pieces[j]) && r[i] == Text.Trim(pieces[j]);
    }
  }

  /** The list of colours offered for a comma-separated colour field: the trimmed non-empty
      pieces, each once, in order of first appearance. */
  function AvailableColors(color: Option<string>): (r: seq<string>)
    ensures Lists.NoDup(r)
    ensures forall i :: 0 <= i < |r| ==> Clean(r[i]) && ',' !in r[i]
    ensures color.None? ==> r == []
    ensures color.Some? ==> forall x :: x in r <==> x in TrimmedNonEmpty(Text.Split(color.value, ','))
    ensures color.Some? ==> Lists.FirstSeen(r, TrimmedNonEmpty(Text.Split(color.value, ',')))
  {
    if color.None? then []
    else if color.value == [] then
      EmptyFieldHasNoColor();
      []
    else
      ColorsOfField(color.value);
      Lists.DedupeFirstSeen(TrimmedNonEmpty(Text.Split(color.value, ',')));
      Lists.Dedupe(TrimmedNonEmpty(Text.Split(color.value, ',')))
  }

  /** The colours of a non-empty field are clean, comma-free and those of the trimmed pieces. */
  lemma ColorsOfField(v: string)
    ensures var kept := TrimmedNonEmpty(Text.Split(v, ','));
      var r := Lists.Dedupe(kept);
      (forall i :: 0 <= i < |r| ==> Clean(r[i]) && ',' !in r[i])
      && (forall x :: x in r <==> x in kept)
  {
    var pieces := Text.Split(v, ',');
    var kept := TrimmedNonEmpty(pieces);
    TrimmedLacks(pieces, ',');
    Lists.DedupeMembers(kept);
  }

  lemma EmptyFieldHasNoColor()
    ensures TrimmedNonEmpty(Text.Split([], ',')) == []
  {
    assert Text.Split([], ',') == [[]];
    assert Text.Trim([]) == [];
  }

  /** Joining distinct, trimmed, comma-free colours with commas and parsing the field back
      gives the same colours in the same order. */
  lemma ColorsOfJoined(cs: seq<string>)
    requires Lists.NoDup(cs)
    requires forall i :: 0 <= i < |cs| ==> Clean(cs[i]) && ',' !in cs[i]
    ensures AvailableColors(Some(Text.Join(cs, [',']))) == cs
  {
    if |cs| > 0 {
      ColorsOfJoinedNonEmpty(cs);
    } else {
      assert Text.Join(cs, [',']) == [];
    }
  }

  lemma ColorsOfJoinedNonEmpty(cs: seq<string>)
    requires |cs| > 0 && Lists.NoDup(cs)
    requires forall i :: 0 <= i < |cs| ==> Clean(cs[i]) && ',' !in cs[i]
    ensures AvailableColors(Some(Text.Join(cs, [',']))) == cs
  {
    var joined := Text.Join(cs, [',']);
    assert joined != [] && Text.Split(joined, ',') == cs by {
      Text.SplitJoin(cs, ',');
      JoinLength(cs, [',']);
    }
    ColorsOfCleanPieces(joined, cs);
  }

  lemma ColorsOfCleanPieces(v: string, cs: seq<string>)
    requires v != [] && Text.Split(v, ',') == cs
    requires Lists.NoDup(cs)
    requires forall i :: 0 <= i < |cs| ==> Clean(cs[i])
    ensures AvailableColors(Some(v)) == cs
  {
    ColorsOfNonEmptyField(v);
    TrimmedOfClean(cs);
    assert TrimmedNonEmpty(Text.Split(v, ',')) == cs;
    Lists.DedupeOfNoDup(cs);
  }

  lemma ColorsOfNonEmptyField(v: string)
    requires v != []
    ensures AvailableColors(Some(v)) == Lists.Dedupe(TrimmedNonEmpty(Text.Split(v, ',')))
  {
  }

  lemma TrimmedOfClean(cs: seq<string>)
    requires forall i :: 0 <= i < |cs| ==> Clean(cs[i])
    ensures TrimmedNonEmpty(cs) == cs
  {
    assert Trimmed(cs) == cs;
    Lists.FilterAll(cs, NonEmpty);
  }

  lemma JoinLength(parts: seq<string>, sep: string)
    requires |parts| > 0
    ensures |Text.Join(parts, sep)| >= |parts[0]|
  {
  }

  predicate NotBlank(s: string) {
    !Text.Blank(s)
  }

  /** The non-blank entries of a list, untrimmed, in order, repeats kept. */
  function NonBlank(items: seq<string>): (r: seq<string>)
    ensures forall x :: x in r <==> x in items && !Text.Blank(x)
    ensures Lists.Subseq(r, items)
    ensures forall i :: 0 <= i < |items| ==>
      multiset(r)[items[i]] == if Text.Blank(items[i]) then 0 else multiset(items)[items[i]]
  {
    var r := Lists.Filter(items, NotBlank);
    assert forall x :: x in r ==> x in items by {
      forall x | x in r ensures x in items {
        var i :| 0 <= i < |r| && r[i] == x;
      }
    }
    r
  }

  /** The list of features offered. */
  function AvailableFeatures(f: FeatureField): (r: seq<string>)
    ensures Lists.NoDup(r)
    ensures forall i :: 0 <= i < |r| ==> !Text.Blank(r[i])
    ensures f.Absent? ==> r == []
    ensures f.Single? ==> |r| <= 1 && (|r| == 1 <==> !Text.Blank(f.text)) && (|r| == 1 ==> r[0] == f.text)
    ensures f.Many? ==> forall x :: x in r <==> x in f.items && !Text.Blank(x)
    ensures f.Many? ==> Lists.FirstSeen(r, NonBlank(f.items))
  {
    match f
    case Absent => []
    case Single(s) => if s == "" || Text.Blank(s) then [] else [s]
    case Many(items) =>
      Lists.DedupeFirstSeen(NonBlank(items));
      Lists.Dedupe(NonBlank(items))
  }

  /** A clean feature list is offered exactly as stored. */
  lemma {:induction false} FeaturesOfCleanList(items: seq<string>)
    requires Lists.NoDup(items)
    requires forall i :: 0 <= i < |items| ==> !Text.Blank(items[i])
    ensures AvailableFeatures(Many(items)) == items
  {
    NonBlankOfClean(items);
    Lists.DedupeOfNoDup(items);
  }

  lemma NonBlankOfClean(items: seq<string>)
    requires forall i :: 0 <= i < |items| ==> !Text.Blank(items[i])
    ensures NonBlank(items) == items
  {
    Lists.FilterAll(items, NotBlank);
  }

  predicate Matches(c: Combination, color: string, feature: string) {
    Text.Normalize(c.color) == Text.Normalize(color) && Text.Normalize(c.feature) == Text.Normalize(feature)
  }

  /** Where `find` stops: the first combination matching the pair. */
  function FirstMatch(cs: seq<Combination>, color: string, feature: string): (r: Option<nat>)
    ensures r.Some? ==> r.value < |cs| && Matches(cs[r.value], color, feature)
    ensures r.Some? ==> forall j :: 0 <= j < r.value ==> !Matches(cs[j], color, feature)
    ensures r.None? <==> forall j :: 0 <= j < |cs| ==> !Matches(cs[j], color, feature)
  {
    Lists.FindIndex(cs, c => Matches(c, color, feature))
  }

  /** No combination before position `i` matches the pair. */
  predicate FirstOf(cs: seq<Combination>, color: string, feature: string, i: nat)
    requires i <= |cs|
  {
    forall j :: 0 <= j < i ==> !Matches(cs[j], color, feature)
  }

  /** Position `i` is where `find` stops for the pair. */
  predicate FirstMatchAt(cs: seq<Combination>, color: string, feature: string, i: nat) {
    i < |cs| && Matches(cs[i], color, feature) && FirstOf(cs, color, feature, i)
  }

  /** Some combination matches the pair. */
  predicate Found(cs: seq<Combination>, color: string, feature: string) {
    exists i :: 0 <= i < |cs| && Matches(cs[i], color, feature)
  }

  /** `feature` holds `sep`, and the first two pieces around it name a listed pair. */
  predicate FoundAround(cs: seq<Combination>, feature: string, sep: string)
    requires |sep| > 0
  {
    Text.Contains(feature, sep) && var p := Text.FirstTwoPieces(feature, sep); Found(cs, p.0, p.1)
  }

  function PriceOf(cs: seq<Combination>, color: string, feature: string): Option<real> {
    match FirstMatch(cs, color, feature)
    case None => None
    case Some(i) => Some(cs[i].price)
  }

  /** The exact lookup finds the price of the first match, and only prices of the list. */
  lemma PriceOfFacts(cs: seq<Combination>, color: string, feature: string)
    ensures forall i :: 0 <= i < |cs| && Matches(cs[i], color, feature) && FirstOf(cs, color, feature, i) ==>
      PriceOf(cs, color, feature) == Some(cs[i].price)
    ensures PriceOf(cs, color, feature).Some? ==>
      exists i :: 0 <= i < |cs| && PriceOf(cs, color, feature).value == cs[i].price
    ensures PriceOf(cs, color, feature).Some? <==> exists i :: 0 <= i < |cs| && Matches(cs[i], color, feature)
  {
    forall i | 0 <= i < |cs| && Matches(cs[i], color, feature) && FirstOf(cs, color, feature, i)
      ensures PriceOf(cs, color, feature) == Some(cs[i].price)
    {
      PriceOfFirst(cs, color, feature, i);
    }
    var f := FirstMatch(cs, color, feature);
    if f.Some? {
      assert PriceOf(cs, color, feature) == Some(cs[f.value].price);
    } else {
      assert PriceOf(cs, color, feature) == None;
    }
  }

  lemma PriceOfFirst(cs: seq<Combination>, color: string, feature: string, i: nat)
    requires i < |cs| && Matches(cs[i], color, feature) && FirstOf(cs, color, feature, i)
    ensures PriceOf(cs, color, feature) == Some(cs[i].price)
  {
    var f := FirstMatch(cs, color, feature);
    assert f.Some?;
    assert !(f.value < i);
    assert !(i < f.value);
  }

  /** The lookup through the first two pieces of `feature` around `sep`, when `sep` occurs in
      it: the price of the first combination matching those pieces, if any. */
  function SplitLookup(cs: seq<Combination>, feature: string, sep: string): (r: Option<real>)
    requires |sep| > 0
    ensures !Text.Contains(feature, sep) ==> r.None?
    ensures r.Some? ==> exists i :: 0 <= i < |cs| && r.value == cs[i].price
    ensures r.None? <==> !FoundAround(cs, feature, sep)
    ensures Text.Contains(feature, sep) ==>
      var p := Text.FirstTwoPieces(feature, sep);
      forall i: nat :: FirstMatchAt(cs, p.0, p.1, i) ==> r == Some(cs[i].price)
  {
    if Text.Contains(feature, sep) then
      var pieces := Text.FirstTwoPieces(feature, sep);
      PriceOfFacts(cs, pieces.0, pieces.1);
      PriceOf(cs, pieces.0, pieces.1)
    else None
  }

  /** The separators a feature string may carry between a colour and a feature name. */
  const Pipe: string := " | "
  const Plus: string := " + "

  /** `getCombinationPrice(color, feature)`: the exact pair first; failing that, the colour
      and feature written inside `feature` around `' | '`, then around `' + '`. */
  function CombinationPrice(cs: seq<Combination>, color: string, feature: string): (r: Option<real>)
    ensures forall i :: 0 <= i < |cs| && Matches(cs[i], color, feature) && FirstOf(cs, color, feature, i) ==>
      r == Some(cs[i].price)
    ensures r.Some? ==> exists i :: 0 <= i < |cs| && r.value == cs[i].price
    ensures !Text.Contains(feature, Pipe) && !Text.Contains(feature, Plus) ==>
      (r.Some? <==> exists i :: 0 <= i < |cs| && Matches(cs[i], color, feature))
    ensures r.None? <==>
      !Found(cs, color, feature) && !FoundAround(cs, feature, Pipe) && !FoundAround(cs, feature, Plus)
    ensures !Found(cs, color, feature) && Text.Contains(feature, Pipe) ==>
      var p := Text.FirstTwoPieces(feature, Pipe);
      forall i: nat :: FirstMatchAt(cs, p.0, p.1, i) ==> r == Some(cs[i].price)
    ensures !Found(cs, color, feature) && !FoundAround(cs, feature, Pipe) && Text.Contains(feature, Plus) ==>
      var p := Text.FirstTwoPieces(feature, Plus);
      forall i: nat :: FirstMatchAt(cs, p.0, p.1, i) ==> r == Some(cs[i].price)
  {
    PriceOfFacts(cs, color, feature);
    var exact := PriceOf(cs, color, feature);
    if exact.Some? then exact
    else
      var piped := SplitLookup(cs, feature, Pipe);
      if piped.Some? then piped else SplitLookup(cs, feature, Plus)
  }

  /** Once the exact pair is missing, the colour argument plays no part. */
  lemma FallbackIgnoresColor(cs: seq<Combination>, c1: string, c2: string, feature: string)
    requires forall i :: 0 <= i < |cs| ==> !Matches(cs[i], c1, feature) && !Matches(cs[i], c2, feature)
    ensures CombinationPrice(cs, c1, feature) == CombinationPrice(cs, c2, feature)
  {
  }

  /** A combination written inside the feature as `color | name` is found wherever it is
      listed, whatever colour is selected, when the whole string names no combination and
      neither piece holds a `|`. */
  lemma PipedFeatureFound(cs: seq<Combination>, selected: string, color: string, name: string, i: nat)
    requires FirstMatchAt(cs, color, name, i)
    requires '|' !in color && '|' !in name
    requires !Found(cs, selected, color + Pipe + name)
    ensures CombinationPrice(cs, selected, color + Pipe + name) == Some(cs[i].price)
  {
    assert Pipe == Sep('|');
    PiecesAround(color, name, '|');
  }

  /** The same for `color + name`, when neither piece holds a `+` or a `|`. */
  lemma PlusFeatureFound(cs: seq<Combination>, selected: string, color: string, name: string, i: nat)
    requires FirstMatchAt(cs, color, name, i)
    requires '+' !in color && '+' !in name && '|' !in color && '|' !in name
    requires !Found(cs, selected, color + Plus + name)
    ensures CombinationPrice(cs, selected, color + Plus + name) == Some(cs[i].price)
  {
    assert Plus == Sep('+') && Pipe == Sep('|');
    PiecesAround(color, name, '+');
    assert '|' !in color + Plus + name;
    NoMarkNoSep(color + Plus + name, '|');
  }

  /** A separator: a character between two spaces. */
  function Sep(m: char): (sep: string)
    ensures |sep| == 3 && sep[1] == m
  {
    [' ', m, ' ']
  }

  lemma PiecesAround(a: string, b: string, m: char)
    requires m !in a && m !in b
    ensures Text.Contains(a + Sep(m) + b, Sep(m))
    ensures Text.FirstTwoPieces(a + Sep(m) + b, Sep(m)) == (a, b)
  {
    var s := a + Sep(m) + b;
    Text.ContainsInfix(a, Sep(m), b);
    PieceBeforeAround(a, b, m);
    assert s[|a| + |Sep(m)|..] == b;
    NoMarkNoSep(b, m);
  }

  lemma PieceBeforeAround(a: string, b: string, m: char)
    requires m !in a
    ensures Text.PieceBefore(a + Sep(m) + b, Sep(m)) == a
  {
    var sep := Sep(m);
    var s := a + sep + b;
    assert s[|a|..|a| + 3] == sep;
    Text.ContainsAt(s, sep, |a|);
    var j := Text.IndexOf(s, sep).value;
    assert s[j..j + 3] == sep;
    assert s[j + 1] == sep[1] == m;
    assert s[|a|..] == sep + b;
    assert sep <= s[|a|..];
    assert j <= |a|;
    if j < |a| {
      NotBeforeMark(a, b, m, j);
    }
    assert s[..|a|] == a;
  }

  /** A separator cannot start inside `a`: its mark would fall in `a` or on the space after it. */
  lemma NotBeforeMark(a: string, b: string, m: char, j: nat)
    requires m !in a && j < |a|
    ensures (a + Sep(m) + b)[j..j + 3] != Sep(m)
  {
    var s := a + Sep(m) + b;
    assert s[j] == a[j];
    assert s[j + 1] == if j + 1 < |a| then a[j + 1] else ' ';
  }

  lemma NoMarkNoSep(b: string, m: char)
    requires m !in b
    ensures !Text.Contains(b, Sep(m))
    ensures Text.PieceBefore(b, Sep(m)) == b
  {
    var sep := Sep(m);
    forall j | 0 <= j < |b| ensures !(sep <= b[j..]) {
      if j + 1 < |b| {
        assert b[j + 1] != m;
      }
    }
    Text.NoEarlierOccurrence(b, sep, |b|);
    assert b[..|b|] == b;
  }

  /** The picker's selection: at most one colour and the selected features. */
  datatype Selection = Selection(color: Option<string>, features: seq<string>)

  /** What the buttons can do. */
  datatype Action = PickColor(c: string) | PickFeature(f: string) | ClearAll

  predicate SingleFeature(s: Selection) {
    |s.features| <= 1
  }

  /** The selection the picker starts from: only the first of the initial features. */
  function Initial(color: Option<string>, features: seq<string>): (s: Selection)
    ensures s.color == color && SingleFeature(s)
    ensures s.features <= features && (|features| > 0 ==> |s.features| == 1)
  {
    Selection(color, if |features| > 0 then [features[0]] else [])
  }

  /** `handleColorSelect`: picking the selected colour clears it, any other replaces it. */
  function SelectColor(s: Selection, c: string): (r: Selection)
    ensures r.features == s.features
    ensures r.color.None? <==> s.color == Some(c)
    ensures r.color.Some? ==> r.color.value == c
  {
    s.(color := if s.color == Some(c) then None else Some(c))
  }

  /** `handleFeatureToggle`: the selected feature is cleared, any other becomes the only one. */
  function ToggleFeature(s: Selection, f: string): (r: Selection)
    ensures r.color == s.color && SingleFeature(r)
    ensures f in s.features ==> r.features == []
    ensures f !in s.features ==> r.features == [f]
  {
    s.(features := if f in s.features then [] else [f])
  }

  /** `clearSelections`. */
  function ClearSelections(s: Selection): (r: Selection)
    ensures r.color.None? && r.features == []
  {
    Selection(None, [])
  }

  function Step(s: Selection, a: Action): Selection {
    match a
    case PickColor(c) => SelectColor(s, c)
    case PickFeature(f) => ToggleFeature(s, f)
    case ClearAll => ClearSelections(s)
  }

  function Run(s: Selection, actions: seq<Action>): Selection
    decreases |actions|
  {
    if |actions| == 0 then s else Run(Step(s, actions[0]), actions[1..])
  }

  /** However the buttons are pressed, at most one feature is ever selected. */
  lemma {:induction false} RunKeepsSingleFeature(s: Selection, actions: seq<Action>)
    requires SingleFeature(s)
    ensures SingleFeature(Run(s, actions))
    decreases |actions|
  {
    if |actions| > 0 {
      RunKeepsSingleFeature(Step(s, actions[0]), actions[1..]);
    }
  }

  /** Pressing the same colour twice restores the colour; the same feature twice from a
      selection without it leaves nothing selected. */
  lemma PressTwice(s: Selection, c: string, f: string)
    ensures SelectColor(SelectColor(s, c), c) == s || (s.color.Some? && s.color.value != c)
    ensures f !in s.features ==> ToggleFeature(ToggleFeature(s, f), f).features == []
  {
  }

  /** The price shown for a selection: the combination price of the selected colour (or
      `''`) and the first selected feature, when that price is truthy. */
  function SelectedPrice(cs: seq<Combination>, s: Selection): (r: Option<real>)
    ensures r.Some? ==> r.value != 0.0 && |s.features| > 0
    ensures r.Some? ==> exists i :: 0 <= i < |cs| && r.value == cs[i].price
    ensures |s.features| > 0 ==>
      var p := CombinationPrice(cs, s.color.GetOr(""), s.features[0]);
      (r.Some? <==> p.Some? && p.value != 0.0) && (r.Some? ==> r == p)
  {
    if |s.features| == 0 then None
    else
      var p := CombinationPrice(cs, s.color.GetOr(""), s.features[0]);
      if p.Some? && p.value != 0.0 then p else None
  }

  /** A zero price counts as no price. */
  lemma ZeroPriceIsNoPrice(cs: seq<Combination>, s: Selection)
    requires forall i :: 0 <= i < |cs| ==> cs[i].price == 0.0
    ensures SelectedPrice(cs, s) == None
  {
  }

  /** The first combination matching the selected pair, when its price is non-zero, is what
      the picker shows. */
  lemma SelectedPriceOfMatch(cs: seq<Combination>, s: Selection, i: nat)
    requires |s.features| > 0 && FirstMatchAt(cs, s.color.GetOr(""), s.features[0], i)
    requires cs[i].price != 0.0
    ensures SelectedPrice(cs, s) == Some(cs[i].price)
  {
  }

  /** No colour selected and the empty colour look up the same price. */
  lemma NoColorIsEmptyColor(cs: seq<Combination>, features: seq<string>)
    ensures SelectedPrice(cs, Selection(None, features)) == SelectedPrice(cs, Selection(Some(""), features))
  {
  }

  /** `replacePlusWithPipe`: every `' + '` met scanning left to right becomes `' | '`. */
  function ReplacePlusWithPipe(text: string): (r: string)
    ensures |r| == |text|
    ensures !Text.Contains(text, Plus) ==> r == text
  {
    Text.ReplaceAll(text, Plus, Pipe)
  }

  /** The characters `replacePlusWithPipe` may change: the middle `+` of a `' + '` of the
      input, which becomes `|`. */
  predicate OnlyPlusTouched(text: string, r: string)
    requires |r| == |text|
  {
    forall i :: 0 <= i < |text| && r[i] != text[i] ==>
      text[i] == '+' && r[i] == '|' && 0 < i < |text| - 1 && text[i - 1] == ' ' && text[i + 1] == ' '
  }

  /** Only the middle `+` of a `' + '` of the input ever changes, and it becomes `|`. */
  lemma {:induction false} ReplaceOnlyTouchesPlus(text: string)
    ensures OnlyPlusTouched(text, ReplacePlusWithPipe(text))
    decreases |text|
  {
    if |text| > 0 {
      if Plus <= text {
        ReplaceOnlyTouchesPlus(text[3..]);
        ReplacedHere(text);
      } else {
        ReplaceOnlyTouchesPlus(text[1..]);
        KeptHere(text);
      }
    }
  }

  lemma ReplacedHere(text: string)
    requires Plus <= text
    requires OnlyPlusTouched(text[3..], ReplacePlusWithPipe(text[3..]))
    ensures OnlyPlusTouched(text, ReplacePlusWithPipe(text))
  {
    var rest := text[3..];
    var r := ReplacePlusWithPipe(text);
    var r' := ReplacePlusWithPipe(rest);
    assert r == Pipe + r';
    assert text[..3] == Plus;
    forall i | 0 <= i < |text|
      ensures r[i] != text[i] ==> text[i] == '+' && r[i] == '|' && 0 < i < |text| - 1 && text[i - 1] == ' ' && text[i + 1] == ' '
    {
      if i >= 3 {
        assert r[i] == r'[i - 3] && text[i] == rest[i - 3];
      }
    }
  }

  lemma KeptHere(text: string)
    requires |text| > 0 && !(Plus <= text)
    requires OnlyPlusTouched(text[1..], ReplacePlusWithPipe(text[1..]))
    ensures OnlyPlusTouched(text, ReplacePlusWithPipe(text))
  {
    var rest := text[1..];
    var r := ReplacePlusWithPipe(text);
    var r' := ReplacePlusWithPipe(rest);
    assert r == [text[0]] + r';
    forall i | 1 <= i < |text|
      ensures r[i] != text[i] ==> text[i] == '+' && r[i] == '|' && 0 < i < |text| - 1 && text[i - 1] == ' ' && text[i + 1] == ' '
    {
      assert r[i] == r'[i - 1] && text[i] == rest[i - 1];
    }
  }

  /** The first `' + '` always becomes `' | '`. */
  lemma {:induction false} FirstPlusReplaced(text: string, j: nat)
    requires j + 3 <= |text| && text[j..j + 3] == Plus
    requires forall k :: 0 <= k < j ==> !(Plus <= text[k..])
    ensures ReplacePlusWithPipe(text)[..j] == text[..j]
    ensures ReplacePlusWithPipe(text)[j..j + 3] == Pipe
    decreases j
  {
    if j == 0 {
      assert Plus <= text;
    } else {
      assert !(Plus <= text) by {
        assert text[0..] == text;
      }
      var rest := text[1..];
      assert rest[j - 1..j + 2] == Plus;
      assert forall k :: 0 <= k < j - 1 ==> rest[k..] == text[k + 1..];
      FirstPlusReplaced(rest, j - 1);
      ReplaceHead(text);
      ConsSlices(text[0], ReplacePlusWithPipe(rest), j);
      ConsSlices(text[0], rest, j);
      assert [text[0]] + rest == text;
    }
  }

  /** A text that does not start with `' + '` keeps its first character. */
  lemma ReplaceHead(text: string)
    requires |text| > 0 && !(Plus <= text)
    ensures ReplacePlusWithPipe(text) == [text[0]] + ReplacePlusWithPipe(text[1..])
  {
  }

  lemma ConsSlices(c: char, t: string, j: nat)
    requires 0 < j && j + 2 <= |t|
    ensures ([c] + t)[..j] == [c] + t[..j - 1]
    ensures ([c] + t)[j..j + 3] == t[j - 1..j + 2]
  {
  }
}

=== FILE: ordered_map.dfy ===
/** A JavaScript `Map<string, V>` as a value: key/value pairs in insertion order. `Put` on a
    present key keeps its position, `Remove` closes the gap, and iteration follows the
    sequence. */
module OrderedMap {
  import opened Wrappers
  import Lists

  type Pairs<V> = seq<(string, V)>

  function Keys<V>(m: Pairs<V>): (ks: seq<string>)
    ensures |ks| == |m|
    ensures forall i :: 0 <= i < |m| ==> ks[i] == m[i].0
  {
    seq(|m|, i requires 0 <= i < |m| => m[i].0)
  }

  /** Every key occurs once, as in a real `Map`. */
  predicate Unique<V>(m: Pairs<V>) {
    forall i, j :: 0 <= i < j < |m| ==> m[i].0 != m[j].0
  }

  /** Position of `k`, if present. */
  function Find<V>(m: Pairs<V>, k: string): (r: Option<nat>)
    ensures r.Some? ==> r.value < |m| && m[r.value].0 == k
    ensures r.None? <==> forall i :: 0 <= i < |m| ==> m[i].0 != k
    ensures r.Some? ==> forall i :: 0 <= i < r.value ==> m[i].0 != k
    decreases |m|
  {
    if |m| == 0 then None
    else if m[0].0 == k then Some(0)
    else match Find(m[1..], k)
      case None => None
      case Some(i) => Some(i + 1)
  }

  predicate Has<V>(m: Pairs<V>, k: string) {
    Find(m, k).Some?
  }

  /** `map.get(k)`. */
  function Get<V>(m: Pairs<V>, k: string): (r: Option<V>)
    ensures r.Some? <==> Has(m, k)
    ensures Unique(m) ==> forall i :: 0 <= i < |m| && m[i].0 == k ==> r == Some(m[i].1)
  {
    match Find(m, k)
    case None => None
    case Some(i) => Some(m[i].1)
  }

  /** `map.set(k, v)`: overwrites in place when `k` is present, appends otherwise. */
  function Put<V>(m: Pairs<V>, k: string, v: V): (r: Pairs<V>)
    ensures Unique(m) ==> Unique(r)
    ensures Unique(m) ==> Get(r, k) == Some(v)
    ensures Unique(m) ==> forall k' :: k' != k ==> Get(r, k') == Get(m, k')
    ensures Has(m, k) ==> Keys(r) == Keys(m) && r == m[Find(m, k).value := (k, v)]
    ensures !Has(m, k) ==> r == m + [(k, v)]
  {
    match Find(m, k)
    case None =>
      assert forall k' :: k' != k ==> Find(m + [(k, v)], k') == Find(m, k') by {
        forall k' | k' != k ensures Find(m + [(k, v)], k') == Find(m, k') {
          FindAppend(m, (k, v), k');
        }
      }
      FindAppend(m, (k, v), k);
      m + [(k, v)]
    case Some(i) =>
      var r := m[i := (k, v)];
      assert forall k' :: Find(r, k') == Find(m, k') by {
        forall k' ensures Find(r, k') == Find(m, k') {
          FindSameKeys(m, r, k');
        }
      }
      r
  }

  /** `map.delete(k)`: drops the entry for `k` and keeps every other entry in order. */
  function Remove<V>(m: Pairs<V>, k: string): (r: Pairs<V>)
    ensures Unique(m) ==> Unique(r)
    ensures Unique(m) ==> !Has(r, k)
    ensures Unique(m) ==> forall k' :: k' != k ==> Get(r, k') == Get(m, k')
    ensures !Has(m, k) ==> r == m
    ensures Has(m, k) ==> |r| == |m| - 1
    ensures Lists.Subseq(r, m)
  {
    match Find(m, k)
    case None => Lists.SubseqRefl(m); m
    case Some(i) =>
      var r := m[..i] + m[i + 1..];
      SubseqSkipOne(m, i);
      assert Unique(m) ==> forall k' :: k' != k ==> Get(r, k') == Get(m, k') by {
        if Unique(m) {
          forall k' | k' != k ensures Get(r, k') == Get(m, k') {
            GetRemoveAt(m, i, k');
          }
        }
      }
      r
  }

  /** Keeps the entries satisfying `keep`, in order (a sweep or a pattern invalidation). */
  function Filter<V>(m: Pairs<V>, keep: (string, V) -> bool): (r: Pairs<V>)
    ensures Lists.Subseq(r, m)
    ensures forall i :: 0 <= i < |r| ==> keep(r[i].0, r[i].1)
    ensures Unique(m) ==> Unique(r)
    ensures Unique(m) ==> forall k :: Get(r, k) == (if Has(m, k) && keep(k, Get(m, k).value) then Get(m, k) else None)
    decreases |m|
  {
    if |m| == 0 then []
    else
      var rest := Filter(m[1..], keep);
      if keep(m[0].0, m[0].1) then
        FilterKeepStep(m, keep, rest);
        [m[0]] + rest
      else
        FilterDropStep(m, keep, rest);
        rest
  }

  lemma UniqueTail<V>(m: Pairs<V>)
    requires |m| > 0 && Unique(m)
    ensures Unique(m[1..])
    ensures !Has(m[1..], m[0].0)
  {
    forall i, j | 0 <= i < j < |m[1..]| ensures m[1..][i].0 != m[1..][j].0 {
      assert m[1..][i] == m[i + 1] && m[1..][j] == m[j + 1];
    }
    forall i | 0 <= i < |m[1..]| ensures m[1..][i].0 != m[0].0 {
      assert m[1..][i] == m[i + 1];
    }
  }

  /** A key other than the head is looked up in the tail. */
  lemma GetTail<V>(m: Pairs<V>, k: string)
    requires |m| > 0 && k != m[0].0
    ensures Get(m, k) == Get(m[1..], k)
  {
  }

  /** The step of `Filter` that keeps the head, given what the recursive call promises. */
  lemma FilterKeepStep<V>(m: Pairs<V>, keep: (string, V) -> bool, rest: Pairs<V>)
    requires |m| > 0 && keep(m[0].0, m[0].1)
    requires Lists.Subseq(rest, m[1..])
    requires Unique(m[1..]) ==> Unique(rest)
    requires Unique(m[1..]) ==>
      forall k :: Get(rest, k) == (if Has(m[1..], k) && keep(k, Get(m[1..], k).value) then Get(m[1..], k) else None)
    ensures Lists.Subseq([m[0]] + rest, m)
    ensures Unique(m) ==> Unique([m[0]] + rest)
    ensures Unique(m) ==>
      forall k :: Get([m[0]] + rest, k) == (if Has(m, k) && keep(k, Get(m, k).value) then Get(m, k) else None)
  {
    var r := [m[0]] + rest;
    assert r[1..] == rest;
    if Unique(m) {
      UniqueTail(m);
      Lists.SubseqMembers(rest, m[1..]);
      forall i | 0 <= i < |rest| ensures rest[i].0 != m[0].0 {
        assert rest[i] in m[1..];
      }
      assert Unique(r) by {
        forall i, j | 0 <= i < j < |r| ensures r[i].0 != r[j].0 {
          assert r[j] == rest[j - 1];
          if i > 0 {
            assert r[i] == rest[i - 1];
          }
        }
      }
      forall k ensures Get(r, k) == (if Has(m, k) && keep(k, Get(m, k).value) then Get(m, k) else None) {
        if k != m[0].0 {
          GetTail(r, k);
          GetTail(m, k);
        }
      }
    }
  }

  /** The step of `Filter` that drops the head, given what the recursive call promises. */
  lemma FilterDropStep<V>(m: Pairs<V>, keep: (string, V) -> bool, rest: Pairs<V>)
    requires |m| > 0 && !keep(m[0].0, m[0].1)
    requires Lists.Subseq(rest, m[1..])
    requires Unique(m[1..]) ==> Unique(rest)
    requires Unique(m[1..]) ==>
      forall k :: Get(rest, k) == (if Has(m[1..], k) && keep(k, Get(m[1..], k).value) then Get(m[1..], k) else None)
    ensures Lists.Subseq(rest, m)
    ensures Unique(m) ==> Unique(rest)
    ensures Unique(m) ==>
      forall k :: Get(rest, k) == (if Has(m, k) && keep(k, Get(m, k).value) then Get(m, k) else None)
  {
    Lists.SubseqCons(m[0], rest, m[1..]);
    assert [m[0]] + m[1..] == m;
    if Unique(m) {
      UniqueTail(m);
      Lists.SubseqMembers(rest, m[1..]);
      assert !Has(rest, m[0].0) by {
        forall i | 0 <= i < |rest| ensures rest[i].0 != m[0].0 {
          assert rest[i] in m[1..];
        }
      }
      forall k ensures Get(rest, k) == (if Has(m, k) && keep(k, Get(m, k).value) then Get(m, k) else None) {
        if k != m[0].0 {
          GetTail(m, k);
        }
      }
    }
  }

  // ---- helper lemmas --------------------------------------------------------------------

  lemma FindAppend<V>(m: Pairs<V>, e: (string, V), k: string)
    ensures Find(m + [e], k) == (if Has(m, k) then Find(m, k) else if e.0 == k then Some(|m|) else None)
    decreases |m|
  {
    if |m| > 0 {
      assert (m + [e])[1..] == m[1..] + [e];
      FindAppend(m[1..], e, k);
    }
  }

  lemma FindSameKeys<V>(m: Pairs<V>, r: Pairs<V>, k: string)
    requires |m| == |r| && forall i :: 0 <= i < |m| ==> m[i].0 == r[i].0
    ensures Find(r, k) == Find(m, k)
    decreases |m|
  {
    if |m| > 0 {
      FindSameKeys(m[1..], r[1..], k);
    }
  }

  lemma GetRemoveAt<V>(m: Pairs<V>, i: nat, k: string)
    requires Unique(m) && i < |m| && k != m[i].0
    ensures Get(m[..i] + m[i + 1..], k) == Get(m, k)
  {
    var r := m[..i] + m[i + 1..];
    match Find(m, k)
    case None =>
      assert forall j :: 0 <= j < |r| ==> r[j] in m;
    case Some(p) =>
      var q := if p < i then p else p - 1;
      assert r[q] == m[p];
  }

  lemma SubseqSkipOne<V>(m: Pairs<V>, i: nat)
    requires i < |m|
    ensures Lists.Subseq(m[..i] + m[i + 1..], m)
    decreases i
  {
    if i == 0 {
      assert m[..0] + m[1..] == m[1..];
      Lists.SubseqRefl(m[1..]);
      Lists.SubseqCons(m[0], m[1..], m[1..]);
      assert [m[0]] + m[1..] == m;
    } else {
      SubseqSkipOne(m[1..], i - 1);
      assert m[1..][..i - 1] + m[1..][i..] == (m[..i] + m[i + 1..])[1..];
    }
  }

  /** Deleting a key from a map deletes it from the key order and nothing else. */
  lemma {:induction false} KeysRemove<V>(m: Pairs<V>, k: string)
    requires Unique(m)
    ensures Keys(Remove(m, k)) == Lists.RemoveAll(Keys(m), k)
  {
    match Find(m, k)
    case None =>
    case Some(i) => KeysRemoveAt(m, i);
  }

  lemma {:induction false} KeysRemoveAt<V>(m: Pairs<V>, i: nat)
    requires Unique(m) && i < |m|
    ensures Keys(m[..i] + m[i + 1..]) == Lists.RemoveAll(Keys(m), m[i].0)
    decreases i
  {
    if i == 0 {
      KeysRemoveFirst(m);
    } else {
      var tail := m[1..];
      assert UniqueTail: Unique(tail);
      KeysRemoveAt(tail, i - 1);
      assert m[0].0 != m[i].0;
      KeysRemoveStep(m, i);
    }
  }

  lemma KeysRemoveFirst<V>(m: Pairs<V>)
    requires Unique(m) && 0 < |m|
    ensures Keys(m[..0] + m[1..]) == Lists.RemoveAll(Keys(m), m[0].0)
  {
    var ks := Keys(m);
    assert ks[1..] == Keys(m[1..]);
    assert m[0].0 !in ks[1..];
    assert m[..0] + m[1..] == m[1..];
  }

  lemma KeysRemoveStep<V>(m: Pairs<V>, i: nat)
    requires 0 < i < |m| && m[0].0 != m[i].0
    requires Keys(m[1..][..i - 1] + m[1..][i..]) == Lists.RemoveAll(Keys(m[1..]), m[i].0)
    ensures Keys(m[..i] + m[i + 1..]) == Lists.RemoveAll(Keys(m), m[i].0)
  {
    var k := m[i].0;
    var shorter := m[1..][..i - 1] + m[1..][i..];
    DropAtCons(m, i);
    KeysCons(m[0], shorter);
    KeysTail(m);
    Lists.RemoveAllCons(Keys(m), k);
  }

  lemma DropAtCons<V>(m: Pairs<V>, i: nat)
    requires 0 < i < |m|
    ensures m[..i] + m[i + 1..] == [m[0]] + (m[1..][..i - 1] + m[1..][i..])
  {
    assert m[1..][..i - 1] == m[1..i];
    assert m[1..][i..] == m[i + 1..];
    assert m[..i] == [m[0]] + m[1..i];
  }

  lemma KeysTail<V>(m: Pairs<V>)
    requires |m| > 0
    ensures Keys(m)[1..] == Keys(m[1..])
  {
  }

  /** `map.set` on the key order: a present key keeps its place, a new one goes last. */
  lemma PutKeys<V>(m: Pairs<V>, k: string, v: V)
    requires Unique(m)
    ensures Has(m, k) <==> k in Keys(m)
    ensures Keys(Put(m, k, v)) == if k in Keys(m) then Keys(m) else Keys(m) + [k]
  {
    if !Has(m, k) {
      AppendFresh(m, (k, v));
    }
  }

  /** Appending a key not yet present keeps keys unique and adds it last. */
  lemma AppendFresh<V>(m: Pairs<V>, x: (string, V))
    requires Unique(m) && !Has(m, x.0)
    ensures Unique(m + [x])
    ensures Keys(m + [x]) == Keys(m) + [x.0]
  {
  }

  lemma KeysCons<V>(x: (string, V), m: Pairs<V>)
    ensures Keys([x] + m) == [x.0] + Keys(m)
  {
  }
}

=== FILE: performance_monitor.dfy ===
/** Web-vitals bookkeeping: the metrics record and its partial updates, the 0-100 score and
    the advice list. Times are in milliseconds, memory in megabytes. */
module PerformanceMonitor {
  import opened Wrappers
  import Lists

  /** Heap figures, already rounded to whole megabytes. */
  datatype Memory = Memory(used: real, total: real, limit: real)

  /** The metrics record; `None` is a metric not measured yet (`null`). */
  datatype Metrics = Metrics(lcp: Option<real>, fid: Option<real>, cls: Option<real>,
                             fcp: Option<real>, ttfb: Option<real>, memory: Option<Memory>)

  /** One field of a partial update: left out, or given (possibly as `null`). */
  datatype Field<T> = Keep | Put(value: T)

  datatype Patch = Patch(lcp: Field<Option<real>>, fid: Field<Option<real>>, cls: Field<Option<real>>,
                         fcp: Field<Option<real>>, ttfb: Field<Option<real>>, memory: Field<Option<Memory>>)

  function Initial(): (m: Metrics)
    ensures m.lcp.None? && m.fid.None? && m.cls.None? && m.fcp.None? && m.ttfb.None? && m.memory.None?
  {
    Metrics(None, None, None, None, None, None)
  }

  function Apply<T>(f: Field<T>, prev: T): T {
    match f
    case Keep => prev
    case Put(v) => v
  }

  /** `updateMetrics(patch)`: `{ ...prev, ...patch }`. */
  function UpdateMetrics(m: Metrics, p: Patch): (r: Metrics)
    ensures p.lcp.Keep? ==> r.lcp == m.lcp
    ensures p.fid.Keep? ==> r.fid == m.fid
    ensures p.cls.Keep? ==> r.cls == m.cls
    ensures p.fcp.Keep? ==> r.fcp == m.fcp
    ensures p.ttfb.Keep? ==> r.ttfb == m.ttfb
    ensures p.memory.Keep? ==> r.memory == m.memory
    ensures p.lcp.Put? ==> r.lcp == p.lcp.value
    ensures p.fid.Put? ==> r.fid == p.fid.value
    ensures p.cls.Put? ==> r.cls == p.cls.value
    ensures p.fcp.Put? ==> r.fcp == p.fcp.value
    ensures p.ttfb.Put? ==> r.ttfb == p.ttfb.value
    ensures p.memory.Put? ==> r.memory == p.memory.value
  {
    Metrics(Apply(p.lcp, m.lcp), Apply(p.fid, m.fid), Apply(p.cls, m.cls),
            Apply(p.fcp, m.fcp), Apply(p.ttfb, m.ttfb), Apply(p.memory, m.memory))
  }

  /** The later patch wins field by field. */
  function Then<T>(first: Field<T>, second: Field<T>): Field<T> {
    if second.Put? then second else first
  }

  function Merge(p: Patch, q: Patch): Patch {
    Patch(Then(p.lcp, q.lcp), Then(p.fid, q.fid), Then(p.cls, q.cls),
          Then(p.fcp, q.fcp), Then(p.ttfb, q.ttfb), Then(p.memory, q.memory))
  }

  const NoChange: Patch := Patch(Keep, Keep, Keep, Keep, Keep, Keep)

  /** An empty patch changes nothing; two patches in a row are one merged patch. */
  lemma UpdatesCompose(m: Metrics, p: Patch, q: Patch)
    ensures UpdateMetrics(m, NoChange) == m
    ensures UpdateMetrics(UpdateMetrics(m, p), q) == UpdateMetrics(m, Merge(p, q))
  {
  }

  /** `usePerformanceMonitor` starts from no measurement and never stores one, so the score
      it reports is always the full 100. */
  lemma HookScoreIsFull()
    ensures Score(Initial()) == 100
  {
    var m := Initial();
    assert LcpPenalty(m) == 0 && FidPenalty(m) == 0 && ClsPenalty(m) == 0 && FcpPenalty(m) == 0;
  }

  /** A penalty with two strict thresholds: `big` above `high`, `small` above `low`. */
  function Penalty(x: Option<real>, low: real, high: real, small: int, big: int): int {
    if x.None? then 0
    else if x.value > high then big
    else if x.value > low then small
    else 0
  }

  function LcpPenalty(m: Metrics): int { Penalty(m.lcp, 2500.0, 4000.0, 15, 30) }
  function FidPenalty(m: Metrics): int { Penalty(m.fid, 100.0, 300.0, 10, 25) }
  function ClsPenalty(m: Metrics): int { Penalty(m.cls, 0.1, 0.25, 10, 25) }
  function FcpPenalty(m: Metrics): int { Penalty(m.fcp, 1800.0, 3000.0, 10, 20) }

  /** `getPerformanceScore`: 100 less the four penalties, floored at 0. */
  function Score(m: Metrics): (s: int)
    ensures 0 <= s <= 100
    ensures m.lcp.None? && m.fid.None? && m.cls.None? && m.fcp.None? ==> s == 100
    ensures s == 100 - LcpPenalty(m) - FidPenalty(m) - ClsPenalty(m) - FcpPenalty(m)
  {
    var s := 100 - LcpPenalty(m) - FidPenalty(m) - ClsPenalty(m) - FcpPenalty(m);
    if s < 0 then 0 else s
  }

  /** A larger reading never earns a smaller penalty, and a first reading never lowers one. */
  lemma PenaltyMonotone(x: real, y: real, low: real, high: real, small: int, big: int)
    requires x <= y && low <= high && 0 <= small <= big
    ensures Penalty(Some(x), low, high, small, big) <= Penalty(Some(y), low, high, small, big)
    ensures Penalty(None, low, high, small, big) <= Penalty(Some(x), low, high, small, big)
  {
  }

  /** Raising any one metric never raises the score. */
  lemma ScoreMonotone(m: Metrics, v: real)
    ensures m.lcp.Some? && m.lcp.value <= v ==> Score(m.(lcp := Some(v))) <= Score(m)
    ensures m.fid.Some? && m.fid.value <= v ==> Score(m.(fid := Some(v))) <= Score(m)
    ensures m.cls.Some? && m.cls.value <= v ==> Score(m.(cls := Some(v))) <= Score(m)
    ensures m.fcp.Some? && m.fcp.value <= v ==> Score(m.(fcp := Some(v))) <= Score(m)
    ensures Score(m.(lcp := Some(v))) <= Score(m.(lcp := None))
  {
    if m.lcp.Some? && m.lcp.value <= v {
      PenaltyMonotone(m.lcp.value, v, 2500.0, 4000.0, 15, 30);
    }
    if m.fid.Some? && m.fid.value <= v {
      PenaltyMonotone(m.fid.value, v, 100.0, 300.0, 10, 25);
    }
    if m.cls.Some? && m.cls.value <= v {
      PenaltyMonotone(m.cls.value, v, 0.1, 0.25, 10, 25);
    }
    if m.fcp.Some? && m.fcp.value <= v {
      PenaltyMonotone(m.fcp.value, v, 1800.0, 3000.0, 10, 20);
    }
    PenaltyMonotone(v, v, 2500.0, 4000.0, 15, 30);
  }

  /** The five pieces of advice, in the order they are listed. */
  datatype Advice = OptimizeLcp | ReduceScriptTime | SizeImages | CriticalPath | ReduceMemory

  const AllAdvice: seq<Advice> := [OptimizeLcp, ReduceScriptTime, SizeImages, CriticalPath, ReduceMemory]

  /** What each piece of advice says. */
  function Message(a: Advice): string {
    match a
    case OptimizeLcp => "Consider optimizing images and reducing LCP"
    case ReduceScriptTime => "Reduce JavaScript execution time to improve FID"
    case SizeImages => "Add size attributes to images to prevent layout shifts"
    case CriticalPath => "Optimize critical rendering path for faster FCP"
    case ReduceMemory => "Consider reducing memory usage for better performance"
  }

  /** A truthy reading above a threshold (`0` is falsy, and below every threshold anyway). */
  predicate Above(x: Option<real>, threshold: real) {
    x.Some? && x.value != 0.0 && x.value > threshold
  }

  function When(c: bool, a: Advice): seq<Advice> {
    if c then [a] else []
  }

  /** The advice list for the five outcomes, in the listed order. */
  function Pick(lcp: bool, fid: bool, cls: bool, fcp: bool, mem: bool): (r: seq<Advice>)
    ensures |r| <= 5
    ensures OptimizeLcp in r <==> lcp
    ensures ReduceScriptTime in r <==> fid
    ensures SizeImages in r <==> cls
    ensures CriticalPath in r <==> fcp
    ensures ReduceMemory in r <==> mem
  {
    When(lcp, OptimizeLcp) + (When(fid, ReduceScriptTime) + (When(cls, SizeImages)
      + (When(fcp, CriticalPath) + When(mem, ReduceMemory))))
  }

  /** `getPerformanceSuggestions`: each test that fails adds its advice, in a fixed order. */
  function Suggestions(m: Metrics): (r: seq<Advice>)
    ensures |r| <= 5
    ensures Lists.Subseq(r, AllAdvice)
    ensures OptimizeLcp in r <==> LcpPenalty(m) != 0
    ensures ReduceScriptTime in r <==> FidPenalty(m) != 0
    ensures SizeImages in r <==> ClsPenalty(m) != 0
    ensures CriticalPath in r <==> FcpPenalty(m) != 0
    ensures ReduceMemory in r <==> m.memory.Some? && m.memory.value.used > 50.0
  {
    AboveIsPenalty(m.lcp, 2500.0, 4000.0, 15, 30);
    AboveIsPenalty(m.fid, 100.0, 300.0, 10, 25);
    AboveIsPenalty(m.cls, 0.1, 0.25, 10, 25);
    AboveIsPenalty(m.fcp, 1800.0, 3000.0, 10, 20);
    var lcp, fid, cls, fcp := Above(m.lcp, 2500.0), Above(m.fid, 100.0), Above(m.cls, 0.1), Above(m.fcp, 1800.0);
    var mem := m.memory.Some? && m.memory.value.used > 50.0;
    PickOrdered(lcp, fid, cls, fcp, mem);
    Pick(lcp, fid, cls, fcp, mem)
  }

  lemma PickOrdered(lcp: bool, fid: bool, cls: bool, fcp: bool, mem: bool)
    ensures Lists.Subseq(Pick(lcp, fid, cls, fcp, mem), AllAdvice)
  {
    var tail := When(mem, ReduceMemory);
    var t4 := When(fcp, CriticalPath) + tail;
    var t3 := When(cls, SizeImages) + t4;
    var t2 := When(fid, ReduceScriptTime) + t3;
    StepWhen(mem, ReduceMemory, [], []);
    assert tail + [] == tail;
    StepWhen(fcp, CriticalPath, tail, [ReduceMemory]);
    StepWhen(cls, SizeImages, t4, [CriticalPath, ReduceMemory]);
    StepWhen(fid, ReduceScriptTime, t3, [SizeImages, CriticalPath, ReduceMemory]);
    StepWhen(lcp, OptimizeLcp, t2, [ReduceScriptTime, SizeImages, CriticalPath, ReduceMemory]);
  }

  /** Above the lower threshold is exactly where the penalty is not zero. */
  lemma AboveIsPenalty(x: Option<real>, low: real, high: real, small: int, big: int)
    requires 0.0 <= low <= high && 0 < small && 0 < big
    ensures Above(x, low) <==> Penalty(x, low, high, small, big) != 0
  {
  }

  /** Optional advice before a sub-list of the rest is a sub-list of the whole. */
  lemma StepWhen(c: bool, a: Advice, xs: seq<Advice>, ys: seq<Advice>)
    requires Lists.Subseq(xs, ys)
    ensures Lists.Subseq(When(c, a) + xs, [a] + ys)
  {
    if c {
      assert (When(c, a) + xs)[1..] == xs;
      assert ([a] + ys)[1..] == ys;
    } else {
      assert When(c, a) + xs == xs;
      Lists.SubseqCons(a, xs, ys);
    }
  }
}

=== FILE: performance_optimizer.dfy ===
/** The loading bookkeeping of the performance optimizer: the simulated start-up progress, the
    `withLoading` wrapper, and the progressive-loading pagination state machine. Timers become
    explicit events; the two callbacks of `setTimeout` are separate steps. */
module PerformanceOptimizer {
  import opened Wrappers

  // ---------------------------------------------------------------------------------------------
  // Start-up progress

  /** What the loading overlay shows. Progress is a percentage. */
  datatype LoadingState = LoadingState(isLoading: bool, progress: real, message: string)

  const Messages: seq<string> :=
    ["Optimizing performance...", "Loading assets...", "Preparing components...", "Almost ready..."]

  const Ready: string := "Ready!"

  /** The overlay before the first tick: it is shown only when an initial load was asked for. */
  function Initial(initialLoad: bool): (s: LoadingState)
    ensures s.isLoading == initialLoad && s.progress == 0.0 && s.message == Messages[0]
  {
    LoadingState(initialLoad, 0.0, Messages[0])
  }

  /** The state after tick `k` of the four-step interval: `k/4` of the way, capped at 95%,
      with the `k`-th message. The interval is cleared at the fourth tick, so `k <= 4`. */
  function AfterTick(k: nat): (s: LoadingState)
    requires 1 <= k <= |Messages|
    ensures s.isLoading && s.message == Messages[k - 1]
    ensures 0.0 < s.progress <= 95.0
    ensures k < |Messages| ==> s.progress * (|Messages| as real) == (k as real) * 100.0
    ensures k == |Messages| ==> s.progress == 95.0
  {
    var p := (k as real) / (|Messages| as real) * 100.0;
    LoadingState(true, if p < 95.0 then p else 95.0, Messages[k - 1])
  }

  /** The state the final timeout sets, half a second after the last tick. */
  const Done: LoadingState := LoadingState(false, 100.0, Ready)

  /** The whole start-up run: the four ticks in order, then `Done`. */
  function Simulation(): (run: seq<LoadingState>)
    ensures |run| == |Messages| + 1
    ensures run[|Messages|] == Done
    ensures forall k :: 1 <= k <= |Messages| ==> run[k - 1] == AfterTick(k)
  {
    [AfterTick(1), AfterTick(2), AfterTick(3), AfterTick(4), Done]
  }

  /** Progress never goes back during the run, only the last state hides the overlay, and the
      run ends at 100% with "Ready!". */
  lemma SimulationAdvances()
    ensures var run := Simulation();
      (forall i :: 0 < i < |run| ==> run[i - 1].progress < run[i].progress)
      && (forall i :: 0 <= i < |run| ==> (run[i].isLoading <==> i < |Messages|))
      && run[|run| - 1].progress == 100.0 && run[|run| - 1].message == Ready
  {
    var run := Simulation();
    assert run[0].progress == 25.0 && run[1].progress == 50.0 && run[2].progress == 75.0;
    assert run[3].progress == 95.0;
  }

  // ---------------------------------------------------------------------------------------------
  // useLoadingState

  /** The loading flag and message of `useLoadingState`. */
  datatype Flags = Flags(isLoading: bool, message: string)

  function StartLoading(message: string): (f: Flags)
    ensures f.isLoading && f.message == message
  {
    Flags(true, message)
  }

  const Stopped: Flags := Flags(false, "")

  /** `withLoading(fn, message)`: the flags while `fn` runs, the flags afterwards, and what the
      caller gets back. `outcome` is how `fn` settled: `Ok(v)` when it returned `v`, `Err` when it
      threw, in which case the same failure reaches the caller. */
  datatype Wrapped<T> = Wrapped(during: Flags, after: Flags, result: Outcome<T>)

  function WithLoading<T>(outcome: Outcome<T>, message: string): (w: Wrapped<T>)
    ensures w.during.isLoading && w.during.message == message
    ensures !w.after.isLoading && w.after.message == ""
    ensures w.result == outcome
  {
    Wrapped(StartLoading(message), Stopped, outcome)
  }

  /** Whatever `fn` does, the flags end where `stopLoading` leaves them: the `finally` resets them
      on success and on failure alike, and the message given leaves no trace. */
  lemma WithLoadingResets<T>(a: Outcome<T>, b: Outcome<T>, m1: string, m2: string)
    ensures WithLoading(a, m1).after == WithLoading(b, m2).after == Stopped
    ensures WithLoading(a, m1).result.Ok? <==> a.Ok?
  {
  }

  // ---------------------------------------------------------------------------------------------
  // useProgressiveLoading

  const DefaultBatch: nat := 6
  const DefaultInitial: nat := 12

  /** `data.slice(from, to)` for non-negative bounds: both bounds are clamped to the length. */
  function Slice<T>(xs: seq<T>, from: nat, to: nat): (r: seq<T>)
    ensures var end := if to <= |xs| then to else |xs|;
      |r| == if from <= end then end - from else 0
    ensures forall i :: 0 <= i < |r| ==> from + i < |xs| && r[i] == xs[from + i]
  {
    var end := if to <= |xs| then to else |xs|;
    if from >= end then [] else xs[from..end]
  }

  /** The hook's state: everything fetched, what is displayed, the loading flag, `hasMore`, and
      whether a `loadMore` timeout is waiting to fire. */
  datatype Paging<T> = Paging(data: seq<T>, shown: seq<T>, isLoading: bool, hasMore: bool, pending: bool)

  /** The state on mount, before the initial fetch settles. */
  function Mount<T>(): (p: Paging<T>)
    ensures p.data == [] && p.shown == [] && p.isLoading && p.hasMore && !p.pending
  {
    Paging([], [], true, true, false)
  }

  /** The initial fetch settles. On success the first `initial` items are displayed and `hasMore`
      says whether there are others; on failure data, display and `hasMore` stay as they were.
      Either way loading ends. */
  function Fetched<T>(p: Paging<T>, fetched: Outcome<seq<T>>, initial: nat): (r: Paging<T>)
    ensures !r.isLoading && r.pending == p.pending
    ensures fetched.Ok? ==> (r.data == fetched.value
      && r.shown == fetched.value[..if initial <= |fetched.value| then initial else |fetched.value|]
      && (r.hasMore <==> |fetched.value| > initial))
    ensures fetched.Err? ==> r.data == p.data && r.shown == p.shown && r.hasMore == p.hasMore
  {
    match fetched
    case Ok(all) => p.(data := all, shown := Slice(all, 0, initial), hasMore := |all| > initial, isLoading := false)
    case Err => p.(isLoading := false)
  }

  /** `loadMore()`: refused when there is nothing more or a load is running; otherwise it sets the
      loading flag and schedules the batch. */
  function LoadMore<T>(p: Paging<T>): (r: Paging<T>)
    ensures !p.hasMore || p.isLoading ==> r == p
    ensures p.hasMore && !p.isLoading ==> r == p.(isLoading := true, pending := true)
  {
    if !p.hasMore || p.isLoading then p else p.(isLoading := true, pending := true)
  }

  /** The `loadMore` timeout fires: the next `batch` items after those displayed are appended,
      `hasMore` is recomputed from the old length, and loading ends. Nothing happens when no
      timeout is waiting. */
  function Deliver<T>(p: Paging<T>, batch: nat): (r: Paging<T>)
    ensures !p.pending ==> r == p
    ensures p.pending ==> (r.data == p.data && !r.isLoading && !r.pending
      && r.shown == p.shown + Slice(p.data, |p.shown|, |p.shown| + batch)
      && (r.hasMore <==> |p.shown| + batch < |p.data|))
  {
    if !p.pending then p
    else
      var len := |p.shown|;
      p.(shown := p.shown + Slice(p.data, len, len + batch), hasMore := len + batch < |p.data|,
         isLoading := false, pending := false)
  }

  /** The state is coherent: the display is a prefix of the data, `hasMore` says exactly whether
      it is a strict one, and a scheduled batch keeps the loading flag up. */
  ghost predicate Coherent<T>(p: Paging<T>) {
    p.shown <= p.data && (p.hasMore <==> |p.shown| < |p.data|) && (p.pending ==> p.isLoading)
  }

  /** A successful initial fetch makes the state coherent, whatever it was before. */
  lemma FetchedCoherent<T>(p: Paging<T>, all: seq<T>, initial: nat)
    requires !p.pending
    ensures Coherent(Fetched(p, Ok(all), initial))
  {
  }

  /** `loadMore` and its timeout keep the state coherent. */
  lemma CoherenceKept<T>(p: Paging<T>, batch: nat)
    requires Coherent(p)
    ensures Coherent(LoadMore(p)) && Coherent(Deliver(p, batch))
  {
    if p.pending {
      var r := Deliver(p, batch);
      var len := |p.shown|;
      var extra := Slice(p.data, len, len + batch);
      assert r.shown == p.shown + extra;
      assert |r.shown| == (if len + batch <= |p.data| then len + batch else |p.data|);
      forall i | 0 <= i < |r.shown|
        ensures r.shown[i] == p.data[i]
      {
        if i >= len {
          assert r.shown[i] == extra[i - len];
        }
      }
    }
  }

  /** A failed initial fetch leaves nothing to show but `hasMore` still set; one `loadMore` and
      its timeout make the state coherent again, with `hasMore` cleared. */
  lemma FailedFetchRecovers<T>(initial: nat, batch: nat)
    ensures var p := Fetched(Mount<T>(), Err, initial);
      p.data == [] && p.shown == [] && !p.isLoading && p.hasMore && !Coherent(p)
      && var q := Deliver(LoadMore(p), batch);
         Coherent(q) && !q.hasMore && q.shown == []
  {
    var p := Fetched(Mount<T>(), Err, initial);
    assert Slice(p.data, 0, batch) == [];
  }

  /** Pressing "load more" `k` times, each time waiting for the timeout. */
  function LoadRounds<T>(p: Paging<T>, batch: nat, k: nat): Paging<T>
    decreases k
  {
    if k == 0 then p else LoadRounds(Deliver(LoadMore(p), batch), batch, k - 1)
  }

  /** From a coherent idle state, enough rounds display all the data: with `batch >= 1`, every
      round shows `batch` more items until none are left. */
  lemma {:induction false} RoundsShowEverything<T>(p: Paging<T>, batch: nat, k: nat)
    requires Coherent(p) && !p.isLoading && batch >= 1
    requires k * batch >= |p.data| - |p.shown|
    ensures var q := LoadRounds(p, batch, k);
      Coherent(q) && q.shown == q.data == p.data && !q.hasMore && !q.isLoading
    decreases k
  {
    if k == 0 {
      assert |p.data| - |p.shown| <= 0;
      assert p.shown == p.data[..|p.shown|];
    } else if !p.hasMore {
      assert LoadMore(p) == p && Deliver(p, batch) == p;
      assert p.shown == p.data[..|p.shown|];
      assert (k - 1) * batch >= 0;
      RoundsShowEverything(p, batch, k - 1);
    } else {
      var q := Deliver(LoadMore(p), batch);
      CoherenceKept(p, batch);
      CoherenceKept(LoadMore(p), batch);
      assert |q.shown| == (if |p.shown| + batch <= |p.data| then |p.shown| + batch else |p.data|);
      assert (k - 1) * batch >= |q.data| - |q.shown|;
      RoundsShowEverything(q, batch, k - 1);
    }
  }
}

=== FILE: product_service.dfy ===
/** `OptimizedProductService`: product queries answered through the shared API cache. Each
    query has a fixed cache key; the backend's answer is an explicit argument (`Reply`), and a
    backend error never reaches the caller: it degrades to an empty list, `null` or `{}`. */
module ProductService {
  import opened Wrappers
  import OrderedMap
  import Text
  import EnhancedCache
  import ApiCache
  import CacheKeys

  /** The fields of a product the service looks at. */
  datatype Product = Product(id: nat, category: string)

  /** What a cached query result can be. */
  datatype Payload =
    | Products(list: seq<Product>)
    | One(product: Product)
    | Grouped(groups: map<string, seq<Product>>)

  /** The backend's `{ data, error }`: an error, or data that may be `null`. */
  datatype Reply<T> = Failed | Answer(data: Option<T>)

  type Store = ApiCache.Store<Payload>
  type Lookup = ApiCache.Lookup<Payload>

  const DopePicksLimit: nat := 6
  const LatestLimit: nat := 5
  const WeeklyPicksLimit: nat := 4

  /** The queries whose result is a list of products. A missing limit takes its default. */
  datatype ListQuery =
    | All
    | Category(category: string)
    | DopePicks(limit: Option<nat>)
    | Latest(limit: Option<nat>)
    | WeeklyPicks(limit: Option<nat>)
    | Search(query: string)

  /** The queries whose result is one product or `null`. */
  datatype SingleQuery = ById(id: nat) | DailyAd

  /** The cache key of a list query. */
  function ListKey(q: ListQuery): (key: string)
    ensures "products:" <= key
  {
    match q
    case All => CacheKeys.CreateCacheKey("products", ["all"])
    case Category(c) => CacheKeys.CreateCacheKey("products", ["category", c])
    case DopePicks(n) => CacheKeys.CreateCacheKey("products", ["dope-picks", Text.NatToString(n.GetOr(DopePicksLimit))])
    case Latest(n) => CacheKeys.CreateCacheKey("products", ["latest", Text.NatToString(n.GetOr(LatestLimit))])
    case WeeklyPicks(n) => CacheKeys.CreateCacheKey("products", ["weekly-picks", Text.NatToString(n.GetOr(WeeklyPicksLimit))])
    case Search(s) => CacheKeys.CreateCacheKey("products", ["search", Text.Lower(s)])
  }

  /** The cache key of a single-product query. */
  function SingleKey(q: SingleQuery): (key: string)
    ensures q.ById? ==> "product:" <= key
    ensures q.DailyAd? ==> "products:" <= key
  {
    match q
    case ById(id) => CacheKeys.CreateCacheKey("product", [Text.NatToString(id)])
    case DailyAd => CacheKeys.CreateCacheKey("products", ["daily-ad"])
  }

  /** The cache key of the dope-arrivals query. */
  function ArrivalsKey(): (key: string)
    ensures "products:" <= key
  {
    CacheKeys.CreateCacheKey("products", ["dope-arrivals"])
  }

  /** The rows a list query returns on a miss: an error or missing data gives `[]`. */
  function ListRows(reply: Reply<seq<Product>>): (ps: seq<Product>)
    ensures reply.Failed? || reply.data.None? ==> ps == []
    ensures reply.Answer? && reply.data.Some? ==> ps == reply.data.value
  {
    match reply
    case Failed => []
    case Answer(d) => d.GetOr([])
  }

  /** The value a single-product query produces on a miss: an error gives `null`. */
  function SingleValue(reply: Reply<Product>): (v: ApiCache.Value<Payload>)
    ensures v.Null? <==> reply.Failed? || reply.data.None?
    ensures v.Data? ==> v.v == One(reply.data.value)
  {
    match reply
    case Failed => ApiCache.Null
    case Answer(None) => ApiCache.Null
    case Answer(Some(p)) => ApiCache.Data(One(p))
  }

  /** The products of `ps` in category `c`, in order: the reference for grouping. */
  function InCategory(ps: seq<Product>, c: string): (r: seq<Product>)
    ensures |r| <= |ps|
    ensures forall i :: 0 <= i < |r| ==> r[i].category == c && r[i] in ps
    decreases |ps|
  {
    if |ps| == 0 then []
    else (if ps[0].category == c then [ps[0]] else []) + InCategory(ps[1..], c)
  }

  /** The categories present in `ps`. */
  function Categories(ps: seq<Product>): set<string> {
    set i | 0 <= i < |ps| :: ps[i].category
  }

  /** The `reduce` of `getDopeArrivalsByCategories`: one group per category present, each
      holding exactly the products of that category in input order. */
  function Group(ps: seq<Product>): (g: map<string, seq<Product>>)
    ensures g.Keys == Categories(ps)
    ensures forall c :: c in g ==> g[c] == InCategory(ps, c)
    decreases |ps|
  {
    if |ps| == 0 then map[]
    else
      var init := ps[..|ps| - 1];
      var p := ps[|ps| - 1];
      var g := Group(init);
      assert ps == init + [p];
      GroupStep(init, p, g);
      g[p.category := (if p.category in g then g[p.category] else []) + [p]]
  }

  /** One more product joins the end of its own category's group, which it opens if needed. */
  lemma GroupStep(init: seq<Product>, p: Product, g: map<string, seq<Product>>)
    requires g.Keys == Categories(init)
    requires forall c :: c in g ==> g[c] == InCategory(init, c)
    ensures var g' := g[p.category := (if p.category in g then g[p.category] else []) + [p]];
      g'.Keys == Categories(init + [p]) && forall c :: c in g' ==> g'[c] == InCategory(init + [p], c)
  {
    var g' := g[p.category := (if p.category in g then g[p.category] else []) + [p]];
    CategoriesSnoc(init, p);
    forall c | c in g' ensures g'[c] == InCategory(init + [p], c) {
      InCategorySnoc(init, p, c);
      if c == p.category && p.category !in g {
        InCategoryAbsent(init, c);
      }
    }
  }

  /** The names an empty object literal already answers through `Object.prototype`. Each of
      them is truthy and not an array, so `acc[category].push` throws for such a category. */
  const PrototypeNames: set<string> := {
    "constructor", "hasOwnProperty", "isPrototypeOf", "propertyIsEnumerable",
    "toLocaleString", "toString", "valueOf", "__proto__",
    "__defineGetter__", "__defineSetter__", "__lookupGetter__", "__lookupSetter__"
  }

  /** The `reduce` into `{}` as it runs: it throws as soon as it meets a product whose
      category is a prototype name, and otherwise builds `Group(ps)`. */
  function GroupObject(ps: seq<Product>): (r: Outcome<map<string, seq<Product>>>)
    ensures r.Err? <==> exists i :: 0 <= i < |ps| && ps[i].category in PrototypeNames
    ensures r.Ok? ==> r.value.Keys == Categories(ps)
    ensures r.Ok? ==> forall c :: c in r.value ==> r.value[c] == InCategory(ps, c)
  {
    if Categories(ps) !! PrototypeNames then
      assert forall i :: 0 <= i < |ps| ==> ps[i].category !in PrototypeNames by {
        forall i | 0 <= i < |ps| ensures ps[i].category !in PrototypeNames {
          assert ps[i].category in Categories(ps);
        }
      }
      Ok(Group(ps))
    else
      var c :| c in Categories(ps) && c in PrototypeNames;
      var i :| 0 <= i < |ps| && ps[i].category == c;
      Err
  }

  lemma CategoriesSnoc(ps: seq<Product>, p: Product)
    ensures Categories(ps + [p]) == Categories(ps) + {p.category}
  {
    var qs := ps + [p];
    assert forall i :: 0 <= i < |ps| ==> qs[i] == ps[i];
    assert qs[|ps|] == p;
  }

  lemma {:induction false} InCategorySnoc(ps: seq<Product>, p: Product, c: string)
    ensures InCategory(ps + [p], c) == InCategory(ps, c) + (if p.category == c then [p] else [])
    decreases |ps|
  {
    if |ps| == 0 {
      assert ps + [p] == [p];
      assert [p][1..] == [];
    } else {
      var qs := ps + [p];
      assert qs[0] == ps[0];
      assert qs[1..] == ps[1..] + [p];
      InCategorySnoc(ps[1..], p, c);
      assert InCategory(qs, c) == (if ps[0].category == c then [ps[0]] else []) + InCategory(ps[1..] + [p], c);
    }
  }

  lemma {:induction false} InCategoryAbsent(ps: seq<Product>, c: string)
    requires c !in Categories(ps)
    ensures InCategory(ps, c) == []
    decreases |ps|
  {
    if |ps| > 0 {
      assert ps[0].category in Categories(ps);
      assert Categories(ps[1..]) <= Categories(ps) by {
        forall i | 0 <= i < |ps[1..]| ensures ps[1..][i].category in Categories(ps) {
          assert ps[1..][i] == ps[i + 1];
        }
      }
      InCategoryAbsent(ps[1..], c);
    }
  }

  /** What the dope-arrivals fetcher settles with on a miss: an error gives `{}`, rows are
      grouped, and the grouping throws on a prototype-named category. */
  function ArrivalsValue(reply: Reply<seq<Product>>): (v: Outcome<ApiCache.Value<Payload>>)
    ensures v.Ok? ==> v.value.Data? && v.value.v.Grouped?
    ensures reply.Failed? ==> v == Ok(ApiCache.Data(Grouped(map[])))
    ensures reply.Answer? ==>
      (v.Err? <==> exists i :: 0 <= i < |reply.data.GetOr([])| && reply.data.GetOr([])[i].category in PrototypeNames)
    ensures reply.Answer? && v.Ok? ==> v.value.v.groups.Keys == Categories(reply.data.GetOr([]))
  {
    match reply
    case Failed => Ok(ApiCache.Data(Grouped(map[])))
    case Answer(d) =>
      match GroupObject(d.GetOr([]))
      case Ok(g) => Ok(ApiCache.Data(Grouped(g)))
      case Err => Err
  }

  /** `getProducts`, `getProductsByCategory`, `getDopePicks`, `getLatestProducts`,
      `getWeeklyPicks` and `searchProducts`: served from the cache on a hit, otherwise the
      backend's rows (or `[]`) are cached and returned. No call fails. */
  function ListProducts(c: Store, q: ListQuery, reply: Reply<seq<Product>>, now: int): (r: Lookup)
    requires EnhancedCache.Valid(c)
    ensures EnhancedCache.Valid(r.cache)
    ensures r.result.Ok?
    ensures r.fetched <==> !ApiCache.Hit(c, ListKey(q), now)
    ensures !r.fetched ==> r.result.value == EnhancedCache.Fresh(c, ListKey(q), now).value
    ensures r.fetched ==> r.result.value == ApiCache.Data(Products(ListRows(reply)))
    ensures r.fetched ==> EnhancedCache.Fresh(r.cache, ListKey(q), now) == Some(ApiCache.Data(Products(ListRows(reply)))) || c.defaultTtl < 0
  {
    ApiCache.Get(c, ListKey(q), Ok(ApiCache.Data(Products(ListRows(reply)))), now)
  }

  /** `getProductById` and `getDailyAdProduct`: as a list query, but an error or a missing row
      gives `null`, which is cached yet reads back as a miss. */
  function SingleProduct(c: Store, q: SingleQuery, reply: Reply<Product>, now: int): (r: Lookup)
    requires EnhancedCache.Valid(c)
    ensures EnhancedCache.Valid(r.cache)
    ensures r.result.Ok?
    ensures r.fetched <==> !ApiCache.Hit(c, SingleKey(q), now)
    ensures !r.fetched ==> r.result.value == EnhancedCache.Fresh(c, SingleKey(q), now).value
    ensures r.fetched ==> r.result.value == SingleValue(reply)
    ensures r.fetched ==> OrderedMap.Has(r.cache.entries, SingleKey(q))
  {
    ApiCache.Get(c, SingleKey(q), Ok(SingleValue(reply)), now)
  }

  /** `getDopeArrivalsByCategories`: the in-stock dope arrivals grouped by category, or `{}`
      on an error. The only way the call fails is the grouping throwing, and then nothing is
      cached. */
  function DopeArrivals(c: Store, reply: Reply<seq<Product>>, now: int): (r: Lookup)
    requires EnhancedCache.Valid(c)
    ensures EnhancedCache.Valid(r.cache)
    ensures r.fetched <==> !ApiCache.Hit(c, ArrivalsKey(), now)
    ensures !r.fetched ==> r.result == Ok(EnhancedCache.Fresh(c, ArrivalsKey(), now).value)
    ensures r.fetched ==> r.result == ArrivalsValue(reply)
    ensures r.result.Err? <==>
      r.fetched && reply.Answer? && exists i :: 0 <= i < |reply.data.GetOr([])| && reply.data.GetOr([])[i].category in PrototypeNames
    ensures r.result.Err? ==> r.cache == EnhancedCache.Get(c, ArrivalsKey(), now).cache
  {
    ApiCache.Get(c, ArrivalsKey(), ArrivalsValue(reply), now)
  }

  /** The patterns `invalidateProduct(id)` passes to `invalidate`, one after another. */
  function ProductPatterns(id: nat): (ps: seq<string>)
    ensures |ps| == 7
  {
    [CacheKeys.CreateCacheKey("product", [Text.NatToString(id)]),
     CacheKeys.CreateCacheKey("products", ["all"]),
     CacheKeys.CreateCacheKey("products", ["dope-picks"]),
     CacheKeys.CreateCacheKey("products", ["latest"]),
     CacheKeys.CreateCacheKey("products", ["weekly-picks"]),
     CacheKeys.CreateCacheKey("products", ["dope-arrivals"]),
     CacheKeys.CreateCacheKey("products", ["daily-ad"])]
  }

  /** Whether some pattern occurs in `k`. */
  predicate AnyContains(k: string, patterns: seq<string>)
    decreases |patterns|
  {
    |patterns| > 0 && (Text.Contains(k, patterns[0]) || AnyContains(k, patterns[1..]))
  }

  /** Invalidating with each non-empty pattern in turn. */
  function InvalidateEach(c: Store, patterns: seq<string>): (r: Store)
    requires EnhancedCache.Valid(c)
    requires forall i :: 0 <= i < |patterns| ==> patterns[i] != ""
    ensures EnhancedCache.Valid(r)
    ensures r.(entries := c.entries) == c
    ensures forall k :: OrderedMap.Get(r.entries, k) == (if AnyContains(k, patterns) then None else OrderedMap.Get(c.entries, k))
    decreases |patterns|
  {
    if |patterns| == 0 then c
    else InvalidateEach(ApiCache.Invalidate(c, Some(patterns[0])), patterns[1..])
  }

  /** `invalidateProduct(id)`: deletes every key that contains one of its seven patterns. */
  function InvalidateProduct(c: Store, id: nat): (r: Store)
    requires EnhancedCache.Valid(c)
    ensures EnhancedCache.Valid(r)
    ensures forall k :: OrderedMap.Get(r.entries, k) == (if AnyContains(k, ProductPatterns(id)) then None else OrderedMap.Get(c.entries, k))
  {
    var ps := ProductPatterns(id);
    assert forall i :: 0 <= i < |ps| ==> |ps[i]| > 0;
    InvalidateEach(c, ps)
  }

  /** `invalidateAll()`: deletes every key containing `products`. */
  function InvalidateAll(c: Store): (r: Store)
    requires EnhancedCache.Valid(c)
    ensures EnhancedCache.Valid(r)
    ensures forall k :: OrderedMap.Get(r.entries, k) == (if Text.Contains(k, "products") then None else OrderedMap.Get(c.entries, k))
  {
    ApiCache.Invalidate(c, Some("products"))
  }

  /** The lazily created singleton: `created` counts the constructions so far. */
  datatype Registry = Registry(instance: Option<nat>, created: nat)

  /** `getInstance()`: the existing instance, or a new one when there is none yet. */
  function GetInstance(reg: Registry): (r: (Registry, nat))
    ensures reg.instance.Some? ==> r == (reg, reg.instance.value)
    ensures reg.instance.None? ==> r.0.created == reg.created + 1
    ensures r.0.instance == Some(r.1)
  {
    match reg.instance
    case Some(s) => (reg, s)
    case None => (Registry(Some(reg.created), reg.created + 1), reg.created)
  }
}

/** Properties of the product service: key layout, fail-soft results, invalidation reach. */
module ProductServiceFacts {
  import opened Wrappers
  import OrderedMap
  import Text
  import EnhancedCache
  import ApiCache
  import opened ProductService

  /** The literal key layouts of the queries without arguments. */
  lemma FixedKeyLayouts()
    ensures ListKey(All) == "products:all"
    ensures SingleKey(DailyAd) == "products:daily-ad"
    ensures ArrivalsKey() == "products:dope-arrivals"
  {
  }

  /** The key layouts of the queries with a text or id argument. */
  lemma ArgumentKeyLayouts(id: nat, c: string, q: string)
    ensures ListKey(Category(c)) == "products:category:" + c
    ensures ListKey(Search(q)) == "products:search:" + Text.Lower(q)
    ensures SingleKey(ById(id)) == "product:" + Text.NatToString(id)
  {
    CategoryKey(c);
    SearchKey(q);
    ByIdKey(id);
  }

  lemma CategoryKey(c: string)
    ensures ListKey(Category(c)) == "products:category:" + c
  {
    JoinTwo("category", c);
    assert "products" + ":" + ("category" + ":" + c) == "products:category:" + c;
  }

  lemma SearchKey(q: string)
    ensures ListKey(Search(q)) == "products:search:" + Text.Lower(q)
  {
    var lq := Text.Lower(q);
    JoinTwo("search", lq);
    assert "products" + ":" + ("search" + ":" + lq) == "products:search:" + lq;
  }

  lemma ByIdKey(id: nat)
    ensures SingleKey(ById(id)) == "product:" + Text.NatToString(id)
  {
    var n := Text.NatToString(id);
    assert Text.Join([n], ":") == n;
  }

  /** The keys of the limited queries, under their default limits. */
  lemma DefaultLimitKeys()
    ensures ListKey(DopePicks(None)) == "products:dope-picks:6"
    ensures ListKey(Latest(None)) == "products:latest:5"
    ensures ListKey(WeeklyPicks(None)) == "products:weekly-picks:4"
  {
    DopePicksKey();
    LatestKey();
    WeeklyPicksKey();
  }

  lemma DopePicksKey()
    ensures ListKey(DopePicks(None)) == "products:dope-picks:6"
  {
    assert Text.NatToString(6) == "6";
    JoinTwo("dope-picks", "6");
    assert ListKey(DopePicks(None)) == "products" + ":" + Text.Join(["dope-picks", "6"], ":");
  }

  lemma LatestKey()
    ensures ListKey(Latest(None)) == "products:latest:5"
  {
    assert Text.NatToString(5) == "5";
    JoinTwo("latest", "5");
    assert ListKey(Latest(None)) == "products" + ":" + Text.Join(["latest", "5"], ":");
  }

  lemma WeeklyPicksKey()
    ensures ListKey(WeeklyPicks(None)) == "products:weekly-picks:4"
  {
    assert Text.NatToString(4) == "4";
    JoinTwo("weekly-picks", "4");
    assert ListKey(WeeklyPicks(None)) == "products" + ":" + Text.Join(["weekly-picks", "4"], ":");
  }

  lemma SmallNumerals()
    ensures Text.NatToString(6) == "6" && Text.NatToString(5) == "5" && Text.NatToString(4) == "4"
    ensures Text.NatToString(1) == "1" && Text.NatToString(10) == "10"
  {
  }

  lemma JoinTwo(a: string, b: string)
    ensures Text.Join([a, b], ":") == a + ":" + b
  {
    assert [a, b][1..] == [b];
  }

  /** Search queries that differ only in letter case share one cache entry. */
  lemma SearchIgnoresCase(q1: string, q2: string)
    requires Text.Lower(q1) == Text.Lower(q2)
    ensures ListKey(Search(q1)) == ListKey(Search(q2))
  {
  }

  /** Distinct colon-free categories get distinct cache entries. */
  lemma CategoryKeysDistinct(c1: string, c2: string)
    requires ':' !in c1 && ':' !in c2 && c1 != c2
    ensures ListKey(Category(c1)) != ListKey(Category(c2))
  {
    CacheKeys.SplitRecoversParts("products", ["category", c1]);
    CacheKeys.SplitRecoversParts("products", ["category", c2]);
    assert Text.Split(ListKey(Category(c1)), ':')[2] == c1;
    assert Text.Split(ListKey(Category(c2)), ':')[2] == c2;
  }

  /** A backend error on a miss yields `[]` for a list query and caches it, so the error is
      not retried until the entry expires. */
  lemma ListErrorIsEmptyAndCached(c: Store, q: ListQuery, now: int, later: int, reply: Reply<seq<Product>>)
    requires EnhancedCache.Valid(c) && !ApiCache.Hit(c, ListKey(q), now)
    requires 0 <= later - now <= c.defaultTtl
    ensures var first := ListProducts(c, q, Failed, now);
      first.result == Ok(ApiCache.Data(Products([])))
      && !ListProducts(first.cache, q, reply, later).fetched
  {
  }

  /** A product that is not found is cached as `null`, and every later call fetches again. */
  lemma MissingProductRefetched(c: Store, id: nat, now: int, later: int, reply: Reply<Product>)
    requires EnhancedCache.Valid(c) && !ApiCache.Hit(c, SingleKey(ById(id)), now)
    ensures var first := SingleProduct(c, ById(id), Answer(None), now);
      first.result == Ok(ApiCache.Null) && SingleProduct(first.cache, ById(id), reply, later).fetched
  {
  }

  /** Every dope-arrivals product is in the group of its own category. */
  lemma {:induction false} GroupedOnce(ps: seq<Product>, i: nat)
    requires i < |ps|
    ensures ps[i].category in Group(ps) && ps[i] in Group(ps)[ps[i].category]
    decreases i
  {
    var c := ps[i].category;
    assert c in Categories(ps);
    InCategoryHas(ps, i);
  }

  lemma {:induction false} InCategoryHas(ps: seq<Product>, i: nat)
    requires i < |ps|
    ensures ps[i] in InCategory(ps, ps[i].category)
    decreases i
  {
    if i > 0 {
      InCategoryHas(ps[1..], i - 1);
      assert ps[1..][i - 1] == ps[i];
    }
  }

  /** `invalidateProduct(1)` also deletes the entry of product 10, since `product:1` occurs in
      `product:10`. */
  lemma InvalidateProductOverreaches(c: Store)
    requires EnhancedCache.Valid(c)
    ensures OrderedMap.Get(InvalidateProduct(c, 1).entries, SingleKey(ById(10))) == None
  {
    var k := SingleKey(ById(10));
    assert k == "product:10" by {
      ByIdKey(10);
      SmallNumerals();
    }
    assert ProductPatterns(1)[0] == "product:1" by {
      ByIdKey(1);
      SmallNumerals();
      assert ProductPatterns(1)[0] == SingleKey(ById(1));
    }
    assert "product:1" <= k;
    Dropped(c, 1, k, 0);
  }

  /** `invalidateProduct` deletes the dope-picks, latest and weekly-picks entries whatever
      their limit, and the all-products, arrivals and daily-ad entries. */
  lemma InvalidateProductReachesLists(c: Store, id: nat, n: Option<nat>)
    requires EnhancedCache.Valid(c)
    ensures var r := InvalidateProduct(c, id).entries;
      OrderedMap.Get(r, ListKey(All)) == None
      && OrderedMap.Get(r, ListKey(DopePicks(n))) == None
      && OrderedMap.Get(r, ListKey(Latest(n))) == None
      && OrderedMap.Get(r, ListKey(WeeklyPicks(n))) == None
      && OrderedMap.Get(r, ArrivalsKey()) == None
      && OrderedMap.Get(r, SingleKey(DailyAd)) == None
  {
    ListPatternsPrefix(id, n);
    Dropped(c, id, ListKey(All), 1);
    Dropped(c, id, ListKey(DopePicks(n)), 2);
    Dropped(c, id, ListKey(Latest(n)), 3);
    Dropped(c, id, ListKey(WeeklyPicks(n)), 4);
    Dropped(c, id, ArrivalsKey(), 5);
    Dropped(c, id, SingleKey(DailyAd), 6);
  }

  /** Each list pattern of `invalidateProduct` begins the key it aims at. */
  lemma ListPatternsPrefix(id: nat, n: Option<nat>)
    ensures var ps := ProductPatterns(id);
      ps[1] <= ListKey(All) && ps[2] <= ListKey(DopePicks(n)) && ps[3] <= ListKey(Latest(n))
      && ps[4] <= ListKey(WeeklyPicks(n)) && ps[5] <= ArrivalsKey() && ps[6] <= SingleKey(DailyAd)
  {
    var ps := ProductPatterns(id);
    assert ps[1] == ListKey(All) && ps[5] == ArrivalsKey() && ps[6] == SingleKey(DailyAd);
    OnePartBeginsTwo("products", "dope-picks", Text.NatToString(n.GetOr(DopePicksLimit)));
    OnePartBeginsTwo("products", "latest", Text.NatToString(n.GetOr(LatestLimit)));
    OnePartBeginsTwo("products", "weekly-picks", Text.NatToString(n.GetOr(WeeklyPicksLimit)));
  }

  /** The key with one part begins the key with that part and one more. */
  lemma OnePartBeginsTwo(prefix: string, a: string, b: string)
    ensures CacheKeys.CreateCacheKey(prefix, [a]) <= CacheKeys.CreateCacheKey(prefix, [a, b])
  {
    assert Text.Join([a], ":") == a;
    JoinTwo(a, b);
    assert prefix + ":" + a <= prefix + ":" + (a + ":" + b);
  }

  /** A key that begins with one of the patterns is gone after `invalidateProduct`. */
  lemma Dropped(c: Store, id: nat, k: string, i: nat)
    requires EnhancedCache.Valid(c) && i < 7 && ProductPatterns(id)[i] <= k
    ensures OrderedMap.Get(InvalidateProduct(c, id).entries, k) == None
  {
    ReachedByLater(k, ProductPatterns(id), i);
  }

  lemma {:induction false} ReachedByLater(k: string, patterns: seq<string>, i: nat)
    requires i < |patterns| && Text.Contains(k, patterns[i])
    ensures AnyContains(k, patterns)
    decreases i
  {
    if i > 0 {
      assert patterns[1..][i - 1] == patterns[i];
      ReachedByLater(k, patterns[1..], i - 1);
    }
  }

  /** `invalidateAll` leaves the single-product entries alone and deletes every other query's
      entry. */
  lemma InvalidateAllSparesProductKeys(c: Store, id: nat, q: ListQuery)
    requires EnhancedCache.Valid(c)
    ensures var r := InvalidateAll(c).entries;
      OrderedMap.Get(r, SingleKey(ById(id))) == OrderedMap.Get(c.entries, SingleKey(ById(id)))
      && OrderedMap.Get(r, ListKey(q)) == None
      && OrderedMap.Get(r, ArrivalsKey()) == None
      && OrderedMap.Get(r, SingleKey(DailyAd)) == None
  {
    ArgumentKeyLayouts(id, "", "");
    ProductKeyLacksProducts(Text.NatToString(id));
    assert "products" <= ListKey(q);
    assert "products" <= ArrivalsKey();
    assert "products" <= SingleKey(DailyAd);
  }

  /** `products` cannot occur in `product:` followed by digits: the only `p` is the first
      character, and it is followed by `product:`. */
  lemma ProductKeyLacksProducts(digits: string)
    requires forall i :: 0 <= i < |digits| ==> Text.IsDigit(digits[i])
    ensures !Text.Contains("product:" + digits, "products")
  {
    var k := "product:" + digits;
    forall j | 0 <= j < |k| ensures !("products" <= k[j..]) {
      if j == 0 {
        assert |k| < 8 || k[7] != "products"[7];
      } else if j < 8 {
        assert k[j..][0] == "product:"[j] != 'p';
      } else {
        assert Text.IsDigit(k[j..][0]);
      }
    }
    Text.NoEarlierOccurrence(k, "products", |k|);
    assert k[..|k|] == k;
  }

  /** The singleton: asking twice gives the same instance, constructed once. */
  lemma SingleInstance(reg: Registry)
    ensures var (r1, a) := GetInstance(reg);
      var (r2, b) := GetInstance(r1);
      a == b && r2 == r1 && r1.created <= reg.created + 1
  {
  }
}

=== FILE: seo.dfy ===
/** `generateSlug` and the product URL built from it, with the route's reading of the id back
    out of the URL segment. */
module Slugs {
  import opened Wrappers
  import Text

  predicate IsAlnum(c: char) {
    Text.IsLowerLetter(c) || Text.IsUpperLetter(c) || Text.IsDigit(c)
  }

  /** The regular-expression class `\w`: ASCII letters, digits and `_`. */
  predicate IsWordChar(c: char) {
    IsAlnum(c) || c == '_'
  }

  /** The class `[\s_-]` of characters that become a hyphen. */
  predicate IsSeparator(c: char) {
    Text.IsSpace(c) || c == '_' || c == '-'
  }

  /** The characters a slug is made of. */
  predicate IsSlugChar(c: char) {
    Text.IsLowerLetter(c) || Text.IsDigit(c) || c == '-'
  }

  predicate SlugChars(s: string) {
    forall i :: 0 <= i < |s| ==> IsSlugChar(s[i])
  }

  predicate NoDoubleDash(s: string) {
    forall i, j :: 0 <= i < |s| && 0 <= j < |s| && j == i + 1 ==> !(s[i] == '-' && s[j] == '-')
  }

  /** A finished slug: lower-case letters, digits and single hyphens between them. */
  predicate Canonical(s: string) {
    SlugChars(s) && NoDoubleDash(s) && (|s| > 0 ==> s[0] != '-' && s[|s| - 1] != '-')
  }

  predicate NoUpper(s: string) {
    forall i :: 0 <= i < |s| ==> !Text.IsUpperLetter(s[i])
  }

  /** `.replace(/[^\w\s-]/g, '')`: keeps word characters, whitespace and hyphens. */
  function DropPunctuation(s: string): (r: string)
    ensures forall i :: 0 <= i < |r| ==> IsWordChar(r[i]) || Text.IsSpace(r[i]) || r[i] == '-'
    ensures (forall i :: 0 <= i < |s| ==> IsWordChar(s[i]) || Text.IsSpace(s[i]) || s[i] == '-') ==> r == s
    ensures NoUpper(s) ==> NoUpper(r)
    decreases |s|
  {
    if |s| == 0 then []
    else if IsWordChar(s[0]) || Text.IsSpace(s[0]) || s[0] == '-' then [s[0]] + DropPunctuation(s[1..])
    else DropPunctuation(s[1..])
  }

  /** Drops the leading run of separators. */
  function SkipSeparators(s: string): (r: string)
    ensures |r| <= |s| && r == s[|s| - |r|..]
    ensures |r| > 0 ==> !IsSeparator(r[0])
    ensures forall i :: 0 <= i < |s| - |r| ==> IsSeparator(s[i])
    ensures |s| > 0 && IsSeparator(s[0]) ==> |r| < |s|
    decreases |s|
  {
    if |s| > 0 && IsSeparator(s[0]) then
      var r := SkipSeparators(s[1..]);
      assert forall i :: 1 <= i < |s| - |r| ==> s[i] == s[1..][i - 1];
      r
    else s
  }

  /** `.replace(/[\s_-]+/g, '-')`: every maximal run of separators becomes one hyphen. */
  function Collapse(s: string): (r: string)
    ensures forall i :: 0 <= i < |r| ==> !Text.IsSpace(r[i]) && r[i] != '_'
    ensures NoDoubleDash(r)
    ensures |s| == 0 <==> |r| == 0
    ensures |s| > 0 ==> (r[0] == '-' <==> IsSeparator(s[0]))
    ensures (forall i :: 0 <= i < |s| ==> IsSlugChar(s[i]) || IsSeparator(s[i])) ==> SlugChars(r)
    decreases |s|
  {
    if |s| == 0 then []
    else if IsSeparator(s[0]) then
      var rest := SkipSeparators(s);
      var c := Collapse(rest);
      CollapseHead(['-'], c);
      assert (forall i :: 0 <= i < |s| ==> IsSlugChar(s[i]) || IsSeparator(s[i])) ==>
        forall i :: 0 <= i < |rest| ==> IsSlugChar(rest[i]) || IsSeparator(rest[i]) by {
        assert forall i :: 0 <= i < |rest| ==> rest[i] == s[i + |s| - |rest|];
      }
      assert |c| > 0 ==> c[0] != '-';
      ['-'] + c
    else
      var c := Collapse(s[1..]);
      CollapseHead([s[0]], c);
      assert (forall i :: 0 <= i < |s| ==> IsSlugChar(s[i]) || IsSeparator(s[i])) ==>
        forall i :: 0 <= i < |s[1..]| ==> IsSlugChar(s[1..][i]) || IsSeparator(s[1..][i]) by {
        assert forall i :: 0 <= i < |s[1..]| ==> s[1..][i] == s[i + 1];
      }
      [s[0]] + c
  }

  /** One character before a collapsed tail: the shape facts of the whole follow from the
      tail's and the joint. */
  lemma CollapseHead(h: string, c: string)
    requires |h| == 1
    ensures var r := h + c;
      r[0] == h[0] && r[1..] == c
      && ((forall i :: 0 <= i < |c| ==> !Text.IsSpace(c[i]) && c[i] != '_') && !Text.IsSpace(h[0]) && h[0] != '_'
        ==> forall i :: 0 <= i < |r| ==> !Text.IsSpace(r[i]) && r[i] != '_')
      && (NoDoubleDash(c) && !(h[0] == '-' && |c| > 0 && c[0] == '-') ==> NoDoubleDash(r))
      && (SlugChars(c) && IsSlugChar(h[0]) ==> SlugChars(r))
  {
    var r := h + c;
    assert forall i :: 1 <= i < |r| ==> r[i] == c[i - 1];
  }

  /** Drops the leading hyphens. */
  function StripLeadingDashes(s: string): (r: string)
    ensures |r| <= |s| && r == s[|s| - |r|..]
    ensures |r| > 0 ==> r[0] != '-'
    ensures forall i :: 0 <= i < |s| - |r| ==> s[i] == '-'
    decreases |s|
  {
    if |s| > 0 && s[0] == '-' then StripLeadingDashes(s[1..]) else s
  }

  /** Drops the trailing hyphens. */
  function StripTrailingDashes(s: string): (r: string)
    ensures |r| <= |s| && r == s[..|r|]
    ensures |r| > 0 ==> r[|r| - 1] != '-'
    ensures forall i :: |r| <= i < |s| ==> s[i] == '-'
    decreases |s|
  {
    if |s| > 0 && s[|s| - 1] == '-' then StripTrailingDashes(s[..|s| - 1]) else s
  }

  /** `.replace(/^-+|-+$/g, '')`. */
  function StripDashes(s: string): (r: string)
    ensures |r| > 0 ==> r[0] != '-' && r[|r| - 1] != '-'
    ensures SlugChars(s) ==> SlugChars(r)
    ensures NoDoubleDash(s) ==> NoDoubleDash(r)
    ensures |s| > 0 && s[0] != '-' && s[|s| - 1] != '-' ==> r == s
  {
    var a := StripLeadingDashes(s);
    LeadingShape(s);
    TrailingShape(a);
    StripNothing(s);
    StripTrailingDashes(a)
  }

  lemma LeadingShape(s: string)
    ensures SlugChars(s) ==> SlugChars(StripLeadingDashes(s))
    ensures NoDoubleDash(s) ==> NoDoubleDash(StripLeadingDashes(s))
  {
    var a := StripLeadingDashes(s);
    InfixKeepsShape(s, |s| - |a|, |s|);
  }

  lemma TrailingShape(s: string)
    ensures SlugChars(s) ==> SlugChars(StripTrailingDashes(s))
    ensures NoDoubleDash(s) ==> NoDoubleDash(StripTrailingDashes(s))
  {
    var r := StripTrailingDashes(s);
    InfixKeepsShape(s, 0, |r|);
  }

  lemma StripNothing(s: string)
    ensures |s| > 0 && s[0] != '-' && s[|s| - 1] != '-' ==> StripTrailingDashes(StripLeadingDashes(s)) == s
  {
    if |s| > 0 && s[0] != '-' && s[|s| - 1] != '-' {
      assert StripLeadingDashes(s) == s;
    }
  }

  /** Every infix of a string with only slug characters and no doubled hyphen has the same
      two properties. */
  lemma InfixKeepsShape(s: string, lo: nat, hi: nat)
    requires lo <= hi <= |s|
    ensures SlugChars(s) ==> SlugChars(s[lo..hi])
    ensures NoDoubleDash(s) ==> NoDoubleDash(s[lo..hi])
  {
    assert forall i :: 0 <= i < hi - lo ==> s[lo..hi][i] == s[lo + i];
  }

  /** `generateSlug(text)`: lower-case, trim, drop punctuation, turn each run of whitespace,
      underscores and hyphens into one hyphen, and drop hyphens at either end. */
  function Slug(text: string): (r: string)
    ensures Canonical(r)
  {
    var lowered := Text.Lower(text);
    var trimmed := Text.Trim(lowered);
    TrimKeepsNoUpper(lowered);
    var kept := DropPunctuation(trimmed);
    StripDashes(Collapse(kept))
  }

  lemma TrimKeepsNoUpper(s: string)
    requires NoUpper(s)
    ensures NoUpper(Text.Trim(s))
  {
    var a := Text.TrimStart(s);
    var r := Text.TrimEnd(a);
    assert forall i :: 0 <= i < |r| ==> r[i] == s[i + |s| - |a|];
  }

  /** A canonical slug is its own slug, so `generateSlug` is idempotent. */
  lemma SlugOfCanonical(t: string)
    requires Canonical(t)
    ensures Slug(t) == t
  {
    LowerOfSlugChars(t);
    TrimOfCanonical(t);
    DropOfSlugChars(t);
    CollapseOfSlugChars(t);
  }

  lemma LowerOfSlugChars(t: string)
    requires SlugChars(t)
    ensures Text.Lower(t) == t
  {
    forall i | 0 <= i < |t| ensures Text.LowerChar(t[i]) == t[i] {
      assert IsSlugChar(t[i]);
    }
  }

  lemma TrimOfCanonical(t: string)
    requires Canonical(t)
    ensures Text.Trim(t) == t
  {
    if |t| > 0 {
      assert IsSlugChar(t[0]) && IsSlugChar(t[|t| - 1]);
    }
    Text.TrimOfTrimmed(t);
  }

  lemma DropOfSlugChars(t: string)
    requires SlugChars(t)
    ensures DropPunctuation(t) == t
  {
    forall i | 0 <= i < |t| ensures IsWordChar(t[i]) || Text.IsSpace(t[i]) || t[i] == '-' {
      assert IsSlugChar(t[i]);
    }
  }

  /** The slugs are exactly the canonical strings. */
  lemma SlugIdempotent(text: string)
    ensures Slug(Slug(text)) == Slug(text)
    ensures forall t :: Slug(t) == t <==> Canonical(t)
  {
    SlugOfCanonical(Slug(text));
    forall t ensures Slug(t) == t <==> Canonical(t) {
      if Canonical(t) {
        SlugOfCanonical(t);
      }
    }
  }

  lemma {:induction false} CollapseOfSlugChars(t: string)
    requires SlugChars(t) && NoDoubleDash(t)
    ensures Collapse(t) == t
    decreases |t|
  {
    if |t| > 0 {
      InfixKeepsShape(t, 1, |t|);
      assert t[1..|t|] == t[1..];
      CollapseOfSlugChars(t[1..]);
      if t[0] == '-' {
        SkipOneDash(t);
        CollapseDashHead(t);
      } else {
        CollapsePlainHead(t);
      }
    }
  }

  lemma CollapseDashHead(t: string)
    requires |t| > 0 && t[0] == '-' && SkipSeparators(t) == t[1..] && Collapse(t[1..]) == t[1..]
    ensures Collapse(t) == t
  {
    CollapseSeparatorHead(t);
    assert ['-'] + t[1..] == t;
  }

  /** A leading run of separators becomes one hyphen before the collapsed rest. */
  lemma CollapseSeparatorHead(s: string)
    requires |s| > 0 && IsSeparator(s[0])
    ensures Collapse(s) == ['-'] + Collapse(SkipSeparators(s))
  {
  }

  lemma CollapsePlainHead(t: string)
    requires |t| > 0 && !IsSeparator(t[0]) && Collapse(t[1..]) == t[1..]
    ensures Collapse(t) == t
  {
    assert Collapse(t) == [t[0]] + t[1..];
  }

  lemma SkipOneDash(t: string)
    requires SlugChars(t) && NoDoubleDash(t) && |t| > 0 && t[0] == '-'
    ensures SkipSeparators(t) == t[1..]
  {
    if |t| > 1 {
      assert t[1] != '-' && IsSlugChar(t[1]);
    }
    SkipDashBeforeWord(t);
  }

  lemma SkipDashBeforeWord(t: string)
    requires |t| > 0 && t[0] == '-' && (|t| > 1 ==> !IsSeparator(t[1]))
    ensures SkipSeparators(t) == t[1..]
  {
    var rest := t[1..];
    assert |rest| > 0 ==> rest[0] == t[1];
    assert SkipSeparators(rest) == rest;
  }

  /** The letters and digits of a string, in order. */
  function Alnum(s: string): (r: string)
    ensures |r| <= |s|
    decreases |s|
  {
    if |s| == 0 then []
    else if IsAlnum(s[0]) then [s[0]] + Alnum(s[1..])
    else Alnum(s[1..])
  }

  /** Only separators and punctuation change: the letters and digits of the lower-cased text
      survive into the slug, in order. */
  lemma SlugKeepsAlnum(text: string)
    ensures Alnum(Slug(text)) == Alnum(Text.Lower(text))
  {
    var lowered := Text.Lower(text);
    var trimmed := Text.Trim(lowered);
    var kept := DropPunctuation(trimmed);
    var collapsed := Collapse(kept);
    AlnumTrim(lowered);
    AlnumDropPunctuation(trimmed);
    AlnumCollapse(kept);
    AlnumStripDashes(collapsed);
  }

  lemma {:induction false} AlnumAppend(a: string, b: string)
    ensures Alnum(a + b) == Alnum(a) + Alnum(b)
    decreases |a|
  {
    if |a| == 0 {
      assert a + b == b;
    } else {
      assert (a + b)[1..] == a[1..] + b;
      AlnumAppend(a[1..], b);
    }
  }

  lemma {:induction false} AlnumNone(s: string)
    requires forall i :: 0 <= i < |s| ==> !IsAlnum(s[i])
    ensures Alnum(s) == ""
    decreases |s|
  {
    if |s| > 0 {
      AlnumNone(s[1..]);
    }
  }

  lemma AlnumTrim(s: string)
    ensures Alnum(Text.Trim(s)) == Alnum(s)
  {
    var a := Text.TrimStart(s);
    var r := Text.TrimEnd(a);
    forall i | 0 <= i < |s| - |a| ensures !IsAlnum(s[i]) {
      SpaceNotAlnum(s[i]);
    }
    AlnumDropPrefix(s, |s| - |a|);
    forall i | |r| <= i < |a| ensures !IsAlnum(a[i]) {
      SpaceNotAlnum(a[i]);
    }
    AlnumDropSuffix(a, |r|);
  }

  lemma SpaceNotAlnum(c: char)
    requires Text.IsSpace(c)
    ensures !IsAlnum(c)
  {
  }

  /** Dropping a prefix without letters or digits keeps the letters and digits. */
  lemma AlnumDropPrefix(s: string, k: nat)
    requires k <= |s|
    requires forall i :: 0 <= i < k ==> !IsAlnum(s[i])
    ensures Alnum(s[k..]) == Alnum(s)
  {
    assert s == s[..k] + s[k..];
    AlnumNone(s[..k]);
    AlnumAppend(s[..k], s[k..]);
  }

  /** Dropping a suffix without letters or digits keeps the letters and digits. */
  lemma AlnumDropSuffix(s: string, k: nat)
    requires k <= |s|
    requires forall i :: k <= i < |s| ==> !IsAlnum(s[i])
    ensures Alnum(s[..k]) == Alnum(s)
  {
    var pre, suf := s[..k], s[k..];
    assert s == pre + suf;
    forall i | 0 <= i < |suf| ensures !IsAlnum(suf[i]) {
      assert suf[i] == s[k + i];
    }
    AlnumNone(suf);
    AlnumAppend(pre, suf);
    assert Alnum(pre) + [] == Alnum(pre);
  }

  lemma {:induction false} AlnumDropPunctuation(s: string)
    ensures Alnum(DropPunctuation(s)) == Alnum(s)
    decreases |s|
  {
    if |s| > 0 {
      AlnumDropPunctuation(s[1..]);
      if IsWordChar(s[0]) || Text.IsSpace(s[0]) || s[0] == '-' {
        AlnumAppend([s[0]], DropPunctuation(s[1..]));
        assert [s[0]][1..] == [];
      }
    }
  }

  lemma {:induction false} AlnumCollapse(s: string)
    ensures Alnum(Collapse(s)) == Alnum(s)
    decreases |s|
  {
    if |s| > 0 {
      if IsSeparator(s[0]) {
        var rest := SkipSeparators(s);
        AlnumCollapse(rest);
        AlnumSkipSeparators(s);
        AlnumAppend(['-'], Collapse(rest));
      } else {
        AlnumCollapse(s[1..]);
        AlnumAppend([s[0]], Collapse(s[1..]));
        assert [s[0]][1..] == [];
      }
    }
  }

  lemma AlnumSkipSeparators(s: string)
    ensures Alnum(SkipSeparators(s)) == Alnum(s)
  {
    var rest := SkipSeparators(s);
    forall i | 0 <= i < |s| - |rest| ensures !IsAlnum(s[i]) {
      assert IsSeparator(s[i]);
      if Text.IsSpace(s[i]) {
        SpaceNotAlnum(s[i]);
      }
    }
    AlnumDropPrefix(s, |s| - |rest|);
  }

  lemma AlnumStripDashes(s: string)
    ensures Alnum(StripDashes(s)) == Alnum(s)
  {
    var a := StripLeadingDashes(s);
    AlnumStripLeading(s);
    AlnumStripTrailing(a);
    assert StripDashes(s) == StripTrailingDashes(a);
  }

  lemma AlnumStripLeading(s: string)
    ensures Alnum(StripLeadingDashes(s)) == Alnum(s)
  {
    var a := StripLeadingDashes(s);
    forall i | 0 <= i < |s| - |a| ensures !IsAlnum(s[i]) {
      assert s[i] == '-';
    }
    AlnumDropPrefix(s, |s| - |a|);
  }

  lemma AlnumStripTrailing(a: string)
    ensures Alnum(StripTrailingDashes(a)) == Alnum(a)
  {
    var r := StripTrailingDashes(a);
    forall i | |r| <= i < |a| ensures !IsAlnum(a[i]) {
      assert a[i] == '-';
    }
    AlnumDropSuffix(a, |r|);
  }

  /** `generateProductUrl`: `/product/<id>-<slug of the name>`. */
  function ProductUrl(id: nat, name: string): (url: string)
    ensures "/product/" <= url
    ensures url[9..] == Text.NatToString(id) + "-" + Slug(name)
  {
    var tail := Text.NatToString(id) + "-" + Slug(name);
    assert ("/product/" + tail)[9..] == tail;
    "/product/" + tail
  }

  /** `extractProductIdFromSlug`: a segment of digits only, or digits followed by a hyphen
      and anything, names the product with that number; any other segment names none. */
  function ExtractProductId(segment: string): (r: Option<nat>)
    ensures r.Some? ==> |segment| > 0 && Text.IsDigit(segment[0])
    ensures forall k: nat :: IdPrefix(segment, k) ==> r == Some(Text.DigitsValue(segment[..k]))
    ensures r.Some? ==> exists k: nat :: IdPrefix(segment, k) && r.value == Text.DigitsValue(segment[..k])
  {
    var k := Text.DigitRun(segment);
    forall j | IdPrefix(segment, j) ensures j == k {
      IdPrefixIsDigitRun(segment, j);
    }
    if k > 0 && (k == |segment| || segment[k] == '-') then
      assert IdPrefix(segment, k);
      Some(Text.DigitsValue(segment[..k]))
    else None
  }

  /** The first `k` characters are the digits of an id: all of the segment (`/^\d+$/`) or
      followed by a hyphen (`/^(\d+)-/`). */
  predicate IdPrefix(segment: string, k: nat) {
    0 < k <= |segment| && (forall i :: 0 <= i < k ==> Text.IsDigit(segment[i]))
    && (k == |segment| || segment[k] == '-')
  }

  lemma IdPrefixIsDigitRun(segment: string, k: nat)
    requires IdPrefix(segment, k)
    ensures Text.DigitRun(segment) == k
  {
  }

  /** The route reads back the id from both URL forms it generates, with or without a slug. */
  lemma ExtractProductIdRoundTrip(id: nat, name: string)
    ensures ExtractProductId(Text.NatToString(id)) == Some(id)
    ensures ExtractProductId(ProductUrl(id, name)[9..]) == Some(id)
  {
    var digits := Text.NatToString(id);
    Text.DigitRunAll(digits);
    assert digits[..|digits|] == digits;
    ExtractWithSuffix(id, Slug(name));
  }

  /** The id followed by a hyphen reads back as the id, whatever comes after the hyphen. */
  lemma ExtractWithSuffix(id: nat, rest: string)
    ensures ExtractProductId(Text.NatToString(id) + "-" + rest) == Some(id)
  {
    var digits := Text.NatToString(id);
    Text.DigitRunAll(digits);
    var seg := digits + "-" + rest;
    DigitRunPrefix(digits, seg);
    assert seg[..|digits|] == digits;
  }

  lemma {:induction false} DigitRunPrefix(digits: string, s: string)
    requires forall i :: 0 <= i < |digits| ==> Text.IsDigit(digits[i])
    requires digits <= s && (|s| > |digits| ==> !Text.IsDigit(s[|digits|]))
    ensures Text.DigitRun(s) == |digits|
    decreases |digits|
  {
    if |digits| > 0 {
      DigitRunPrefix(digits[1..], s[1..]);
    }
  }

  /** A name with no letter or digit gives an empty slug and a URL ending in a hyphen. */
  lemma EmptySlugLeavesHyphen(id: nat, name: string)
    requires forall i :: 0 <= i < |name| ==> !IsAlnum(name[i])
    ensures Slug(name) == ""
    ensures var url := ProductUrl(id, name); url[|url| - 1] == '-'
  {
    SlugKeepsAlnum(name);
    forall i | 0 <= i < |name| ensures !IsAlnum(Text.Lower(name)[i]) {
    }
    AlnumNone(Text.Lower(name));
    var s := Slug(name);
    if |s| > 0 {
      AlnumOfSlug(s);
    }
  }

  /** A non-empty canonical slug contains a letter or digit. */
  lemma AlnumOfSlug(s: string)
    requires Canonical(s) && |s| > 0
    ensures |Alnum(s)| > 0
  {
    assert IsAlnum(s[0]);
  }
}

=== FILE: sitemap.dfy ===
/** The sitemap: the URL list `generateSitemapData` builds, and the `next-sitemap`
    configuration (`transform` and `additionalPaths`). Priorities are those of the `<priority>`
    tag of the sitemaps.org Sitemap protocol 0.9, so they must lie in `[0.0, 1.0]`;
    modification dates are left out. */
module Sitemap {
  import Slugs
  import StructuredData

  datatype Freq = Daily | Weekly | Monthly

  /** One `<url>` of a sitemap: where, how often it changes, and how important it is. */
  datatype UrlEntry = UrlEntry(loc: string, changefreq: Freq, priority: real)

  /** What `generateSitemapData` needs of a product. */
  datatype Listing = Listing(id: nat, name: string)

  predicate ValidPriority(p: real) {
    0.0 <= p <= 1.0
  }

  /** The four fixed pages, before any product. */
  function FixedEntries(): (es: seq<UrlEntry>)
    ensures |es| == 4
  {
    var base := StructuredData.SiteUrl;
    [ UrlEntry(base, Daily, 1.0),
      UrlEntry(base + "/support", Weekly, 0.8),
      UrlEntry(base + "/terms", Monthly, 0.5),
      UrlEntry(base + "/sitemap.xml", Weekly, 0.7) ]
  }

  /** `generateSitemapData(products)`: the fixed pages, then one weekly entry at priority 0.9
      per product, in order, at the product's URL. */
  function SitemapData(products: seq<Listing>): (es: seq<UrlEntry>)
    ensures |es| == 4 + |products|
    ensures es[..4] == FixedEntries()
    ensures forall i :: 0 <= i < |products| ==>
      es[4 + i] == UrlEntry(StructuredData.SiteUrl + Slugs.ProductUrl(products[i].id, products[i].name), Weekly, 0.9)
    ensures forall i :: 0 <= i < |es| ==> ValidPriority(es[i].priority) && StructuredData.SiteUrl <= es[i].loc
  {
    var fixed := FixedEntries();
    var perProduct := seq(|products|, i requires 0 <= i < |products| =>
      UrlEntry(StructuredData.SiteUrl + Slugs.ProductUrl(products[i].id, products[i].name), Weekly, 0.9));
    fixed + perProduct
  }

  /** `transform(config, path)`: the home page daily at 1.0, product pages weekly at 0.9,
      `/support` weekly at 0.8, `/terms` monthly at 0.5, and everything else weekly at 0.7.
      The configuration's own case for `/sitemap.xml` gives the default values, so it is
      folded into the default here. */
  function Transform(path: string): (e: UrlEntry)
    ensures e.loc == path
    ensures 0.5 <= e.priority <= 1.0
    ensures e.changefreq == Monthly <==> path == "/terms"
    ensures e.changefreq == Daily <==> path == "/"
    ensures path == "/" ==> e.priority == 1.0
    ensures "/product/" <= path ==> e.changefreq == Weekly && e.priority == 0.9
    ensures path == "/support" ==> e.changefreq == Weekly && e.priority == 0.8
    ensures path == "/terms" ==> e.priority == 0.5
    ensures path != "/" && !("/product/" <= path) && path != "/support" && path != "/terms" ==>
      e.changefreq == Weekly && e.priority == 0.7
  {
    if path == "/" then UrlEntry(path, Daily, 1.0)
    else if "/product/" <= path then UrlEntry(path, Weekly, 0.9)
    else if path == "/support" then UrlEntry(path, Weekly, 0.8)
    else if path == "/terms" then UrlEntry(path, Monthly, 0.5)
    else UrlEntry(path, Weekly, 0.7)
  }

  /** The keyword pages of `additionalPaths`, listed with their priorities; all are weekly. */
  function AdditionalPaths(): (es: seq<UrlEntry>)
    ensures |es| == 20
  {
    [ UrlEntry("/gaming-keyboards-nepal", Weekly, 0.9),
      UrlEntry("/mechanical-keyboards-nepal", Weekly, 0.9),
      UrlEntry("/gaming-mouse-nepal", Weekly, 0.9),
      UrlEntry("/wireless-mouse-nepal", Weekly, 0.9),
      UrlEntry("/gaming-headphones-nepal", Weekly, 0.9),
      UrlEntry("/pc-accessories-nepal", Weekly, 0.9),
      UrlEntry("/mobile-gadgets-nepal", Weekly, 0.9),
      UrlEntry("/tech-accessories-nepal", Weekly, 0.9),
      UrlEntry("/gaming-gear-nepal", Weekly, 0.9),
      UrlEntry("/computer-peripherals-nepal", Weekly, 0.9),
      UrlEntry("/ajazz-keyboard-nepal", Weekly, 0.9),
      UrlEntry("/dopetech-nepal", Weekly, 0.9),
      UrlEntry("/dopetech-np", Weekly, 0.9),
      UrlEntry("/premium-keyboard-nepal", Weekly, 0.9),
      UrlEntry("/gaming-accessories-nepal", Weekly, 0.9),
      UrlEntry("/tech-store-nepal", Weekly, 0.9),
      UrlEntry("/kathmandu-tech-store", Weekly, 0.8),
      UrlEntry("/patan-tech-shop", Weekly, 0.8),
      UrlEntry("/nepal-gaming", Weekly, 0.8),
      UrlEntry("/nepal-esports", Weekly, 0.8) ]
  }

  /** The keyword pages: all weekly, the first sixteen at 0.9 and the last four at 0.8. */
  lemma AdditionalPathsShape()
    ensures var es := AdditionalPaths();
      (forall i :: 0 <= i < |es| ==> es[i].changefreq == Weekly)
      && (forall i :: 0 <= i < 16 ==> es[i].priority == 0.9)
      && (forall i :: 16 <= i < 20 ==> es[i].priority == 0.8)
  {
  }

  /** The path `transform` sees for an absolute URL of the site: the home page is `/`. */
  function PathOf(url: string): (path: string)
    requires StructuredData.SiteUrl <= url
  {
    if url == StructuredData.SiteUrl then "/" else url[|StructuredData.SiteUrl|..]
  }

  /** The two sitemap sources agree: every entry `generateSitemapData` lists gets the same
      change frequency and priority from `transform` on its path. */
  lemma SitemapAgreesWithTransform(products: seq<Listing>, i: nat)
    requires i < 4 + |products|
    ensures var e := SitemapData(products)[i];
      var t := Transform(PathOf(e.loc));
      t.changefreq == e.changefreq && t.priority == e.priority
  {
    var es := SitemapData(products);
    var base := StructuredData.SiteUrl;
    if i >= 4 {
      var p := products[i - 4];
      var path := Slugs.ProductUrl(p.id, p.name);
      assert es[i].loc == base + path;
      assert (base + path)[|base|..] == path;
      assert base + path != base;
    } else {
      var fixed := FixedEntries();
      assert es[i] == fixed[i];
      FixedPaths();
      if i == 0 {
        assert Transform(PathOf(fixed[0].loc)) == UrlEntry("/", Daily, 1.0);
      } else if i == 1 {
        assert Transform(PathOf(fixed[1].loc)) == UrlEntry("/support", Weekly, 0.8);
      } else if i == 2 {
        assert Transform(PathOf(fixed[2].loc)) == UrlEntry("/terms", Monthly, 0.5);
      } else {
        assert "/sitemap.xml"[1] != "/product/"[1];
        assert Transform(PathOf(fixed[3].loc)) == UrlEntry("/sitemap.xml", Weekly, 0.7);
      }
    }
  }

  lemma FixedPaths()
    ensures var es := FixedEntries();
      PathOf(es[0].loc) == "/" && PathOf(es[1].loc) == "/support"
      && PathOf(es[2].loc) == "/terms" && PathOf(es[3].loc) == "/sitemap.xml"
  {
    var base := StructuredData.SiteUrl;
    assert (base + "/support")[|base|..] == "/support";
    assert (base + "/terms")[|base|..] == "/terms";
    assert (base + "/sitemap.xml")[|base|..] == "/sitemap.xml";
  }
}

=== FILE: structured_data.dfy ===
/** The schema.org structured data built from lists: breadcrumbs and FAQ pages. */
module StructuredData {
  const SiteUrl: string := "https://www.dopetechnp.com"

  datatype Crumb = Crumb(name: string, url: string)

  /** A schema.org `ListItem`. */
  datatype ListItem = ListItem(position: nat, name: string, item: string)

  datatype Faq = Faq(question: string, answer: string)

  /** A schema.org `Question` with its accepted `Answer`. */
  datatype Question = Question(name: string, acceptedAnswer: string)

  /** `generateBreadcrumbStructuredData`: one `ListItem` per crumb, numbered from 1, whose
      item is the absolute URL. */
  function Breadcrumbs(crumbs: seq<Crumb>): (items: seq<ListItem>)
    ensures |items| == |crumbs|
    ensures forall i :: 0 <= i < |items| ==> items[i].position == i + 1
    ensures forall i :: 0 <= i < |items| ==> SiteUrl <= items[i].item
  {
    seq(|crumbs|, i requires 0 <= i < |crumbs| => ListItem(i + 1, crumbs[i].name, SiteUrl + crumbs[i].url))
  }

  /** Reading the crumbs back from the list items: the names, and the URLs without the site. */
  function CrumbsOf(items: seq<ListItem>): (crumbs: seq<Crumb>)
    requires forall i :: 0 <= i < |items| ==> SiteUrl <= items[i].item
    ensures |crumbs| == |items|
  {
    seq(|items|, i requires 0 <= i < |items| => Crumb(items[i].name, items[i].item[|SiteUrl|..]))
  }

  /** Nothing about a crumb is lost: the list items give back the crumbs, in order. */
  lemma BreadcrumbsRoundTrip(crumbs: seq<Crumb>)
    ensures CrumbsOf(Breadcrumbs(crumbs)) == crumbs
  {
    var items := Breadcrumbs(crumbs);
    forall i | 0 <= i < |crumbs| ensures CrumbsOf(items)[i] == crumbs[i] {
      assert items[i].item[|SiteUrl|..] == crumbs[i].url;
    }
  }

  /** `generateFAQStructuredData`: one `Question` per pair, in order. */
  function FaqPage(faqs: seq<Faq>): (qs: seq<Question>)
    ensures |qs| == |faqs|
  {
    seq(|faqs|, i requires 0 <= i < |faqs| => Question(faqs[i].question, faqs[i].answer))
  }

  function FaqsOf(qs: seq<Question>): (faqs: seq<Faq>)
    ensures |faqs| == |qs|
  {
    seq(|qs|, i requires 0 <= i < |qs| => Faq(qs[i].name, qs[i].acceptedAnswer))
  }

  /** Every question and answer is carried over unchanged and in order. */
  lemma FaqPageRoundTrip(faqs: seq<Faq>)
    ensures FaqsOf(FaqPage(faqs)) == faqs
  {
  }

  /** The six questions of `generateGamingGearFAQStructuredData`, as constants. */
  const KeyboardsQuestion: string := "Where can I buy gaming keyboards in Nepal?"
  const KeyboardsAnswer: string :=
    "Dopetech Nepal offers the best selection of gaming keyboards and mechanical keyboards in Nepal. Visit our store in Patan Mangalbazar or shop online at dopetechnp.com for premium gaming gear."

  const MiceQuestion: string := "What gaming mouse options are available in Nepal?"
  const MiceAnswer: string :=
    "Dopetech Nepal provides high-quality gaming mouse and wireless mouse options in Nepal. We offer various brands and models suitable for different gaming needs and preferences."

  const HeadphonesQuestion: string := "Do you sell gaming headphones in Nepal?"
  const HeadphonesAnswer: string :=
    "Yes, Dopetech Nepal is your premier destination for gaming headphones and headsets in Nepal. We offer professional-grade audio equipment for gamers and content creators."

  const AccessoriesQuestion: string := "What PC accessories do you offer in Nepal?"
  const AccessoriesAnswer: string :=
    "Dopetech Nepal provides a complete range of PC accessories and computer peripherals in Nepal, including gaming gear, tech accessories, and mobile gadgets for your perfect setup."

  const BestStoreQuestion: string := "Is Dopetech Nepal the best tech store in Nepal?"
  const BestStoreAnswer: string :=
    "Dopetech Nepal is recognized as one of the premier tech stores in Nepal, specializing in gaming keyboards, mechanical keyboards, gaming mouse, wireless mouse, gaming headphones, and PC accessories."

  const LocationQuestion: string := "Where is Dopetech Nepal located?"
  const LocationAnswer: string :=
    "Dopetech Nepal is located in Patan Mangalbazar, Kathmandu, Nepal. We serve customers throughout Nepal with premium gaming gear and tech accessories."

  function GamingFaqs(): (faqs: seq<Faq>)
    ensures |faqs| == 6
  {
    [ Faq(KeyboardsQuestion, KeyboardsAnswer),
      Faq(MiceQuestion, MiceAnswer),
      Faq(HeadphonesQuestion, HeadphonesAnswer),
      Faq(AccessoriesQuestion, AccessoriesAnswer),
      Faq(BestStoreQuestion, BestStoreAnswer),
      Faq(LocationQuestion, LocationAnswer) ]
  }

  /** The gaming FAQ page has exactly six questions, the first about keyboards. */
  lemma GamingFaqPageShape()
    ensures |FaqPage(GamingFaqs())| == 6
    ensures FaqPage(GamingFaqs())[0].name == KeyboardsQuestion
  {
  }
}

=== FILE: text.dfy ===
/** The JavaScript string operations the storefront relies on, over `string = seq<char>`:
    `includes`, `indexOf`, `startsWith`, `toLowerCase` (ASCII letters only), `trim`,
    `split`, `join`, global `replace`, `Number.prototype.toString` for naturals and the
    plain-decimal subset of `parseFloat`. */
module Text {
  import opened Wrappers

  /** The characters of JavaScript's `\s` class, which are also those `trim` removes. */
  predicate IsSpace(c: char) {
    || c == ' ' || c == '\t' || c == '\n' || c == '\U{B}' || c == '\U{C}' || c == '\r'
    || c == '\U{A0}' || c == '\U{1680}' || ('\U{2000}' <= c <= '\U{200A}')
    || c == '\U{2028}' || c == '\U{2029}' || c == '\U{202F}' || c == '\U{205F}'
    || c == '\U{3000}' || c == '\U{FEFF}'
  }

  predicate IsDigit(c: char) { '0' <= c <= '9' }

  predicate IsLowerLetter(c: char) { 'a' <= c <= 'z' }

  predicate IsUpperLetter(c: char) { 'A' <= c <= 'Z' }

  /** The length of the leading run of whitespace. */
  function LeadingSpaces(s: string): (k: nat)
    ensures k <= |s|
    ensures forall i :: 0 <= i < k ==> IsSpace(s[i])
    ensures k < |s| ==> !IsSpace(s[k])
    decreases |s|
  {
    if |s| > 0 && IsSpace(s[0]) then 1 + LeadingSpaces(s[1..]) else 0
  }

  /** The length of the trailing run of whitespace. */
  function TrailingSpaces(s: string): (k: nat)
    ensures k <= |s|
    ensures forall i :: |s| - k <= i < |s| ==> IsSpace(s[i])
    ensures k < |s| ==> !IsSpace(s[|s| - k - 1])
    decreases |s|
  {
    if |s| > 0 && IsSpace(s[|s| - 1]) then 1 + TrailingSpaces(s[..|s| - 1]) else 0
  }

  /** `trimStart`: drops the leading run of whitespace and nothing else. */
  function TrimStart(s: string): string {
    s[LeadingSpaces(s)..]
  }

  /** `trimEnd`: drops the trailing run of whitespace and nothing else. */
  function TrimEnd(s: string): string {
    s[..|s| - TrailingSpaces(s)]
  }

  /** `trim`: the longest infix with no whitespace at either end. */
  function Trim(s: string): (r: string)
    ensures |r| > 0 ==> !IsSpace(r[0]) && !IsSpace(r[|r| - 1])
    ensures (forall i :: 0 <= i < |s| ==> !IsSpace(s[i])) ==> r == s
    ensures |r| <= |s|
    ensures forall i :: 0 <= i < |r| ==> r[i] in s
  {
    var u := TrimStart(s);
    assert forall i :: 0 <= i < |u| ==> u[i] == s[|s| - |u| + i];
    TrimEnd(u)
  }

  /** Nothing but whitespace: falsy once trimmed. */
  predicate Blank(s: string) {
    |Trim(s)| == 0
  }

  /** The form names are compared in: lower-cased, then trimmed. */
  function Normalize(s: string): string {
    Trim(Lower(s))
  }

  /** Normalising twice is normalising once. */
  lemma NormalizeIdempotent(s: string)
    ensures Normalize(Normalize(s)) == Normalize(s)
  {
    var n := Normalize(s);
    assert forall i :: 0 <= i < |n| ==> !IsUpperLetter(n[i]);
    assert Lower(n) == n;
    TrimOfTrimmed(n);
  }

  /** A string with no leading or trailing whitespace is its own trim. */
  lemma TrimOfTrimmed(s: string)
    requires |s| > 0 ==> !IsSpace(s[0]) && !IsSpace(s[|s| - 1])
    ensures Trim(s) == s
  {
  }

  function LowerChar(c: char): char {
    if IsUpperLetter(c) then (c as int + 32) as char else c
  }

  /** `toLowerCase`, restricted to the ASCII letters `A`-`Z`. */
  function Lower(s: string): (r: string)
    ensures |r| == |s|
    ensures forall i :: 0 <= i < |s| ==> r[i] == LowerChar(s[i])
  {
    seq(|s|, i requires 0 <= i < |s| => LowerChar(s[i]))
  }

  /** `s.includes(p)`: `p` occurs somewhere in `s` (the empty string occurs everywhere). */
  predicate Contains(s: string, p: string)
    decreases |s|
  {
    p <= s || (|s| > 0 && Contains(s[1..], p))
  }

  /** An occurrence at a known position is an occurrence. */
  lemma ContainsAt(s: string, p: string, i: nat)
    requires i + |p| <= |s| && s[i..i + |p|] == p
    ensures Contains(s, p)
    decreases i
  {
    if i > 0 {
      assert s[1..][i - 1..i - 1 + |p|] == p;
      ContainsAt(s[1..], p, i - 1);
    }
  }

  /** Prepending or appending text keeps an occurrence. */
  lemma ContainsInfix(a: string, p: string, b: string)
    ensures Contains(a + p + b, p)
  {
    assert (a + p + b)[|a|..|a| + |p|] == p;
    ContainsAt(a + p + b, p, |a|);
  }

  /** `s.indexOf(p)`: the first position where `p` occurs. */
  function IndexOf(s: string, p: string): (r: Option<nat>)
    ensures r.Some? ==> r.value + |p| <= |s| && s[r.value..r.value + |p|] == p
    ensures r.Some? ==> forall j :: 0 <= j < r.value ==> !(p <= s[j..])
    ensures r.None? <==> !Contains(s, p)
    decreases |s|
  {
    if p <= s then Some(0)
    else if |s| == 0 then None
    else match IndexOf(s[1..], p)
      case None => None
      case Some(i) => IndexOfStep(s, p, i); Some(i + 1)
  }

  /** An occurrence found in the tail, and none earlier there, is the first one in `s` when
      `s` does not start with `p`. */
  lemma IndexOfStep(s: string, p: string, i: nat)
    requires |s| > 0 && !(p <= s)
    requires i + |p| <= |s[1..]| && s[1..][i..i + |p|] == p
    requires forall j :: 0 <= j < i ==> !(p <= s[1..][j..])
    ensures i + 1 + |p| <= |s| && s[i + 1..i + 1 + |p|] == p
    ensures forall j :: 0 <= j < i + 1 ==> !(p <= s[j..])
  {
    assert s[i + 1..i + 1 + |p|] == s[1..][i..i + |p|];
    forall j | 0 <= j < i + 1 ensures !(p <= s[j..]) {
      if j > 0 {
        assert s[j..] == s[1..][j - 1..];
      }
    }
  }

  /** The text up to the first occurrence of `sep`, or all of `s` when there is none: the
      first piece of `s.split(sep)`. */
  function PieceBefore(s: string, sep: string): (r: string)
    requires |sep| > 0
    ensures r <= s
    ensures !Contains(r, sep)
    ensures Contains(s, sep) ==> r + sep <= s
  {
    match IndexOf(s, sep)
    case None => s
    case Some(j) =>
      NoEarlierOccurrence(s, sep, j);
      assert s[..j + |sep|] == s[..j] + sep;
      s[..j]
  }

  /** The first two pieces of `s.split(sep)` when `sep` occurs in `s`:
      `const [first, second] = s.split(sep)`. */
  function FirstTwoPieces(s: string, sep: string): (r: (string, string))
    requires |sep| > 0 && Contains(s, sep)
    ensures r.0 + sep <= s
    ensures !Contains(r.0, sep) && !Contains(r.1, sep)
    ensures r.1 <= s[|r.0| + |sep|..]
  {
    var first := PieceBefore(s, sep);
    (first, PieceBefore(s[|first| + |sep|..], sep))
  }

  /** No occurrence before the first one means none inside the prefix that ends there. */
  lemma NoEarlierOccurrence(s: string, p: string, i: nat)
    requires |p| > 0 && i <= |s|
    requires forall j :: 0 <= j < i ==> !(p <= s[j..])
    ensures !Contains(s[..i], p)
    decreases i
  {
    if i > 0 {
      assert !(p <= s) by {
        assert s[0..] == s;
      }
      assert s[..i] <= s;
      assert s[..i][1..] == s[1..][..i - 1];
      assert forall j :: 0 <= j < i - 1 ==> s[1..][j..] == s[j + 1..];
      NoEarlierOccurrence(s[1..], p, i - 1);
    }
  }

  /** `parts.join(sep)`. */
  function Join(parts: seq<string>, sep: string): string
    decreases |parts|
  {
    if |parts| == 0 then ""
    else if |parts| == 1 then parts[0]
    else parts[0] + sep + Join(parts[1..], sep)
  }

  /** `s.split(d)` for a one-character separator: always at least one piece, and an empty
      piece on each side of a leading, trailing or doubled separator. */
  function Split(s: string, d: char): (r: seq<string>)
    ensures |r| >= 1
    ensures forall i :: 0 <= i < |r| ==> d !in r[i]
    decreases |s|
  {
    if |s| == 0 then [""]
    else if s[0] == d then [""] + Split(s[1..], d)
    else
      var rest := Split(s[1..], d);
      [[s[0]] + rest[0]] + rest[1..]
  }

  lemma {:induction false} SplitNoSeparator(s: string, d: char)
    requires d !in s
    ensures Split(s, d) == [s]
    decreases |s|
  {
    if |s| > 0 {
      SplitNoSeparator(s[1..], d);
      assert [s[0]] + s[1..] == s;
    }
  }

  lemma {:induction false} SplitAtFirstSeparator(a: string, d: char, b: string)
    requires d !in a
    ensures Split(a + [d] + b, d) == [a] + Split(b, d)
    decreases |a|
  {
    if |a| == 0 {
      assert (a + [d] + b)[1..] == b;
    } else {
      assert (a + [d] + b)[1..] == a[1..] + [d] + b;
      SplitAtFirstSeparator(a[1..], d, b);
      assert [a[0]] + a[1..] == a;
    }
  }

  /** Splitting a join of separator-free pieces gives the pieces back. */
  lemma {:induction false} SplitJoin(parts: seq<string>, d: char)
    requires |parts| >= 1
    requires forall i :: 0 <= i < |parts| ==> d !in parts[i]
    ensures Split(Join(parts, [d]), d) == parts
    decreases |parts|
  {
    if |parts| == 1 {
      SplitNoSeparator(parts[0], d);
    } else {
      SplitJoin(parts[1..], d);
      SplitAtFirstSeparator(parts[0], d, Join(parts[1..], [d]));
      assert parts == [parts[0]] + parts[1..];
    }
  }

  /** `s.replace(/from/g, to)` for a literal pattern: scans left to right, replacing each
      occurrence and resuming after it, so overlapping occurrences are not all replaced. */
  function ReplaceAll(s: string, from: string, to: string): (r: string)
    requires |from| > 0
    ensures |from| == |to| ==> |r| == |s|
    ensures !Contains(s, from) ==> r == s
    decreases |s|
  {
    if |s| == 0 then ""
    else if from <= s then to + ReplaceAll(s[|from|..], from, to)
    else [s[0]] + ReplaceAll(s[1..], from, to)
  }

  function DigitChar(d: nat): char
    requires d < 10
  {
    ('0' as int + d) as char
  }

  /** The value of a run of decimal digits (`0` for the empty run). */
  function DigitsValue(s: string): nat
    requires forall i :: 0 <= i < |s| ==> IsDigit(s[i])
    decreases |s|
  {
    if |s| == 0 then 0
    else
      assert IsDigit(s[|s| - 1]);
      assert '0' as int <= s[|s| - 1] as int;
      DigitsValue(s[..|s| - 1]) * 10 + (s[|s| - 1] as int - '0' as int)
  }

  /** `n.toString()` for a natural number: decimal digits, no leading zero. */
  function NatToString(n: nat): (r: string)
    ensures |r| >= 1
    ensures forall i :: 0 <= i < |r| ==> IsDigit(r[i])
    ensures |r| > 1 ==> r[0] != '0'
    ensures DigitsValue(r) == n
    decreases n
  {
    if n < 10 then [DigitChar(n)]
    else
      var r := NatToString(n / 10) + [DigitChar(n % 10)];
      assert r[..|r| - 1] == NatToString(n / 10);
      r
  }

  /** Distinct numbers print differently, so number-keyed cache keys never collide. */
  lemma NatToStringInjective(m: nat, n: nat)
    requires NatToString(m) == NatToString(n)
    ensures m == n
  {
  }

  function Pow10(k: nat): (r: nat)
    ensures r >= 1
  {
    if k == 0 then 1 else 10 * Pow10(k - 1)
  }

  /** Length of the leading run of digits. */
  function DigitRun(s: string): (k: nat)
    ensures k <= |s|
    ensures forall i :: 0 <= i < k ==> IsDigit(s[i])
    ensures k < |s| ==> !IsDigit(s[k])
    decreases |s|
  {
    if |s| > 0 && IsDigit(s[0]) then 1 + DigitRun(s[1..]) else 0
  }

  /** A JavaScript number as `parseFloat` produces it: `NaN` or a value. */
  datatype Number = NaN | Num(v: real) {
    /** JavaScript truthiness of a number: `NaN` and zero are falsy. */
    predicate Truthy() { Num? && v != 0.0 }
  }

  /** `parseFloat` on plain decimal text: leading whitespace, an optional sign, digits with an
      optional fraction; anything after the longest such prefix is ignored, and no digit at
      all gives `NaN`. */
  function ParseFloat(s: string): (r: Number)
    ensures (forall i :: 0 <= i < |s| ==> !IsDigit(s[i])) ==> r == NaN
  {
    var t := TrimStart(s);
    var neg := |t| > 0 && t[0] == '-';
    var u := if |t| > 0 && (t[0] == '-' || t[0] == '+') then t[1..] else t;
    var whole := u[..DigitRun(u)];
    var rest := u[DigitRun(u)..];
    var frac := if |rest| > 0 && rest[0] == '.' then rest[1..][..DigitRun(rest[1..])] else "";
    if |whole| == 0 && |frac| == 0 then NaN
    else
      assert |whole| > 0 ==> whole[0] in s;
      assert |frac| > 0 ==> frac[0] in s;
      var mag := DigitsValue(whole) as real + DigitsValue(frac) as real / Pow10(|frac|) as real;
      Num(if neg then -mag else mag)
  }

  /** `parseFloat` reads back what `toString` printed. */
  lemma ParseFloatOfNat(n: nat)
    ensures ParseFloat(NatToString(n)) == Num(n as real)
  {
    var s := NatToString(n);
    assert !IsSpace(s[0]) && s[0] != '-' && s[0] != '+' by {
      assert IsDigit(s[0]);
    }
    assert TrimStart(s) == s;
    DigitRunAll(s);
    assert s[..DigitRun(s)] == s;
    assert |s[DigitRun(s)..]| == 0;
  }

  lemma DigitRunAll(s: string)
    requires forall i :: 0 <= i < |s| ==> IsDigit(s[i])
    ensures DigitRun(s) == |s|
  {
  }
}

=== FILE: wrappers.dfy ===
/** Optional values and fallible outcomes shared by every module of the model. */
module Wrappers {

  /** JavaScript `undefined`/`null` versus a present value. */
  datatype Option<+T> = None | Some(value: T) {

    /** The value, or `default` when absent (the `x ?? default` idiom). */
    function GetOr(default: T): T {
      match this
      case Some(v) => v
      case None => default
    }
  }

  /** The result of an asynchronous producer: it resolves with a value or rejects. */
  datatype Outcome<+T> = Ok(value: T) | Err
}
